=== FILE: README.md ===
# Patient-context lifecycle of the healthcare agent orchestrator, in Dafny

This project models the part of the orchestrator that decides, turn by turn,
which patient a conversation is about, and it proves properties of that model.

The patient-context service is a state machine over a `World`. A world holds:

- the chat context: the active patient, the in-memory roster and the history;
- the blob store: chat-context slots and the patient registry;
- the analyzer's state: its deployment, API version and kernel generation.

For each message the service answers with one of seven decisions: `NONE`,
`UNCHANGED`, `NEW_BLANK`, `SWITCH_EXISTING`, `CLEAR`,
`RESTORED_FROM_STORAGE` or `NEEDS_PATIENT_ID`. The language model behind the
analyzer is an oracle: a function from the prompt to the reply.

Around the service sit:

- the two stores it runs over:
  - the chat-context accessor, which handles slot paths, a read that never
    raises, write, archive, and serialize/deserialize;
  - the registry accessor, which handles read, write, upsert and archive;
- the per-turn steps shared by both front ends:
  - the clear command;
  - the wholesale swap to the active patient's stored history;
  - strip-and-reinject of the `PATIENT_CONTEXT_JSON` snapshot;
- the two front ends:
  - one turn of the WebSocket route: addressee parsing, the PT_CTX display,
    the `done` frame;
  - one turn of the Teams bot: the participant probe, `process_chat`, links,
    signed URLs, `on_error`;
- the group-chat set-up and the parsers for its selection and termination
  verdicts;
- three self-contained checks:
  - the Teams tenant middleware;
  - the "model supports temperature" test;
  - the FHIR sample-data ingest, with its batching and patient id map.

## How the model is built

- **Storage** is a map from blob path to record. A set of failing paths is the
  failure oracle: any upload, download or delete on one of them raises.
- **Timestamps** come in as an `Instant` parameter. Each operation takes one
  instant.
- **Python semantics are written out:**
  - truthiness of optional strings;
  - `str.strip`, with the full whitespace set;
  - `str.lower`, for ASCII only;
  - `str.replace`, including an empty pattern;
  - `split`;
  - `next(..., default)`, where the default is evaluated first.
- **Exceptions** are `Result` values. Every `except` in the source is an
  explicit branch.
- **Oracles**, each passed in as a function:
  - the JSON text of the snapshot (`Dump` and `Load`);
  - the group-chat run;
  - the bot-presence probe;
  - the URL signer;
  - the FHIR server.

Two comments in the source describe behaviour the code does not have. The
model follows the code:

- **Serialization does not drop the snapshot.** The comment at
  src/routes/api/chats.py:310 says the system snapshot is filtered in the
  accessor. `serialize` in fact writes every message, including the
  `PATIENT_CONTEXT_JSON` system message. The snapshot is removed only when the
  next turn re-injects it (`SnapshotIsPersisted`).
- **The analyzer does not null the patient id.** The prompt rules at
  src/services/patient_context_analyzer.py:105-107 ask the model to give an id
  only for the activating actions. The code returns whatever id a validated
  reply carries, for every action (`ModelDecisionPassesThrough`,
  `DecisionAnyActionAnyId`).

A few more facts about the code shape the model:

- **The stored patient history replaces the in-memory one only when it is
  non-empty** (`IsolatedSwap`).
- **A session read clears the patient id.** Reading the session slot sets the
  patient id to none, whatever the stored document says (`Read`). As a result,
  neither front end ever resets the analyzer's kernel (`RouteTurn`,
  `BotTurn`).
- **The bot does not refuse empty text.** It has no empty-content check, so
  even an empty message reaches the service.
- **`patient_context_models.py` defines every class twice.** The second
  definitions, which take effect, are the ones modelled. Both are identical.

## Model

| member | source | states |
|---|---|---|
| PatientContextModels.ParseActionExact | src/data_models/patient_context_models.py:76 | A string is accepted as an analyzer action exactly when it is that action's literal, so the five actions are a closed set |
| PatientContextModels.ValidateDecision | src/data_models/patient_context_models.py:86-102 | A decision validates iff action is one of the five literals, reasoning is a string, and patient_id is absent, null or a string; a missing patient_id gives none |
| PatientContextModels.DecisionRoundTrip | src/data_models/patient_context_models.py:86-102 | Dumping a decision and validating it gives the same decision back |
| PatientContextModels.DecisionAnyActionAnyId | src/data_models/patient_context_models.py:91-98 | Any action paired with any id, CLEAR with an id included, is a well-formed decision: the type links neither to the other |
| PatientContextModels.ValidateTiming | src/data_models/patient_context_models.py:79-83 | Timing info validates iff every field present is a number or a boolean; each missing field defaults to zero on its own, a present number is taken as given and a boolean as 1 or 0 |
| PatientContextModels.TimingRoundTrip | src/data_models/patient_context_models.py:79-83 | Timing info survives dump and validate |
| PatientContextModels.ValidateStep | src/data_models/patient_context_models.py:105-109 | A step needs string agent and task; status defaults to "pending" |
| PatientContextModels.StepsRoundTrip | src/data_models/patient_context_models.py:105-119 | A list of steps survives dump and validate, element by element |
| PatientContextModels.ValidateSummary | src/data_models/patient_context_models.py:112-121 | A summary validates iff patient_id is absent, null or a string, objective and reasoning are strings, steps is a list of valid steps and current_step is absent or integral; current_step defaults to 0 and patient_id to none, and the fields are taken as given |
| PatientContextModels.SummaryRoundTrip | src/data_models/patient_context_models.py:112-121 | A workflow summary survives dump and validate |
| PatientContextModels.SystemMessageRoundTrip | src/data_models/patient_context_models.py:124-129 | The system-message payload survives dump and validate |
| PatientContextModels.SystemMessageNeedsPatientId | src/data_models/patient_context_models.py:127 | A system-message payload with a null patient_id is rejected: the field is mandatory |
| PatientContextModels.ValidateRegistryEntry | src/data_models/patient_context_models.py:132-137 | A registry entry validates iff its three strings are present and message_count is absent, an integral number or a boolean; message_count defaults to 0 |
| PatientContextModels.RegistryEntryRoundTrip | src/data_models/patient_context_models.py:132-137 | A registry entry survives dump and validate |
| ChatContexts.ParseRoleExact | src/data_models/chat_context_accessor.py:238 | A stored role string is accepted exactly when it is a role's value; any other string raises |
| ChatContexts.NewPatientContext | src/data_models/chat_context.py:11-17 | A new patient context carries its id and empty facts |
| ChatContexts.NewChatContext | src/data_models/chat_context.py:20-36 | A new chat context has the conversation id, no patient, an empty roster and history, and every display and data list empty |
| BlobStore.Download | src/data_models/chat_context_accessor.py:86-111 | A download yields the stored record, raises ResourceNotFound for a missing path, and raises on a failing path |
| BlobStore.Upload | src/data_models/chat_context_accessor.py:117-128 | An upload replaces exactly one path, unless that path fails |
| BlobStore.DeleteIfPresent | src/data_models/patient_context_accessor.py:107-112 | A deletion that tolerates a missing blob removes exactly that path, unless the path fails |
| ChatContextAccessor.BlobPathsDistinct | src/data_models/chat_context_accessor.py:71-75 | An empty patient id maps to the session slot; a non-empty one never does; distinct non-empty ids get distinct slots |
| ChatContextAccessor.ArchivePathsAreNotLive | src/data_models/chat_context_accessor.py:130-179 | Neither archive destination is ever the live slot it archives |
| ChatContextAccessor.Serialize | src/data_models/chat_context_accessor.py:181-214 | Every message is written, in order and without filtering, as role, first text and name; schema version 2; the roster is not written |
| ChatContextAccessor.RestoreEntry | src/data_models/chat_context_accessor.py:233-259 | An entry raises iff its role is unknown, and this is checked before the content; it is skipped iff it has no role, no content, or is an empty tool message; otherwise the role, text and truthy name are restored |
| ChatContextAccessor.RestoreHistory | src/data_models/chat_context_accessor.py:229-261 | Restoring succeeds iff no entry raises; what it keeps is single-text messages, with no empty tool message |
| ChatContextAccessor.DeserializeHistory | src/data_models/chat_context_accessor.py:229-261 | The loop over chat_history computes the same result as the recursive definition, stopping at the first entry that raises |
| ChatContextAccessor.Deserialize | src/data_models/chat_context_accessor.py:216-272 | A document deserializes iff it has a conversation id and every entry restores; the roster comes back empty |
| ChatContextAccessor.HistoryRoundTrip | src/data_models/chat_context_accessor.py:181-272 | Restoring a stored history gives the history normalized: empty tool messages dropped, empty names removed |
| ChatContextAccessor.RoundTrip | src/data_models/chat_context_accessor.py:181-272 | Deserializing a serialized context returns it with its history normalized and its roster emptied |
| ChatContextAccessor.TextHistoryIsStable | src/data_models/chat_context_accessor.py:181-272 | A history of single-text messages, with no empty tool message and no empty name, survives the round trip unchanged |
| ChatContextAccessor.Read | src/data_models/chat_context_accessor.py:77-115 | A read never raises. With a patient id, the result has that id and that id alone in the roster; without one, the id is none even if the file had one. A missing or undecodable slot gives a fresh context |
| ChatContextAccessor.Write | src/data_models/chat_context_accessor.py:117-128 | The context's own patient id selects the slot; only that slot changes, and it holds the serialized context |
| ChatContextAccessor.WriteThenRead | src/data_models/chat_context_accessor.py:77-128 | Reading back a written slot gives the context with its history normalized and its roster reduced to the patient read |
| ChatContextAccessor.UnknownRoleReadsFresh | src/data_models/chat_context_accessor.py:105-111 | A stored entry with an unknown role makes the read return a fresh, empty context for that slot |
| ChatContextAccessor.Archive | src/data_models/chat_context_accessor.py:130-150 | Archive copies the serialized context to the timestamped path and deletes the live slot; it fails iff either path fails |
| ChatContextAccessor.ArchiveToFolder | src/data_models/chat_context_accessor.py:152-179 | The live blob moves to the folder path and the live key is removed; a missing source or a failing path changes nothing, and nothing raises |
| RegistryAccessor.RegistryArchivePathIsNotLive | src/data_models/patient_context_accessor.py:23-25 | The registry's archive path is never the live registry key |
| RegistryAccessor.ReadRegistry | src/data_models/patient_context_accessor.py:33-52 | Returns the stored registry and active id; a missing, failing or undecodable blob gives an empty registry and no active id |
| RegistryAccessor.WriteRegistry | src/data_models/patient_context_accessor.py:54-70 | Fails iff the registry path fails; otherwise only that path changes, and it reads back as written |
| RegistryAccessor.UpdatePatientRegistry | src/data_models/patient_context_accessor.py:72-81 | The upsert replaces only pid's entry, with the time stamped on it; active becomes the given id when there is one, else stays as stored |
| RegistryAccessor.UpdateKeepsOtherEntries | src/data_models/patient_context_accessor.py:72-81 | Every other entry is present after the upsert iff it was before, with the same value |
| RegistryAccessor.TwoUpdates | src/data_models/patient_context_accessor.py:72-81 | Two upserts for different patients leave both present, and active is the last one given |
| RegistryAccessor.CorruptRegistryIsOverwritten | src/data_models/patient_context_accessor.py:50-52 | An undecodable registry reads as empty, so the next upsert leaves a one-entry registry |
| RegistryAccessor.ArchiveRegistry | src/data_models/patient_context_accessor.py:83-117 | An empty registry is left alone. Otherwise it succeeds iff both paths accept writes; the archive then holds the registry and active id, and the live registry reads back empty |
| Analyzer.NewAnalyzer | src/services/patient_context_analyzer.py:30-56 | The deployment is the truthy argument, else PATIENT_CONTEXT_DECIDER_DEPLOYMENT_NAME, else AZURE_OPENAI_DEPLOYMENT_NAME, and a ValueError when none is truthy. The API version is the truthy argument, else AZURE_OPENAI_API_VERSION, else the fixed default. The kernel starts fresh |
| Analyzer.ResetKernel | src/services/patient_context_analyzer.py:223-243 | Resetting gives a new kernel and keeps the deployment and API version |
| Analyzer.AnalyzeDecision | src/services/patient_context_analyzer.py:62-187 | Never raises. Blank input gives NONE without the model. A reply that validates is returned unchanged, whatever its action and id. Anything else gives NONE with no id |
| Analyzer.Interpret | src/services/patient_context_analyzer.py:133-179 | An accepted reply is returned as it is; an empty, unparseable, invalid or unexpected reply gives NONE with no id |
| Analyzer.OnlyTheModelNamesPatients | src/services/patient_context_analyzer.py:82-187 | Any decision other than a bare NONE comes from a validated model reply to non-blank input |
| Analyzer.BlankInputIgnoresModel | src/services/patient_context_analyzer.py:82-87 | On blank input two different models give the same decision: the model is not consulted |
| Analyzer.MissingKnownIsEmpty | src/services/patient_context_analyzer.py:79-80 | A missing known-patient list acts as the empty one |
| Analyzer.ModelDecisionPassesThrough | src/services/patient_context_analyzer.py:155-179 | A decision the model returns as a dict comes back exactly, so the id is not nulled for non-activating actions |
| Analyzer.AnalyzeWithTiming | src/services/patient_context_analyzer.py:190-208 | The timed call gives the same decision as the plain one, together with the elapsed time |
| Analyzer.Analyze | src/services/patient_context_analyzer.py:211-221 | Returns exactly the action, id and duration of the timed decision |
| PatientContextService.MatchPatientId | src/services/patient_context_service.py:18 | The scan agrees with the anchored pattern `patient_` plus digits, where `$` also accepts one final newline |
| PatientContextService.PatientIdShape | src/services/patient_context_service.py:18 | The stem plus digits matches, with or without one trailing newline; two trailing newlines do not |
| PatientContextService.PatientIdExamples | src/services/patient_context_service.py:18 | "patient_4" matches; "abc", "patient_", "Patient_4" and "patient_4a" do not |
| PatientContextService.Hydrate | src/services/patient_context_service.py:38-52 | The roster becomes exactly the registry's patients, with their facts; nothing else changes; without a registry accessor nothing changes at all |
| PatientContextService.HydrateIdempotent | src/services/patient_context_service.py:38-52 | Hydrating twice is hydrating once |
| PatientContextService.TryRestore | src/services/patient_context_service.py:208-220 | Restore succeeds iff there is a registry accessor, the registry is non-empty and its active id is in it; it then hydrates and activates that id; otherwise nothing changes |
| PatientContextService.UpdateRegistryStorage | src/services/patient_context_service.py:169-188 | Touches only the registry. When a patient is active and in the roster, the registry gains that patient's stamped entry and marks it active; otherwise nothing changes |
| PatientContextService.ArchivePatients | src/services/patient_context_service.py:153-157 | Every listed patient's slot that exists, where neither it nor its folder archive fails, is moved to that archive. An archive whose slot is already gone is never overwritten. Nothing outside these slots and archives changes |
| PatientContextService.RegistryOutsidePatientSlots | src/services/patient_context_service.py:153-163 | The registry key is none of the patient slots or archive paths, so archiving patients leaves it alone |
| PatientContextService.ArchiveContexts | src/services/patient_context_service.py:148-157 | The session slot and each listed patient's slot are moved to the folder archive when they can be, each attempt standing alone; the registry is left as it was |
| PatientContextService.ClearStore | src/services/patient_context_service.py:137-163 | With a context accessor, the session slot and every registry patient's slot are moved to `archive/<folder>` when they exist and their paths accept writes. When the registry and its archive path accept writes, the registry ends empty. Failures are swallowed, and with neither accessor the store is unchanged |
| PatientContextService.ArchiveAllAndRecreate | src/services/patient_context_service.py:132-167 | Whatever the archival did, the context ends with no patient, no roster and no history; the kernel is reset iff a patient was active |
| PatientContextService.Activate | src/services/patient_context_service.py:190-206 | The same id gives UNCHANGED with no effect. Otherwise the id becomes active and joins the hydrated roster, and the history is kept. The result is SWITCH_EXISTING iff the id was already known, else NEW_BLANK. The kernel is reset iff another patient was active, and only the registry changes: it records the id as active |
| PatientContextService.NoPatientOutcome | src/services/patient_context_service.py:93-100 | NONE gives UNCHANGED with an active patient, otherwise the restore attempt's outcome |
| PatientContextService.DecideAndApply | src/services/patient_context_service.py:54-112 | The conversation is kept. CLEAR empties patient, roster and history. Every other decision keeps the history. NEEDS_PATIENT_ID changes only the hydration. Every activation leaves an active patient in the roster |
| PatientContextService.ApplyDecision | src/services/patient_context_service.py:83-104 | After hydration the analyzer's action is mapped to a decision: both activating actions go through the same activation |
| PatientContextService.ApplyActivation | src/services/patient_context_service.py:88-92 | A missing id, or one the pattern rejects, gives NEEDS_PATIENT_ID with nothing changed; otherwise the activation runs |
| PatientContextService.SetExplicit | src/services/patient_context_service.py:114-130 | Returns false with no change iff the pattern rejects the id. Otherwise the id is active and joins the hydrated roster, and the history is kept. The kernel is reset iff a different patient was active. Only the registry blob changes, and it holds the id and marks it active |
| PatientContextService.SetExplicitIsActivation | src/services/patient_context_service.py:114-130 | Choosing a valid patient who is not already active has exactly the effect of the analyzer's activation of that patient (lines 190-206) |
| PatientContextService.ShortChatterSkipsAnalyzer | src/services/patient_context_service.py:60-71 | Short text without a keyword gives the same result under any model. The result is RESTORED_FROM_STORAGE or NONE with no active patient, and UNCHANGED after hydration otherwise |
| PatientContextService.MalformedIdNeedsPatientId | src/services/patient_context_service.py:88-90 | An activation with a missing or malformed id gives NEEDS_PATIENT_ID; the active patient, the store and the analyzer are untouched |
| PatientContextService.ActivationKindIrrelevant | src/services/patient_context_service.py:88-92 | ACTIVATE_NEW and SWITCH_EXISTING with the same id lead to the same decision and world |
| PatientContextService.ActivationKernel | src/services/patient_context_service.py:190-194 | An activation resets the kernel exactly when a patient was active and the result is NEW_BLANK or SWITCH_EXISTING |
| PatientContextService.KernelResetExactly | src/services/patient_context_service.py:54-135 | Over a whole decision, the kernel is reset exactly when a patient was active and the result is CLEAR, NEW_BLANK or SWITCH_EXISTING; deployment and API version never change |
| PatientContextService.NoneRestoresIff | src/services/patient_context_service.py:93-98 | NONE with no active patient restores iff the registry is non-empty and names an active patient it holds; the restored id is that one and the store is untouched; otherwise the result is NONE |
| PatientContextService.SameIdIsUnchanged | src/services/patient_context_service.py:191-192 | Activating the active patient changes nothing |
| PatientContextService.BareIdMentionsKeyword | src/services/patient_context_service.py:61-63 | A bare id such as "patient_4" contains the keyword "patient", so it always reaches the analyzer |
| PatientContextService.FirstPatientScenario | src/services/patient_context_service.py:54-206 | In a fresh conversation, a first ACTIVATE_NEW for a valid id gives NEW_BLANK. The id is then active and alone in the roster, the kernel is not reset, and the registry marks the id active |
| Snapshots.SnapshotOf | src/routes/api/chats.py:265-270 | The snapshot records the conversation, the active patient and the roster ids, sorted |
| Snapshots.SnapshotMessage | src/routes/api/chats.py:271-272 | The snapshot line is a system message starting with the prefix |
| Snapshots.StripSnapshots | src/routes/api/chats.py:259-264 | Stripping leaves no snapshot |
| Snapshots.StripKeepsOthers | src/routes/api/chats.py:259-264 | A message survives stripping iff it was there and is not a snapshot |
| Snapshots.StripConcat | src/routes/api/chats.py:259-264 | Stripping distributes over concatenation, so the order of kept messages is preserved |
| Snapshots.StripClean | src/routes/api/chats.py:259-264 | A history without snapshots is left as it is |
| Snapshots.InjectSnapshot | src/routes/api/chats.py:259-273 | The fresh snapshot is at index 0 and is the only snapshot; the rest is the stripped history |
| Snapshots.InjectTwice | src/routes/api/chats.py:259-273 | Injecting again replaces the earlier snapshot completely |
| Snapshots.SnapshotIsPersisted | src/data_models/chat_context_accessor.py:181-214 | A history opening with the snapshot is serialized with the snapshot as its first, system entry |
| Snapshots.SystemPatientContextJson | src/routes/api/chats.py:92-106 | With no snapshot in the history there is no payload, and a payload found is never empty |
| Snapshots.ScanSkipsClean | src/routes/api/chats.py:92-106 | Messages after the last snapshot do not change what the backwards scan finds |
| Snapshots.PayloadAfterInject | src/routes/api/chats.py:92-106 | After injection, whatever non-snapshot messages follow, the scan finds exactly the fresh payload, less leading whitespace |
| Snapshots.AppendPcCtxDisplay | src/routes/api/chats.py:108-142 | The result starts with the reply. It is the reply alone when there is no payload or the payload is not JSON, and it raises iff the payload decodes to a non-object |
| Snapshots.DisplayBlockOfSnapshot | src/routes/api/chats.py:108-142 | The display block of a snapshot's JSON is determined by the snapshot's own fields |
| Snapshots.DisplayOfInjectedSnapshot | src/routes/api/chats.py:92-142 | With a codec that reads back what it writes, a reply is displayed followed by the block of the freshly injected snapshot |
| TurnSteps.ClearCommandIgnoresCase | src/routes/api/chats.py:145-146 | Case does not matter to the clear command |
| TurnSteps.ClearedContext | src/routes/api/chats.py:167-172 | After a clear there is no patient, no roster and no history, and the conversation is kept |
| TurnSteps.ArchiveForClear | src/routes/api/chats.py:148-164 | The archival never raises. When the registry and its archive path accept writes, the registry ends empty |
| TurnSteps.HandleClear | src/routes/api/chats.py:144-175 | The clear runs iff the text is a clear phrase. The cleared context is written to the session slot whatever the archival did, and the write fails iff that slot fails |
| TurnSteps.ClearLeavesNothing | src/routes/api/chats.py:144-175 | When the writes succeed, the session slot reads back with no history and no patient, and the registry reads back empty |
| TurnSteps.IsolatedSwap | src/routes/api/chats.py:249-255 | Only the history changes. With an active patient it becomes the stored patient history when that is non-empty, and otherwise stays the session's |
| TurnSteps.PrepareHistory | src/routes/api/chats.py:249-273 | The history of the turn is the swapped history, stripped, under a fresh snapshot of the context |
| TurnSteps.EmptySlotKeepsSession | src/routes/api/chats.py:249-255 | A patient whose slot is empty keeps the session history |
| ChatsRoute.NewRouteEnv | src/routes/api/chats.py:87-88 | The route's facilitator is the first configuration flagged as facilitator, else the first configuration; an empty configuration list raises IndexError |
| ChatsRoute.RouteFacilitatorLeadsTheChat | src/routes/api/chats.py:87-88 | With no "magentic" configuration, the facilitator the route picks is the one the group chat is set up with |
| ChatsRoute.PickTarget | src/routes/api/chats.py:280-291 | An empty roster raises IndexError. An explicit target is a roster member other than the facilitator. No target means the facilitator was chosen |
| ChatsRoute.AddressedAgentIsPicked | src/routes/api/chats.py:281-291 | "Name: …" addressing an agent, in any case, picks that agent, or no target when it is the facilitator |
| ChatsRoute.UnaddressedGoesToStrategy | src/routes/api/chats.py:281-291 | Without a colon the turn goes to the facilitator, that is to the selection strategy |
| ChatsRoute.Deliver | src/routes/api/chats.py:293-308 | Only bot messages are sent, at most one per response |
| ChatsRoute.DeliverWithBlock | src/routes/api/chats.py:293-308 | When every display appends the same block, the responses with content are sent in order with that block, and empty ones are skipped |
| ChatsRoute.TurnRepliesShowSnapshot | src/routes/api/chats.py:257-308 | Every reply of a turn carries the PT_CTX block of the snapshot injected before the user's message, and the history still opens with that snapshot |
| ChatsRoute.Conclude | src/routes/api/chats.py:293-317 | The state changes only through the write of the whole turn, with the display lists the tools filled during the chat. Any exception is sent as an error. No `done` is sent here |
| ChatsRoute.ConverseAfterDelivery | src/routes/api/chats.py:293-317 | Once every reply is delivered, what remains is the write; a failing write is sent as an error |
| ChatsRoute.ConverseShowsDecidedContext | src/routes/api/chats.py:249-311 | A turn whose chat completes sends every reply with the block of the context the service left. On a successful write, the slot of the active patient reads back as the whole turn, snapshot first, with every display list extended by what the tools added |
| ChatsRoute.RouteTurn | src/routes/api/chats.py:204-317 | Empty content is refused with the fixed error and changes nothing. Any other turn ends with exactly one `done`. The analyzer's kernel is never reset, because the session is read with no patient |
| ChatsRoute.Dispatch | src/routes/api/chats.py:212-246 | A turn the service sends back for an id gets the fixed request, writes nothing and starts no chat |
| ChatsRoute.AnswerClear | src/routes/api/chats.py:215-225 | When its writes succeed, a clear answers with the fixed reply and leaves the session history and the registry empty |
| ChatsRoute.Proceed | src/routes/api/chats.py:228-311 | The service decides. NEEDS_PATIENT_ID gets the fixed reply and no change; otherwise the chat runs on the context the service left |
| AssistantBot.OnError | src/bots/assistant_bot.py:187-194 | The busy text gives the wait reply. Otherwise NotAuthorizedError gives the refusal and anything else the retry reply. No exception text is shown |
| AssistantBot.RefusedActivityIsTold | src/bots/access_control_middleware.py:21-52 | If the middleware is installed on the bot's adapter, a refused activity is told it is not authorized and a missing tenant setting asks for a retry; the adapters of src/app.py:98-101 do not install it |
| AssistantBot.WithPtCtx | src/bots/assistant_bot.py:205-216 | The reply is kept as a prefix. The block is added iff the roster is non-empty and the reply has no "PT_CTX:" yet |
| AssistantBot.PtCtxOnce | src/bots/assistant_bot.py:210-216 | Adding the block twice adds it once |
| AssistantBot.AppendLinks | src/bots/assistant_bot.py:239-257 | The message is kept as a prefix, followed by the images and then the trials. Both lists are emptied |
| AssistantBot.LinksShownOnce | src/bots/assistant_bot.py:239-257 | A second call adds nothing |
| AssistantBot.EveryLinkShown | src/bots/assistant_bot.py:239-257 | Every listed image and trial URL is linked in the message |
| AssistantBot.GenerateSas | src/bots/assistant_bot.py:259-266 | The blob list is emptied; with no blob URLs the message is unchanged |
| AssistantBot.UnmentionedBlobsLeaveText | src/bots/assistant_bot.py:259-266 | A message mentioning none of the blob URLs is sent as it is |
| AssistantBot.Render | src/bots/assistant_bot.py:205-228 | Rendering consumes every display list; with none to consume, the reply is its content plus the PT_CTX block |
| AssistantBot.Delivered | src/bots/assistant_bot.py:196-237 | At most one message per response, each rendered against the context with what the tools added before it. Only the display lists change; when the tools add nothing, they are consumed if something is sent and untouched otherwise |
| AssistantBot.LaterRepliesArePlain | src/bots/assistant_bot.py:196-237 | With the lists empty and no tool adding to them during the chat, each response with content is sent with its block, up to the first one on a complete chat |
| AssistantBot.RefillShowsOnLaterReply | src/bots/assistant_bot.py:201-266 | Lists the tools refill after the first reply are shown on the next: the second reply links every image and trial added before it |
| AssistantBot.ProcessChat | src/bots/assistant_bot.py:196-237 | The loop takes in the tools' additions at each response, skips blank responses, sends the others rendered, and stops after the first one sent on a complete chat |
| AssistantBot.Reachable | src/bots/assistant_bot.py:158-172 | The probe filter keeps exactly the configurations whose bot is reachable |
| AssistantBot.Participants | src/bots/assistant_bot.py:158-172 | Only a turn whose history is the snapshot alone is filtered; every reachable agent is kept |
| AssistantBot.UnreachableFallsBackToAll | src/bots/assistant_bot.py:158-174 | If no bot is reachable, the empty participant list falls back to the whole roster |
| AssistantBot.FirstTurnIsSnapshotOnly | src/bots/assistant_bot.py:133-158 | The prepared history is the snapshot alone iff the swapped history held only snapshots |
| AssistantBot.ConfigNamed | src/bots/assistant_bot.py:197-199 | Finds a configuration with the bot's name, or reports that there is none |
| AssistantBot.Mentioned | src/bots/assistant_bot.py:197-199 | No mentioned agent iff this bot's configuration is the facilitator; otherwise this bot's own agent; a missing one raises StopIteration |
| AssistantBot.AgentMessages | src/bots/assistant_bot.py:230-234 | Every message sent goes through the bot of the agent that wrote it |
| AssistantBot.BotTurn | src/bots/assistant_bot.py:109-185 | A clear whose writes succeed answers "Conversation cleared!" and leaves the session and registry empty. A turn sent back for an id gets the fixed request and nothing is written. The kernel is never reset |
| AssistantBot.Proceed | src/bots/assistant_bot.py:126-185 | The service decides. NEEDS_PATIENT_ID gets the fixed reply; otherwise the chat runs on the context the service left |
| GroupChat.AgentNames | src/group_chat.py:59 | The names of the agents, in order |
| GroupChat.ParticipantConfigs | src/group_chat.py:58 | A missing or empty participant list means the whole roster |
| GroupChat.WithoutMagentic | src/group_chat.py:63-65 | Exactly the participants not named "magentic" join |
| GroupChat.FirstFlagged | src/group_chat.py:139 | Finds the first configuration flagged as facilitator |
| GroupChat.FacilitatorOf | src/group_chat.py:139-140 | The facilitator is the first flagged member, else the first member, and so always a member; an empty roster raises IndexError |
| GroupChat.AuthHeaders | src/group_chat.py:43-52 | OpenAPI calls send exactly the conversation-id header |
| GroupChat.ToolPlugin | src/group_chat.py:91-115 | The tool type defaults to "function"; "openapi" gets the conversation header; any other type raises ValueError |
| GroupChat.ToolPlugins | src/group_chat.py:91-115 | An agent's tools are all built, in order, unless one raises |
| GroupChat.AgentLines | src/group_chat.py:124 | One "- name: description" line per member; a missing description raises |
| GroupChat.Instructions | src/group_chat.py:121-124 | Only a facilitator's non-empty instructions get the agent list in place of the placeholder |
| GroupChat.CreateAgent | src/group_chat.py:79-133 | A healthcare agent takes no settings. Any other agent gets the configured temperature (default 0) and seed 42, and it is built iff its tools and instructions are |
| GroupChat.CreateGroupChat | src/group_chat.py:55-260 | The agents are the members in order and the facilitator is computed as above. Only agents named like the facilitator may terminate. At most 30 iterations, and termination sees one message |
| GroupChat.FacilitatorIsMember | src/group_chat.py:139-140 | The facilitator of a chat that was set up is one of its agents |
| GroupChat.OnlyMagenticFails | src/group_chat.py:63-65 | A roster of only "magentic" cannot host a chat |
| GroupChat.ParseChatRule | src/group_chat.py:38-40 | A rule is read only from an object with a string verdict |
| GroupChat.RuleRoundTrip | src/group_chat.py:38-40 | A rule survives encoding and parsing |
| GroupChat.EvaluateTermination | src/group_chat.py:208-217 | Ends the chat iff the first value parses and its verdict is exactly "yes" |
| GroupChat.EvaluateSelection | src/group_chat.py:219-229 | The selection is the facilitator or a member, and it differs from the facilitator only when it is the parsed verdict |
| GroupChat.SelectionStaysInRoster | src/group_chat.py:219-229 | With the facilitator in the roster, the selection is always a member, and is the verdict iff the verdict is a member |
| GroupChat.TerminationOnVerdict | src/group_chat.py:208-217 | Termination on an encoded verdict is case-sensitive equality with "yes" |
| GroupChat.UnreadableVerdict | src/group_chat.py:215-229 | An unreadable verdict neither ends the chat nor leaves the facilitator |
| AccessControl.OnTurn | src/bots/access_control_middleware.py:21-52 | Unguarded activities pass. A missing tenant setting raises ValueError before the channel is checked. Otherwise the activity passes iff it comes from Teams with a tenant id equal to the setting, and every refusal is a NotAuthorizedError |
| AccessControl.OneTenantOnly | src/bots/access_control_middleware.py:39-46 | Two activities that get through carry the same, non-empty tenant id |
| AccessControl.OnlyTheTenantSettingMatters | src/bots/access_control_middleware.py:28-52 | No other environment variable affects the decision |
| AccessControl.EmptyTenantSettingAdmitsNothing | src/bots/access_control_middleware.py:39-48 | An application whose tenant setting is empty admits no message |
| ModelSupport.DeploymentName | src/utils/model_utils.py:20 | An unset variable reads as "" |
| ModelSupport.ModelSupportsTemperatureAsWritten | src/utils/model_utils.py:17-28 | False iff some listed entry, as written, occurs in the lower-cased deployment name |
| ModelSupport.UnsetDeploymentSupports | src/utils/model_utils.py:20-28 | With no deployment set, or an empty one, temperature is supported |
| ModelSupport.CapitalisedEntryNeverMatches | src/utils/model_utils.py:18-26 | The "DeepSeek-R1" entry never occurs in a lower-cased name |
| ModelSupport.DeepSeekSlipsThrough | src/utils/model_utils.py:18-26 | The deployment "DeepSeek-R1" is reported as accepting a temperature, though it is listed |
| ModelSupport.ModelSupportsTemperature | src/utils/model_utils.py:17-28 | Corrected: false iff some entry occurs in the name regardless of case |
| ModelSupport.ListedNameExcluded | src/utils/model_utils.py:17-18 | Corrected: every listed model, spelt as listed, is excluded |
| ModelSupport.ExclusionExtends | src/utils/model_utils.py:24-26 | A name containing an excluded name, in any case, is excluded too |
| ModelSupport.CorrectionOnlyAdds | src/utils/model_utils.py:24-26 | Whatever the source excludes, the correction excludes too |
| FhirIngest.SubjectId | infra/scripts/ingest_fhir_resources.py:79 | The subject id is the second "/" segment; a reference without a slash raises |
| FhirIngest.Remap | infra/scripts/ingest_fhir_resources.py:78-83 | A subject whose patient is mapped is re-pointed at "Patient/" plus the new id and flagged. Anything else is unchanged, and an empty map changes nothing |
| FhirIngest.Included | infra/scripts/ingest_fhir_resources.py:75-93 | The reference definition of what should be sent: with an empty map, everything; otherwise only resources whose patient was mapped |
| FhirIngest.RunSendsIncluded | infra/scripts/ingest_fhir_resources.py:75-100 | The loop's posted and pending entries together are exactly the included resources, rewritten, in order |
| FhirIngest.RunKeepsBatchSize | infra/scripts/ingest_fhir_resources.py:95-100 | With a batch size of at least one, every bundle posted in the loop is full and the pending one stays below the size |
| FhirIngest.Aliased | infra/scripts/ingest_fhir_resources.py:97-99 | Every recorded request shows the final entry list |
| FhirIngest.PostInBatchesAsWritten | infra/scripts/ingest_fhir_resources.py:58-108 | A missing path gives None. All recorded requests are one and the same list. One more bundle than the loop posted is recorded exactly when the last bundle is non-empty and the last resource read was kept, and only that bundle's post can then fail |
| FhirIngest.PostInBatches | infra/scripts/ingest_fhir_resources.py:58-108 | Corrected: a missing path gives None, and one more bundle than the loop posted is recorded exactly when the last bundle is non-empty |
| FhirIngest.EveryIncludedResourcePosted | infra/scripts/ingest_fhir_resources.py:58-108 | Corrected: every included resource is posted exactly once, in input order, as a POST of the given type |
| FhirIngest.BundlesRespectBatchSize | infra/scripts/ingest_fhir_resources.py:95-106 | Corrected: every bundle but the last is full, and the last holds between one and the batch size |
| FhirIngest.AddPairs | infra/scripts/ingest_fhir_resources.py:113-116 | Request entry i maps to response entry i; a short response raises |
| FhirIngest.IdMapCoversRequests | infra/scripts/ingest_fhir_resources.py:110-117 | The map is built iff no answer is shorter than its request; its keys are exactly the requested ids, and every value was assigned by the server |
| FhirIngest.AliasingLosesPatients | infra/scripts/ingest_fhir_resources.py:97-99 | As written: two patients posted one per bundle give an empty id map |
| FhirIngest.CorrectedIdMapKnowsEveryPatient | infra/scripts/ingest_fhir_resources.py:110-147 | Corrected: when the server answers every bundle in full, the id map knows every patient posted |
| FhirIngest.UnmappedLastDropsBatch | infra/scripts/ingest_fhir_resources.py:103 | As written: a mapped document followed by one without a subject is never posted |
| FhirIngest.CorrectedPostsMappedDocument | infra/scripts/ingest_fhir_resources.py:103-106 | Corrected: in the same situation, the mapped document is posted |

## Left out

- I/O and plumbing are not modelled:
  - Blob-SDK calls are replaced by a path-to-record map with a set of failing paths.
  - The WebSocket loop and JSON framing are reduced to a list of outgoing frames.
  - The Bot Framework adapter and typing activities are left out, as are `get_bot_context` and `create_turn_context`.
  - Logging and wall-clock timing are left out, and `TimingInfo` durations are parameters.
- The language model, the group-chat loop of the agent library, the presence probe, the URL signer and the FHIR server are oracle parameters: their code is not part of this model. The prompts' wording is left out. The chat oracle reports, besides its responses, what the agents' tools append to the shared context's display lists; any other change a tool makes to the context (its patient data, output data or summary) is not modelled.
- JSON text is an oracle pair (`Dump`/`Load`). Exact `json.dumps` formatting, uuid and the message timestamps are not modelled.
- Text.Lower: lower-cases ASCII letters only; Python's full Unicode case mapping is not modelled.
- The artifact archive of the bot's clear (`chat_artifact_accessor.archive`, src/bots/assistant_bot.py:122) is left out because its code is not part of this model. Only the context and registry archival is modelled.
- AssistantBot.BotTurn: the "Conversation cleared!" reply assumes the artifact archive at src/bots/assistant_bot.py:122 does not raise. In the source an exception there goes to the error handler and the reply is never sent.
- The removal of the bot's own mention from the Teams text is a library call. The text is taken as already stripped of it.
- AssistantBot.ErrorText: exceptions other than ValueError, NotAuthorizedError and generic errors are given an empty text. None of them can carry the busy text.
- The display-rewritten text the agent library keeps in the history is not modelled. The bot writes the history the chat appended.
- Import failures of scenario tool modules, a missing `AZURE_OPENAI_DEPLOYMENT_NAME` when a kernel is built, and configurations without a `name` are left out (configurations always have a name here).
- An explicit null tool `type` is treated like an absent one.
- `load_resources` and `get_access_token` in the ingest script are left out: file reading and token fetching. The resources are a parameter.
- The printed `total` of the ingest is output only and is not modelled.
- The middleware's `logic()` call without its context argument is modelled as "proceeds".
- ChatsRoute.Dispatch: does not restate the clear outcome. `ChatsRoute.AnswerClear` states it, and Dispatch calls it exactly for clear phrases.
- ChatsRoute.RouteTurn: states the empty-content refusal, the single closing `done` and the untouched kernel. The clear, NEEDS_PATIENT_ID and chat outcomes are stated on `Dispatch`, `AnswerClear`, `Proceed` and `ConverseShowsDecidedContext`.
- ChatsRoute.Converse: its own contract states only that the kernel is untouched and no `done` is sent. What a completed turn sends and writes is `ConverseShowsDecidedContext` and `ConverseAfterDelivery`.
- AssistantBot.Converse: its own contract states only that the kernel is untouched. The delivery loop is stated by `ProcessChat`, `LaterRepliesArePlain` and `RefillShowsOnLaterReply`.
- AssistantBot.LaterRepliesArePlain: holds only when no tool adds to the display lists during the chat. Lists refilled mid-chat show on the next reply, which `RefillShowsOnLaterReply` states.
- PatientContextModels.ValidateTiming, PatientContextModels.ValidateSummary and PatientContextModels.ValidateRegistryEntry: pydantic's lax mode also reads numeric strings into `float` and `int` fields. That string coercion is not modelled, so such strings are rejected here. Booleans and integral numbers are read as pydantic reads them. The source never validates these three models from JSON.
- FhirIngest.PostInBatches: its own contract states the missing-path case and the number of bundles. What the bundles hold is stated by `EveryIncludedResourcePosted` and `BundlesRespectBatchSize`.
- PatientContextService.ClearStore: a patient's folder archive is promised only when its name differs from the registry's archive name. With arbitrary strings for the conversation, patient id and timestamps the two names can coincide, and the registry archival would then overwrite that copy. Real timestamps rule this out, but the model does not constrain them.
- ChatsRoute.Deliver: computes every reply's PT_CTX block from the history as it stood before the chat ran. The source reads the context again at each response (src/routes/api/chats.py:298), after the chat has appended the earlier replies. The two agree as long as the appended replies are not snapshots, because the backwards scan passes over non-snapshot messages (`Snapshots.ScanSkipsClean`).
- Analyzer.AnalyzeDecision: the prompt carries the known patient ids as a set. The source passes a list in the roster's insertion order (src/services/patient_context_analyzer.py:66, 102). The model's roster is a map, which keeps no order, so the model oracle cannot see that order.
- The route's fallback to decision "NONE" when the service raises (src/routes/api/chats.py:231-233) has no counterpart. Every storage call of the service is guarded and the analyzer never raises, so the modelled service never raises.
- AssistantBot.RefusedActivityIsTold: states what happens when the access-control middleware runs on the bot's adapter. The source defines the middleware (src/bots/access_control_middleware.py:15), but the adapters built in src/app.py:98-101 install only the typing middleware, so nothing in the deployed wiring makes a refusal reach the user.
- ChatContextAccessor.RestoreEntry: a stored `content` that is present but null cannot be written down. The source skips such an entry for a tool message and stores the text "None" for every other role (src/data_models/chat_context_accessor.py:240-255). `Serialize` never writes a null content, so only documents written by other code are affected.
- RegistryAccessor.UpdatePatientRegistry: the failure oracle fails a path for every call, so it cannot express a read that fails transiently while the following write succeeds. In the source such a read gives an empty registry, and the upsert then overwrites the stored registry with a one-entry registry (src/data_models/patient_context_accessor.py:50-52, 74-81). The model covers only the undecodable case (`CorruptRegistryIsOverwritten`).
- Every decision is one of the seven `Decision` values by construction. An analyzer action outside the five literals cannot pass validation, so the service's final `else` branch is unreachable in the model.

## Findings

| source | as written | input that shows it | evidently intended | confidence | as-written member | corrected member |
|---|---|---|---|---|---|---|
| infra/scripts/ingest_fhir_resources.py:97-99 | Each recorded pair holds the one `batch_request` dict. Its entry list is replaced after every full batch, so every record shows the final list, and `create_patient_id_map` pairs responses with the wrong requests | Two patients without subjects, batch size 1: the id map comes out empty (with batch size 10, the same happens to the first ten of eleven patients) | Each record keeps the bundle that was posted, and the id map knows every patient posted | not executed; high | FhirIngest.AliasingLosesPatients | FhirIngest.CorrectedIdMapKnowsEveryPatient |
| infra/scripts/ingest_fhir_resources.py:103 | The last partial bundle is posted only if the last resource read was found in the id map | Batch size 2 and a non-empty id map: a document whose patient is mapped, then a document without a subject. Nothing is posted | A non-empty last bundle is always posted | not executed; high | FhirIngest.UnmappedLastDropsBatch | FhirIngest.CorrectedPostsMappedDocument |
| src/utils/model_utils.py:18-26 | Each entry is compared as written with the lower-cased name, so the capitalised "DeepSeek-R1" can never match | Deployment name "DeepSeek-R1": reported as supporting temperature | Compare case-insensitively, so every listed model is excluded | not executed; high | ModelSupport.DeepSeekSlipsThrough | ModelSupport.ListedNameExcluded |

=== FILE: access_control.dfy ===
/** The Teams bot's access-control middleware: message and
    installation-update activities are let through only from the Teams channel
    and only from the tenant the application is registered in. Other
    activities pass unchecked. The environment is a parameter. */
module AccessControl {
  import opened Outcomes

  const TeamsChannel: string := "msteams"
  const TenantVariable: string := "MicrosoftAppTenantId"

  /** The texts of the refusals. */
  const UnsetSuffix: string := " environment variable is not set."
  const NotTeamsPrefix: string := "Activity is not from Teams channel. Channel ID: "
  const NoTenantMessage: string := "No tenant ID found in channel data."
  const DeniedPrefix: string := "Access denied for tenant "

  datatype ActivityKind = Message | InstallationUpdate | OtherActivity(name: string)

  /** What the middleware reads from an activity; `tenantId` is the tenant
      id in the Teams channel data, when present. */
  datatype Activity = Activity(kind: ActivityKind, channelId: string, tenantId: Option<string>)

  /** The activity kinds the middleware inspects. */
  predicate Guarded(a: Activity) {
    a.kind == Message || a.kind == InstallationUpdate
  }

  function TenantSetting(env: map<string, string>): Option<string> {
    if TenantVariable in env then Some(env[TenantVariable]) else None
  }

  /** `on_turn`: `Ok(())` means the rest of the pipeline runs. The missing
      setting is reported before the channel is looked at; a missing or empty
      tenant id in Teams is refused, as is a foreign tenant or channel. */
  function OnTurn(a: Activity, env: map<string, string>): (r: Result<()>)
    ensures !Guarded(a) ==> r.Ok?
    ensures Guarded(a) && TenantSetting(env).None? ==> r.Raised? && r.error.ValueError?
    ensures Guarded(a) && TenantSetting(env).Some? && r.Raised? ==> r.error.NotAuthorizedError?
    ensures Guarded(a) ==>
      (r.Ok? <==> TenantSetting(env).Some? && a.channelId == TeamsChannel && Truthy(a.tenantId)
                  && a.tenantId.value == TenantSetting(env).value)
  {
    if !Guarded(a) then Ok(())
    else match TenantSetting(env)
      case None => Raised(ValueError(TenantVariable + UnsetSuffix))
      case Some(appTenant) =>
        if a.channelId != TeamsChannel then
          Raised(NotAuthorizedError(NotTeamsPrefix + a.channelId))
        else if !Truthy(a.tenantId) then Raised(NotAuthorizedError(NoTenantMessage))
        else if a.tenantId.value == appTenant then Ok(())
        else Raised(NotAuthorizedError(DeniedPrefix + a.tenantId.value + "."))
  }

  /** No cross-tenant access: two guarded activities that both get through
      carry the same tenant id, whatever else differs. */
  lemma OneTenantOnly(a: Activity, b: Activity, env: map<string, string>)
    requires Guarded(a) && Guarded(b)
    requires OnTurn(a, env).Ok? && OnTurn(b, env).Ok?
    ensures a.tenantId == b.tenantId && a.tenantId.Some? && a.tenantId.value != ""
  {
  }

  /** The decision depends only on the kind, channel and tenant of an
      activity and on the tenant setting: changing any other variable of the
      environment changes nothing. */
  lemma OnlyTheTenantSettingMatters(a: Activity, env1: map<string, string>, env2: map<string, string>)
    requires TenantSetting(env1) == TenantSetting(env2)
    ensures OnTurn(a, env1) == OnTurn(a, env2)
  {
  }

  /** An application registered with an empty tenant id admits no message
      at all, since an empty tenant id in the channel data is refused. */
  lemma EmptyTenantSettingAdmitsNothing(a: Activity, env: map<string, string>)
    requires Guarded(a)
    requires TenantSetting(env) == Some("")
    ensures OnTurn(a, env).Raised?
  {
  }
}

=== FILE: analyzer.dfy ===
/** The patient-context analyzer: a fail-closed wrapper around one
    structured-output model call. The model is an oracle from the prompt's
    inputs to what the call returns; every way the call can go wrong ends in
    the NONE decision with no patient id. */
module Analyzer {
  import opened Outcomes
  import opened JsonValues
  import opened Text
  import opened PatientContextModels

  const DefaultApiVersion: string := "2024-10-21"
  const EmptyInputReason: string := "Empty or whitespace user input; no action needed."
  const NoResponseReason: string := "No response from analyzer; defaulting to NONE."
  const UnexpectedFormatReason: string := "Unexpected response format; defaulting to NONE."

  // ---------------------------------------------------------------- configuration

  /** The analyzer's configuration and the generation of its kernel, which
      `reset_kernel` replaces by a fresh one. */
  datatype AnalyzerState = AnalyzerState(deployment: string, apiVersion: string, kernelGeneration: nat)

  function Env(env: map<string, string>, key: string): Option<string> {
    if key in env then Some(env[key]) else None
  }

  /** Python's `a or b` on optional strings. */
  function OrElse(a: Option<string>, b: Option<string>): Option<string> {
    if Truthy(a) then a else b
  }

  /** The constructor: the deployment is the argument, else the decider
      variable, else the general deployment variable, else a ValueError; the
      API version falls back to the variable and then to a fixed default. */
  function NewAnalyzer(deployment: Option<string>, apiVersion: Option<string>, env: map<string, string>)
    : (r: Result<AnalyzerState>)
    ensures r.Ok? <==> Truthy(deployment) || Truthy(Env(env, "PATIENT_CONTEXT_DECIDER_DEPLOYMENT_NAME"))
                       || Truthy(Env(env, "AZURE_OPENAI_DEPLOYMENT_NAME"))
    ensures Truthy(deployment) ==> r.Ok? && r.value.deployment == deployment.value
    ensures !Truthy(deployment) && Truthy(Env(env, "PATIENT_CONTEXT_DECIDER_DEPLOYMENT_NAME")) ==>
      r.Ok? && r.value.deployment == env["PATIENT_CONTEXT_DECIDER_DEPLOYMENT_NAME"]
    ensures !Truthy(deployment) && !Truthy(Env(env, "PATIENT_CONTEXT_DECIDER_DEPLOYMENT_NAME"))
            && Truthy(Env(env, "AZURE_OPENAI_DEPLOYMENT_NAME")) ==>
      r.Ok? && r.value.deployment == env["AZURE_OPENAI_DEPLOYMENT_NAME"]
    ensures r.Raised? ==> r.error.ValueError?
    ensures r.Ok? ==> r.value.deployment != "" && r.value.apiVersion != "" && r.value.kernelGeneration == 0
    ensures r.Ok? && Truthy(apiVersion) ==> r.value.apiVersion == apiVersion.value
    ensures r.Ok? && !Truthy(apiVersion) && Truthy(Env(env, "AZURE_OPENAI_API_VERSION")) ==>
      r.value.apiVersion == env["AZURE_OPENAI_API_VERSION"]
    ensures r.Ok? && !Truthy(apiVersion) && !Truthy(Env(env, "AZURE_OPENAI_API_VERSION")) ==>
      r.value.apiVersion == DefaultApiVersion
  {
    var name := OrElse(OrElse(deployment, Env(env, "PATIENT_CONTEXT_DECIDER_DEPLOYMENT_NAME")),
                       Env(env, "AZURE_OPENAI_DEPLOYMENT_NAME"));
    if !Truthy(name) then Raised(ValueError("No deployment name for patient context analyzer."))
    else
      var version := OrElse(OrElse(apiVersion, Env(env, "AZURE_OPENAI_API_VERSION")), Some(DefaultApiVersion));
      Ok(AnalyzerState(name.value, version.value, 0))
  }

  /** `reset_kernel`: a fresh kernel with the same deployment and API
      version; it never raises. */
  function ResetKernel(a: AnalyzerState): (r: AnalyzerState)
    ensures r.deployment == a.deployment && r.apiVersion == a.apiVersion
    ensures r.kernelGeneration > a.kernelGeneration
  {
    a.(kernelGeneration := a.kernelGeneration + 1)
  }

  // ---------------------------------------------------------------- the model call

  /** What the model sends back as the first result's content: a string
      (with what `json.loads` makes of it, if anything), an already decoded
      object, or something else, truthy or not. */
  datatype Content =
    | TextContent(text: string, decoded: Option<Json>)
    | DictContent(fields: Obj)
    | OtherContent(truthy: bool)

  /** The outcome of the call: it raised, or it returned a (possibly empty)
      result list of which only the first element is read. */
  datatype Reply = CallRaised | NoResults | FirstResult(content: Content)

  /** The inputs the prompt is built from. */
  datatype Prompt = Prompt(userText: string, prior: Option<string>, known: set<string>)

  type Model = Prompt -> Reply

  function Fallback(reason: string): (d: PatientContextDecision)
    ensures d.action == NoAction && d.patientId == None
  {
    PatientContextDecision(NoAction, None, reason)
  }

  predicate ContentTruthy(c: Content) {
    match c
    case TextContent(t, _) => t != ""
    case DictContent(o) => o != map[]
    case OtherContent(b) => b
  }

  /** The decision a reply validates to, if it validates. */
  function Accepted(reply: Reply): Option<PatientContextDecision> {
    match reply
    case FirstResult(TextContent(t, Some(JObj(o)))) => if t != "" then ValidateDecision(o) else None
    case FirstResult(DictContent(o)) => if o != map[] then ValidateDecision(o) else None
    case _ => None
  }

  /** `analyze_decision`. It never raises: empty or whitespace input is
      answered without the model, and an absent, empty, unparseable, invalid
      or unexpected reply, or a raising call, gives NONE with no id. A reply
      that validates is returned as it is, whatever its action and id. */
  function AnalyzeDecision(model: Model, text: string, prior: Option<string>, known: Option<set<string>>)
    : (r: PatientContextDecision)
    ensures AllSpace(text) ==> r == Fallback(EmptyInputReason)
    ensures !AllSpace(text) ==>
      var reply := model(Prompt(text, prior, known.GetOr({})));
      (Accepted(reply).Some? ==> r == Accepted(reply).value)
      && (Accepted(reply).None? ==> r.action == NoAction && r.patientId == None)
  {
    var knownIds := known.GetOr({});
    if Strip(text) == "" then Fallback(EmptyInputReason)
    else Interpret(model(Prompt(text, prior, knownIds)))
  }

  /** What the analyzer makes of the model's reply. */
  function Interpret(reply: Reply): (r: PatientContextDecision)
    ensures Accepted(reply).Some? ==> r == Accepted(reply).value
    ensures Accepted(reply).None? ==> r.action == NoAction && r.patientId == None
  {
    match reply
    case CallRaised => Fallback("Analysis error: ...")
    case NoResults => Fallback(NoResponseReason)
    case FirstResult(content) =>
      if !ContentTruthy(content) then Fallback(NoResponseReason)
      else match content
        case TextContent(_, decoded) =>
          if decoded.Some? && decoded.value.JObj? && ValidateDecision(decoded.value.fields).Some?
          then ValidateDecision(decoded.value.fields).value
          else Fallback("Parse error: ...")
        case DictContent(o) =>
          if ValidateDecision(o).Some? then ValidateDecision(o).value else Fallback("Validation error: ...")
        case OtherContent(_) => Fallback(UnexpectedFormatReason)
  }

  /** The only way to obtain a patient id, or any action other than NONE, is
      a model reply that validates to that decision. */
  lemma OnlyTheModelNamesPatients(model: Model, text: string, prior: Option<string>, known: Option<set<string>>)
    ensures var r := AnalyzeDecision(model, text, prior, known);
            r.patientId.Some? || r.action != NoAction ==>
              !AllSpace(text) && Accepted(model(Prompt(text, prior, known.GetOr({})))) == Some(r)
  {
  }

  /** Blank input never reaches the model: any two models agree on it. */
  lemma BlankInputIgnoresModel(m1: Model, m2: Model, text: string, prior: Option<string>, known: Option<set<string>>)
    requires AllSpace(text)
    ensures AnalyzeDecision(m1, text, prior, known) == AnalyzeDecision(m2, text, prior, known)
  {
  }

  /** Omitting the known ids is the same as passing none. */
  lemma MissingKnownIsEmpty(model: Model, text: string, prior: Option<string>)
    ensures AnalyzeDecision(model, text, prior, None) == AnalyzeDecision(model, text, prior, Some({}))
  {
  }

  /** A decision the model returns as a JSON object comes back unchanged,
      including combinations the prompt asks the model to avoid (an id with
      CLEAR, NONE or UNCHANGED). */
  lemma ModelDecisionPassesThrough(model: Model, text: string, prior: Option<string>, known: set<string>,
                                   d: PatientContextDecision)
    requires !AllSpace(text)
    requires model(Prompt(text, prior, known)) == FirstResult(DictContent(DumpDecision(d)))
    ensures AnalyzeDecision(model, text, prior, Some(known)) == d
  {
    DecisionRoundTrip(d);
  }

  /** `analyze_with_timing`: the decision with the elapsed time, which the
      caller's clock supplies. */
  function AnalyzeWithTiming(model: Model, text: string, prior: Option<string>, known: set<string>, elapsed: real)
    : (r: (PatientContextDecision, real))
    ensures r.0 == AnalyzeDecision(model, text, prior, Some(known)) && r.1 == elapsed
  {
    (AnalyzeDecision(model, text, prior, Some(known)), elapsed)
  }

  /** `analyze`: the legacy projection to (action, patient id, duration). */
  function Analyze(model: Model, text: string, prior: Option<string>, known: set<string>, elapsed: real)
    : (r: (AnalyzerAction, Option<string>, real))
    ensures var (d, t) := AnalyzeWithTiming(model, text, prior, known, elapsed);
            r == (d.action, d.patientId, t)
  {
    var (d, t) := AnalyzeWithTiming(model, text, prior, known, elapsed);
    (d.action, d.patientId, t)
  }
}

=== FILE: assistant_bot.dfy ===
/** The Teams front end: one bot per agent, each handling the messages sent
    to it. A turn reads the session context, handles the clear command, lets
    the patient-context service decide, swaps in the active patient's
    history, injects the snapshot, probes which agents are installed on a
    first turn, runs the group chat addressed to this bot's agent and
    persists the result. Each agent's reply is rewritten for display (the
    PT_CTX block, image and trial links, signed blob URLs) and sent through
    that agent's own bot. The chat run, the installation probe and the URL
    signer are oracles; the text of a message arrives with the bot's mention
    already removed. */
module AssistantBot {
  import opened Outcomes
  import opened Text
  import opened ChatContexts
  import opened BlobStore
  import opened ChatContextAccessor
  import opened Analyzer
  import opened PatientContextService
  import opened Snapshots
  import opened TurnSteps
  import opened GroupChat
  import AccessControl

  const BusyText: string := "Unable to proceed while another agent is active."

  /** The texts the bot sends in its own name. */
  datatype Reply = ClearedReply | NeedsIdReply | WaitReply | NotAuthorizedReply | RetryReply

  function ReplyText(r: Reply): string {
    match r
    case ClearedReply => "Conversation cleared!"
    case NeedsIdReply =>
      "I need a patient ID like 'patient_4' (e.g., '@Orchestrator start tumor board review for patient_4')."
    case WaitReply => "Please wait for the current agent to finish."
    case NotAuthorizedReply => "You are not authorized to access this agent."
    case RetryReply => "Orchestrator encountered an error. Please retry your request."
  }

  /** What a failed `next(...)` inside a coroutine turns into. */
  const StopIterationText: string := "coroutine raised StopIteration"

  /** The bot builds its service with both the registry and the context
      accessor. */
  const BotService: Service := Service(true, true)

  // ---------------------------------------------------------------- errors

  /** `str(error)` for the errors that carry a message; the others never
      carry the busy text and are given the empty text. */
  function ErrorText(e: Error): string {
    match e
    case ValueError(m) => m
    case NotAuthorizedError(m) => m
    case OtherError(m) => m
    case _ => ""
  }

  /** `on_error`: the exception's text is never shown; the busy text is
      recognised before the exception's type. */
  function OnError(e: Error): (r: Reply)
    ensures r in {WaitReply, NotAuthorizedReply, RetryReply}
    ensures r == WaitReply <==> ErrorText(e) == BusyText
    ensures r == NotAuthorizedReply <==> ErrorText(e) != BusyText && e.NotAuthorizedError?
  {
    if ErrorText(e) == BusyText then WaitReply
    else if e.NotAuthorizedError? then NotAuthorizedReply
    else RetryReply
  }

  /** If the access-control middleware is installed on the bot's adapter,
      its exceptions reach this same handler: a refused activity is then told
      it is not authorised, and a deployment without the tenant setting asks
      for a retry. The adapters in src/app.py install only the typing
      middleware, so this is a statement about the two parts composed, not
      about the deployed wiring. */
  lemma RefusedActivityIsTold(a: AccessControl.Activity, env: map<string, string>)
    requires AccessControl.OnTurn(a, env).Raised?
    ensures OnError(AccessControl.OnTurn(a, env).error)
            == if AccessControl.TenantSetting(env).None? then RetryReply else NotAuthorizedReply
  {
    var t := ErrorText(AccessControl.OnTurn(a, env).error);
    BusyHead();
    RefusalHeads();
    match AccessControl.TenantSetting(env)
    case None =>
      assert t == AccessControl.TenantVariable + AccessControl.UnsetSuffix;
    case Some(appTenant) =>
      if a.channelId != AccessControl.TeamsChannel {
        assert t == AccessControl.NotTeamsPrefix + a.channelId;
      } else if !Truthy(a.tenantId) {
        assert t == AccessControl.NoTenantMessage;
      } else {
        assert t == AccessControl.DeniedPrefix + a.tenantId.value + ".";
      }
  }

  /** The first letters of the refusal texts; none is the busy text's.
      These two lemmas have no counterpart in the source: they only keep the
      string comparisons in `RefusedActivityIsTold` cheap for the solver. */
  lemma RefusalHeads()
    ensures |AccessControl.TenantVariable| > 0 && AccessControl.TenantVariable[0] == 'M'
    ensures |AccessControl.NotTeamsPrefix| > 0 && AccessControl.NotTeamsPrefix[0] == 'A'
    ensures |AccessControl.NoTenantMessage| > 0 && AccessControl.NoTenantMessage[0] == 'N'
    ensures |AccessControl.DeniedPrefix| > 0 && AccessControl.DeniedPrefix[0] == 'A'
  {
    var a := "Activity";
    assert a[0] == 'A';
    assert AccessControl.NotTeamsPrefix == a + " is not from Teams channel. Channel ID: ";
    assert (a + " is not from Teams channel. Channel ID: ")[0] == a[0];
  }

  lemma BusyHead()
    ensures BusyText[0] == 'U'
  {
    var p := "Unable";
    var q := " to proceed while another agent is active.";
    assert p[0] == 'U';
    assert BusyText == p + q;
    assert (p + q)[0] == p[0];
  }

  // ---------------------------------------------------------------- the PT_CTX block

  const PtCtxMarker: string := "PT_CTX:"
  const PtCtxHeader: string := "\n\n---\n*PT_CTX:*\n"

  lemma HeaderHasMarker()
    ensures Contains(PtCtxHeader, PtCtxMarker)
  {
    assert PtCtxHeader[7..][..|PtCtxMarker|] == PtCtxMarker;
    ContainsAt(PtCtxHeader, PtCtxMarker, 7);
  }

  /** The lines after the header: the session, the active patient (or that
      there is none) and the roster, the active id marked. */
  function SessionLines(cid: string, active: Option<string>, ids: seq<string>): string {
    "- **Session ID:** `" + cid + "`\n"
    + (if Truthy(active) then "- **Patient ID:** `" + active.value + "`\n" else "- *No active patient.*\n")
    + "- **Session Patients:** " + Join(", ", RosterEntries(ids, active))
  }

  /** The reply followed by the PT_CTX block of the context, added only when
      the session knows a patient and the reply carries no block yet. */
  function WithPtCtx(content: string, c: ChatContext): (r: string)
    ensures StartsWith(r, content)
    ensures KnownIds(c) == {} || Contains(content, PtCtxMarker) ==> r == content
    ensures KnownIds(c) != {} ==> Contains(r, PtCtxMarker)
  {
    var ids := SortedIds(KnownIds(c));
    if |ids| > 0 && !Contains(content, PtCtxMarker) then
      var block := PtCtxHeader + SessionLines(c.conversationId, c.patientId, ids);
      HeaderHasMarker();
      ContainsConcatLeft(PtCtxHeader, SessionLines(c.conversationId, c.patientId, ids), PtCtxMarker);
      ContainsConcatRight(content, block, PtCtxMarker);
      assert (content + block)[..|content|] == content;
      content + block
    else content
  }

  /** Adding the block is idempotent: a reply never shows two blocks. */
  lemma PtCtxOnce(content: string, c: ChatContext)
    ensures WithPtCtx(WithPtCtx(content, c), c) == WithPtCtx(content, c)
  {
  }

  // ---------------------------------------------------------------- links

  /** The file name shown for a URL: what follows its last slash. */
  function ImageTag(url: string): string {
    "<img src='" + url + "' alt='" + LastSegment(url) + "' height='300px'/>"
  }

  function TrialItem(url: string): string {
    "<li><a href='" + url + "'>" + LastSegment(url) + "</a></li>"
  }

  function ImageTags(urls: seq<string>): string
    decreases |urls|
  {
    if |urls| == 0 then "" else ImageTag(urls[0]) + ImageTags(urls[1..])
  }

  function TrialItems(urls: seq<string>): string
    decreases |urls|
  {
    if |urls| == 0 then "" else TrialItem(urls[0]) + TrialItems(urls[1..])
  }

  function ImageSection(urls: seq<string>): string {
    if |urls| == 0 then "" else "<h2>Patient Images</h2>" + ImageTags(urls)
  }

  function TrialSection(urls: seq<string>): string {
    if |urls| == 0 then "" else "<h2>Clinical trials</h2>" + TrialItems(urls)
  }

  /** The context with its image and trial lists emptied. */
  function WithoutLinks(c: ChatContext): ChatContext {
    c.(displayImageUrls := [], displayClinicalTrials := [])
  }

  /** `_append_links_to_msg`: the message, then the images, then the
      trials; both lists are emptied, so each link is shown once. */
  function AppendLinks(msg: string, c: ChatContext): (r: (string, ChatContext))
    ensures StartsWith(r.0, msg)
    ensures c.displayImageUrls == [] && c.displayClinicalTrials == [] ==> r.0 == msg
    ensures r.1 == WithoutLinks(c)
  {
    var text := msg + ImageSection(c.displayImageUrls) + TrialSection(c.displayClinicalTrials);
    assert text[..|msg|] == msg;
    (text, WithoutLinks(c))
  }

  /** A second call adds nothing: the links went with the first message. */
  lemma LinksShownOnce(msg: string, c: ChatContext)
    ensures var (text, c1) := AppendLinks(msg, c);
            AppendLinks(text, c1) == (text, c1)
  {
  }

  /** The image tag of each listed URL occurs in the tags, source first. */
  lemma {:induction false} TagsMentionEveryUrl(urls: seq<string>, i: int)
    requires 0 <= i < |urls|
    ensures Contains(ImageTags(urls), "<img src='" + urls[i] + "'")
    ensures Contains(TrialItems(urls), "<li><a href='" + urls[i] + "'>")
    decreases |urls|
  {
    if i == 0 {
      var u := urls[0];
      var img := "<img src='" + u + "'";
      var li := "<li><a href='" + u + "'>";
      assert ImageTag(u) == img + (" alt='" + LastSegment(u) + "' height='300px'/>");
      assert ImageTag(u)[..|img|] == img;
      ContainsAt(ImageTag(u), img, 0);
      ContainsConcatLeft(ImageTag(u), ImageTags(urls[1..]), img);
      assert TrialItem(u)[..|li|] == li;
      ContainsAt(TrialItem(u), li, 0);
      ContainsConcatLeft(TrialItem(u), TrialItems(urls[1..]), li);
    } else {
      TagsMentionEveryUrl(urls[1..], i - 1);
      assert urls[1..][i - 1] == urls[i];
      ContainsConcatRight(ImageTag(urls[0]), ImageTags(urls[1..]), "<img src='" + urls[i] + "'");
      ContainsConcatRight(TrialItem(urls[0]), TrialItems(urls[1..]), "<li><a href='" + urls[i] + "'>");
    }
  }

  /** Every image and every trial the context lists is linked in the
      message. */
  lemma EveryLinkShown(msg: string, c: ChatContext)
    ensures forall i :: 0 <= i < |c.displayImageUrls| ==>
              Contains(AppendLinks(msg, c).0, "<img src='" + c.displayImageUrls[i] + "'")
    ensures forall i :: 0 <= i < |c.displayClinicalTrials| ==>
              Contains(AppendLinks(msg, c).0, "<li><a href='" + c.displayClinicalTrials[i] + "'>")
  {
    var imgs := c.displayImageUrls;
    var trials := c.displayClinicalTrials;
    forall i | 0 <= i < |imgs|
      ensures Contains(AppendLinks(msg, c).0, "<img src='" + imgs[i] + "'")
    {
      TagsMentionEveryUrl(imgs, i);
      ContainsConcatRight("<h2>Patient Images</h2>", ImageTags(imgs), "<img src='" + imgs[i] + "'");
      ContainsConcatRight(msg, ImageSection(imgs), "<img src='" + imgs[i] + "'");
      ContainsConcatLeft(msg + ImageSection(imgs), TrialSection(trials), "<img src='" + imgs[i] + "'");
    }
    forall i | 0 <= i < |trials|
      ensures Contains(AppendLinks(msg, c).0, "<li><a href='" + trials[i] + "'>")
    {
      TagsMentionEveryUrl(trials, i);
      ContainsConcatRight("<h2>Clinical trials</h2>", TrialItems(trials), "<li><a href='" + trials[i] + "'>");
      ContainsConcatRight(msg + ImageSection(imgs), TrialSection(trials), "<li><a href='" + trials[i] + "'>");
    }
  }

  // ---------------------------------------------------------------- signed URLs

  /** The URL signer: a blob URL to the same URL with a shared-access
      signature. */
  type Signer = string -> string

  /** Python's `str.replace`; an empty pattern inserts the replacement
      around every character. */
  function PyReplace(s: string, pat: string, repl: string): string
    decreases |s|
  {
    if |pat| > 0 then Replace(s, pat, repl)
    else if |s| == 0 then repl
    else repl + [s[0]] + PyReplace(s[1..], pat, repl)
  }

  /** Each blob URL in turn replaced by its signed form. */
  function SignUrls(msg: string, urls: seq<string>, sign: Signer): string
    decreases |urls|
  {
    if |urls| == 0 then msg else SignUrls(PyReplace(msg, urls[0], sign(urls[0])), urls[1..], sign)
  }

  /** `generate_sas_for_blob_urls`: the message with its blob URLs signed;
      the list is emptied. */
  function GenerateSas(msg: string, c: ChatContext, sign: Signer): (r: (string, ChatContext))
    ensures r.1 == c.(displayBlobUrls := [])
    ensures c.displayBlobUrls == [] ==> r.0 == msg
  {
    (SignUrls(msg, c.displayBlobUrls, sign), c.(displayBlobUrls := []))
  }

  /** A message that mentions none of the blob URLs is sent as it is. */
  lemma {:induction false} UnmentionedBlobsLeaveText(msg: string, urls: seq<string>, sign: Signer)
    requires forall i :: 0 <= i < |urls| ==> !Contains(msg, urls[i])
    ensures SignUrls(msg, urls, sign) == msg
    decreases |urls|
  {
    if |urls| > 0 {
      var u := urls[0];
      if |u| == 0 {
        assert StartsWith(msg, u);
        assert false;
      }
      ReplaceAbsent(msg, u, sign(u));
      assert PyReplace(msg, u, sign(u)) == msg;
      assert forall i :: 0 <= i < |urls[1..]| ==> urls[1..][i] == urls[i + 1];
      UnmentionedBlobsLeaveText(msg, urls[1..], sign);
    }
  }

  // ---------------------------------------------------------------- one reply

  /** The context with every display list emptied. */
  function WithoutDisplays(c: ChatContext): ChatContext {
    c.(displayImageUrls := [], displayClinicalTrials := [], displayBlobUrls := [])
  }

  predicate NoDisplays(c: ChatContext) {
    c.displayImageUrls == [] && c.displayClinicalTrials == [] && c.displayBlobUrls == []
  }

  /** One reply as sent: the PT_CTX block, the links, the signed URLs. The
      display lists are consumed. */
  function Render(content: string, c: ChatContext, sign: Signer): (r: (string, ChatContext))
    ensures r.1 == WithoutDisplays(c)
    ensures NoDisplays(c) ==> r.0 == WithPtCtx(content, c)
  {
    var (linked, c1) := AppendLinks(WithPtCtx(content, c), c);
    GenerateSas(linked, c1, sign)
  }

  // ---------------------------------------------------------------- process_chat

  /** A response yielded by the chat, whether the chat was complete once it
      had been yielded, and what the agents' tools added to the display
      lists since the previous response (the chat shares the context with
      its agents, so these additions are in the context the reply is
      rendered against). */
  datatype BotResponse = BotResponse(name: string, content: string, completes: bool, added: DisplayAdditions)

  /** A message sent through the bot of the named agent. */
  datatype Sent = Sent(bot: string, text: string)

  /** What the loop over the responses leaves: the messages sent, the
      context, and whether it stopped on a complete chat. */
  datatype Delivery = Delivery(sent: seq<Sent>, ctx: ChatContext, stopped: bool)

  predicate Blank(r: BotResponse) {
    Strip(r.content) == ""
  }

  /** No tool adds to the display lists while these responses are produced. */
  predicate NoneAdded(responses: seq<BotResponse>)
    decreases |responses|
  {
    |responses| == 0 || (responses[0].added == NoAdditions && NoneAdded(responses[1..]))
  }

  /** The loop of `process_chat`, as a recursion: each response finds the
      context with what the tools added before it; blank responses are
      skipped, each other one is rendered against that context and sent, and
      the loop ends after the first one sent on a complete chat. */
  function Delivered(responses: seq<BotResponse>, c: ChatContext, sign: Signer): (r: Delivery)
    ensures |r.sent| <= |responses|
    ensures |r.sent| == 0 ==> !r.stopped
    ensures WithoutDisplays(r.ctx) == WithoutDisplays(c)
    ensures NoneAdded(responses) && |r.sent| == 0 ==> r.ctx == c
    ensures NoneAdded(responses) && |r.sent| > 0 ==> r.ctx == WithoutDisplays(c)
    decreases |responses|
  {
    if |responses| == 0 then Delivery([], c, false)
    else
      var c0 := WithDisplays(c, responses[0].added);
      DisplaysOnly(c, responses[0].added);
      if Blank(responses[0]) then Delivered(responses[1..], c0, sign)
      else
        var (text, c1) := Render(responses[0].content, c0, sign);
        var head := [Sent(responses[0].name, text)];
        if responses[0].completes then Delivery(head, c1, true)
        else
          var rest := Delivered(responses[1..], c1, sign);
          Delivery(head + rest.sent, rest.ctx, rest.stopped)
  }

  /** The tools' additions touch nothing but the display lists. */
  lemma DisplaysOnly(c: ChatContext, a: DisplayAdditions)
    ensures WithoutDisplays(WithDisplays(c, a)) == WithoutDisplays(c)
  {
  }

  /** The replies with no display lists to consume: each response with
      content, with its PT_CTX block, up to the first on a complete chat. */
  function PlainReplies(responses: seq<BotResponse>, c: ChatContext): seq<Sent>
    decreases |responses|
  {
    if |responses| == 0 then []
    else if Blank(responses[0]) then PlainReplies(responses[1..], c)
    else
      [Sent(responses[0].name, WithPtCtx(responses[0].content, c))]
      + (if responses[0].completes then [] else PlainReplies(responses[1..], c))
  }

  /** With the lists empty to begin with and no tool adding to them during
      the chat, every reply is its content and the PT_CTX block. */
  lemma {:induction false} LaterRepliesArePlain(responses: seq<BotResponse>, c: ChatContext, sign: Signer)
    requires NoDisplays(c) && NoneAdded(responses)
    ensures Delivered(responses, c, sign).sent == PlainReplies(responses, c)
    decreases |responses|
  {
    if |responses| > 0 {
      assert WithDisplays(c, responses[0].added) == c;
      assert WithoutDisplays(c) == c;
      LaterRepliesArePlain(responses[1..], c, sign);
    }
  }

  /** Lists the tools refill after the first reply show on the next one:
      the second reply links every image and trial added before it. */
  lemma RefillShowsOnLaterReply(r1: BotResponse, r2: BotResponse, c: ChatContext, sign: Signer)
    requires !Blank(r1) && !r1.completes && !Blank(r2) && r2.added.blobs == []
    ensures var s := Delivered([r1, r2], c, sign).sent;
            && |s| == 2 && s[1].bot == r2.name
            && (forall i :: 0 <= i < |r2.added.images| ==> Contains(s[1].text, "<img src='" + r2.added.images[i] + "'"))
            && (forall i :: 0 <= i < |r2.added.trials| ==> Contains(s[1].text, "<li><a href='" + r2.added.trials[i] + "'>"))
  {
    var c1 := Render(r1.content, WithDisplays(c, r1.added), sign).1;
    var c2 := WithDisplays(c1, r2.added);
    SecondReply(r1, r2, c, sign);
    FreshListsShown(r2, c1, sign);
  }

  /** Two responses with content, the first not completing the chat: the
      second is rendered against the emptied lists plus its own additions. */
  lemma SecondReply(r1: BotResponse, r2: BotResponse, c: ChatContext, sign: Signer)
    requires !Blank(r1) && !r1.completes && !Blank(r2)
    ensures var c1 := Render(r1.content, WithDisplays(c, r1.added), sign).1;
            var s := Delivered([r1, r2], c, sign).sent;
            |s| == 2 && s[1] == Sent(r2.name, Render(r2.content, WithDisplays(c1, r2.added), sign).0)
  {
    var (text1, c1) := Render(r1.content, WithDisplays(c, r1.added), sign);
    var text2 := Render(r2.content, WithDisplays(c1, r2.added), sign).0;
    OneReply(r2, c1, sign);
    assert [r1, r2][1..] == [r2];
    SendOnTail([r1, r2], c, sign, text1, c1, Delivered([r2], c1, sign));
  }

  /** A single response with content is sent as rendered. */
  lemma OneReply(r: BotResponse, c: ChatContext, sign: Signer)
    requires !Blank(r)
    ensures Delivered([r], c, sign).sent == [Sent(r.name, Render(r.content, WithDisplays(c, r.added), sign).0)]
  {
    assert [r][1..] == [];
  }

  /** A reply rendered against lists that held nothing before its own
      additions, none of them blobs, links every added image and trial. */
  lemma FreshListsShown(r2: BotResponse, c1: ChatContext, sign: Signer)
    requires NoDisplays(c1) && r2.added.blobs == []
    ensures var text := Render(r2.content, WithDisplays(c1, r2.added), sign).0;
            && (forall i :: 0 <= i < |r2.added.images| ==> Contains(text, "<img src='" + r2.added.images[i] + "'"))
            && (forall i :: 0 <= i < |r2.added.trials| ==> Contains(text, "<li><a href='" + r2.added.trials[i] + "'>"))
  {
    var c2 := WithDisplays(c1, r2.added);
    assert c2.displayImageUrls == r2.added.images && c2.displayClinicalTrials == r2.added.trials;
    EveryLinkShown(WithPtCtx(r2.content, c2), c2);
  }

  /** The loop's state after `i` responses: what was sent so far, followed
      by what the rest of the responses deliver from the current context, is
      `total`, what the whole loop delivers. */
  predicate Resumes(total: Delivery, responses: seq<BotResponse>, sign: Signer, i: int, sent: seq<Sent>, ctx: ChatContext)
    requires 0 <= i <= |responses|
  {
    var rest := Delivered(responses[i..], ctx, sign);
    total == Delivery(sent + rest.sent, rest.ctx, rest.stopped)
  }

  lemma SkipStep(total: Delivery, responses: seq<BotResponse>, sign: Signer, i: int, sent: seq<Sent>, ctx: ChatContext)
    requires 0 <= i < |responses| && Blank(responses[i])
    requires Resumes(total, responses, sign, i, sent, ctx)
    ensures Resumes(total, responses, sign, i + 1, sent, WithDisplays(ctx, responses[i].added))
  {
    var tail := responses[i..];
    assert tail[0] == responses[i] && tail[1..] == responses[i + 1..];
  }

  /** One response with content, sent: unfolding the loop once. */
  lemma DeliveredStep(tail: seq<BotResponse>, ctx: ChatContext, sign: Signer)
    requires |tail| > 0 && !Blank(tail[0])
    ensures var c0 := WithDisplays(ctx, tail[0].added);
            var text := Render(tail[0].content, c0, sign).0;
            var c1 := Render(tail[0].content, c0, sign).1;
            var rest := Delivered(tail[1..], c1, sign);
            Delivered(tail, ctx, sign)
            == if tail[0].completes then Delivery([Sent(tail[0].name, text)], c1, true)
               else Delivery([Sent(tail[0].name, text)] + rest.sent, rest.ctx, rest.stopped)
  {
  }

  lemma SendStep(total: Delivery, responses: seq<BotResponse>, sign: Signer, i: int, sent: seq<Sent>, ctx: ChatContext,
                 text: string, c1: ChatContext)
    requires 0 <= i < |responses| && !Blank(responses[i]) && !responses[i].completes
    requires Render(responses[i].content, WithDisplays(ctx, responses[i].added), sign) == (text, c1)
    requires Resumes(total, responses, sign, i, sent, ctx)
    ensures Resumes(total, responses, sign, i + 1, sent + [Sent(responses[i].name, text)], c1)
  {
    var tail := responses[i..];
    assert tail[0] == responses[i] && tail[1..] == responses[i + 1..];
    var rest := Delivered(responses[i + 1..], c1, sign);
    SendOnTail(tail, ctx, sign, text, c1, rest);
    SentAssoc(sent, [Sent(responses[i].name, text)], rest.sent);
  }

  lemma SendOnTail(tail: seq<BotResponse>, ctx: ChatContext, sign: Signer, text: string, c1: ChatContext, rest: Delivery)
    requires |tail| > 0 && !Blank(tail[0]) && !tail[0].completes
    requires Render(tail[0].content, WithDisplays(ctx, tail[0].added), sign) == (text, c1)
    requires rest == Delivered(tail[1..], c1, sign)
    ensures Delivered(tail, ctx, sign) == Delivery([Sent(tail[0].name, text)] + rest.sent, rest.ctx, rest.stopped)
  {
    DeliveredStep(tail, ctx, sign);
  }

  lemma SentAssoc(a: seq<Sent>, b: seq<Sent>, c: seq<Sent>)
    ensures a + (b + c) == (a + b) + c
  {
  }

  lemma StopStep(total: Delivery, responses: seq<BotResponse>, sign: Signer, i: int, sent: seq<Sent>, ctx: ChatContext,
                 text: string, c1: ChatContext)
    requires 0 <= i < |responses| && !Blank(responses[i]) && responses[i].completes
    requires Render(responses[i].content, WithDisplays(ctx, responses[i].added), sign) == (text, c1)
    requires Resumes(total, responses, sign, i, sent, ctx)
    ensures total == Delivery(sent + [Sent(responses[i].name, text)], c1, true)
  {
    var tail := responses[i..];
    assert tail[0] == responses[i] && tail[1..] == responses[i + 1..];
    DeliveredStep(tail, ctx, sign);
  }

  /** One turn of `process_chat`'s loop: take in the tools' additions, then
      skip a blank response, or render and send it, stopping when the chat
      was complete. */
  method Advance(ghost total: Delivery, responses: seq<BotResponse>, sign: Signer, i: int, sent: seq<Sent>,
                 ctx: ChatContext)
    returns (sent1: seq<Sent>, ctx1: ChatContext, stop: bool)
    requires 0 <= i < |responses| && Resumes(total, responses, sign, i, sent, ctx)
    ensures stop ==> total == Delivery(sent1, ctx1, true)
    ensures !stop ==> Resumes(total, responses, sign, i + 1, sent1, ctx1)
  {
    var r := responses[i];
    var c0 := WithDisplays(ctx, r.added);
    if Blank(r) {
      SkipStep(total, responses, sign, i, sent, ctx);
      return sent, c0, false;
    }
    var (text, c1) := Render(r.content, c0, sign);
    if r.completes {
      StopStep(total, responses, sign, i, sent, ctx, text, c1);
      return sent + [Sent(r.name, text)], c1, true;
    }
    SendStep(total, responses, sign, i, sent, ctx, text, c1);
    return sent + [Sent(r.name, text)], c1, false;
  }

  /** `process_chat`'s loop over the chat's responses. */
  method ProcessChat(responses: seq<BotResponse>, c: ChatContext, sign: Signer) returns (d: Delivery)
    ensures d == Delivered(responses, c, sign)
  {
    ghost var total := Delivered(responses, c, sign);
    var sent: seq<Sent> := [];
    var ctx := c;
    var i := 0;
    LoopStarts(responses, c, sign);
    while i < |responses|
      invariant 0 <= i <= |responses|
      invariant Resumes(total, responses, sign, i, sent, ctx)
    {
      var stop;
      sent, ctx, stop := Advance(total, responses, sign, i, sent, ctx);
      if stop {
        return Delivery(sent, ctx, true);
      }
      i := i + 1;
    }
    LoopEnds(total, responses, sign, sent, ctx);
    return Delivery(sent, ctx, false);
  }

  lemma LoopStarts(responses: seq<BotResponse>, c: ChatContext, sign: Signer)
    ensures Resumes(Delivered(responses, c, sign), responses, sign, 0, [], c)
  {
    assert responses[0..] == responses;
  }

  lemma LoopEnds(total: Delivery, responses: seq<BotResponse>, sign: Signer, sent: seq<Sent>, ctx: ChatContext)
    requires Resumes(total, responses, sign, |responses|, sent, ctx)
    ensures total == Delivery(sent, ctx, false)
  {
    assert responses[|responses|..] == [];
  }

  // ---------------------------------------------------------------- the turn

  /** Whether this conversation can reach the bot of the named agent (a
      typing activity sent through it gets through). */
  type Probe = string -> bool

  /** The configurations whose probe succeeds, in order. */
  function Reachable(configs: seq<AgentConfig>, probe: Probe): (r: seq<AgentConfig>)
    ensures |r| <= |configs|
    ensures forall a :: a in r <==> a in configs && probe(a.name)
    ensures (forall i :: 0 <= i < |configs| ==> !probe(configs[i].name)) ==> r == []
    decreases |configs|
  {
    if |configs| == 0 then []
    else (if probe(configs[0].name) then [configs[0]] else []) + Reachable(configs[1..], probe)
  }

  /** The agents offered to the chat: on a first turn (nothing in the
      history but the snapshot) only those whose bot is reachable, otherwise
      all of them. */
  function Participants(configs: seq<AgentConfig>, history: seq<Message>, probe: Probe): (r: seq<AgentConfig>)
    ensures |history| != 1 ==> r == configs
    ensures forall a :: a in r ==> a in configs
    ensures |history| == 1 ==> forall a :: a in configs && probe(a.name) ==> a in r
  {
    if |history| == 1 then Reachable(configs, probe) else configs
  }

  /** On a first turn where no bot is reachable, the chat still gets the
      whole roster: the empty participant list falls back to all agents. */
  lemma UnreachableFallsBackToAll(configs: seq<AgentConfig>, history: seq<Message>, probe: Probe,
                                  cid: string, scenario: Option<string>)
    requires forall i :: 0 <= i < |configs| ==> !probe(configs[i].name)
    ensures CreateGroupChat(configs, Some(Participants(configs, history, probe)), cid, scenario)
         == CreateGroupChat(configs, None, cid, scenario)
  {
    var p := Participants(configs, history, probe);
    assert ParticipantConfigs(configs, Some(p)) == ParticipantConfigs(configs, None);
  }

  /** The history after the swap and the injection is the snapshot alone
      exactly when the history swapped in held nothing but snapshots. */
  lemma FirstTurnIsSnapshotOnly(st: Storage, ctx: ChatContext, dump: Dump, generatedAt: string)
    ensures |PrepareHistory(st, ctx, dump, generatedAt).history| == 1
            <==> StripSnapshots(IsolatedSwap(st, ctx).history) == []
  {
    var h := PrepareHistory(st, ctx, dump, generatedAt).history;
    assert h[1..] == StripSnapshots(IsolatedSwap(st, ctx).history);
  }

  /** The first configuration carrying the bot's name. */
  function ConfigNamed(configs: seq<AgentConfig>, name: string): (r: Option<AgentConfig>)
    ensures r.Some? ==> r.value in configs && r.value.name == name
    ensures r.None? ==> forall i :: 0 <= i < |configs| ==> configs[i].name != name
    decreases |configs|
  {
    if |configs| == 0 then None
    else if configs[0].name == name then Some(configs[0])
    else ConfigNamed(configs[1..], name)
  }

  /** The agent the chat is invoked with: none when this bot is the
      facilitator (the selection strategy chooses), otherwise this bot's own
      agent, which must be in the chat. */
  function Mentioned(configs: seq<AgentConfig>, name: string, setup: GroupChatSetup): (r: Result<Option<string>>)
    ensures r.Ok? && r.value.Some? ==> r.value.value == name && name in AgentNames(setup.agents)
    ensures r == Ok(None) <==> ConfigNamed(configs, name).Some? && ConfigNamed(configs, name).value.facilitator
    ensures r.Raised? ==> r.error == OtherError(StopIterationText)
  {
    match ConfigNamed(configs, name)
    case None => Raised(OtherError(StopIterationText))
    case Some(cfg) =>
      if cfg.facilitator then Ok(None)
      else if name in AgentNames(setup.agents) then Ok(Some(name))
      else Raised(OtherError(StopIterationText))
  }

  /** What invoking the chat does: the responses up to where the loop stops
      reading, what the chat appends to the history by then, and the
      exception it raises after the listed responses, if any (not reached
      when the loop stopped on a complete chat), and what the tools added
      to the display lists after the last listed response. */
  datatype BotRun = BotRun(responses: seq<BotResponse>, appended: seq<Message>, failure: Option<Error>,
                          trailing: DisplayAdditions)

  /** The chat's run, from its set-up, the history and the agent it is
      invoked with. */
  type Invoke = (GroupChatSetup, seq<Message>, Option<string>) -> BotRun

  /** What a bot is built with. */
  datatype BotEnv = BotEnv(
    name: string,
    configs: seq<AgentConfig>,
    scenario: Option<string>,
    model: Model,
    dump: Dump,
    probe: Probe,
    invoke: Invoke,
    sign: Signer)

  /** A message to the user: one of the bot's own replies, or an agent's
      reply sent through that agent's bot. No exception's text and no text of
      the user's is ever sent in the bot's own name. */
  datatype BotOut = ToUser(reply: Reply) | FromAgent(bot: string, text: string)

  datatype BotState = BotState(store: Storage, analyzer: AnalyzerState)

  function AgentMessages(sent: seq<Sent>): (r: seq<BotOut>)
    ensures |r| == |sent|
    ensures forall i :: 0 <= i < |sent| ==> r[i] == FromAgent(sent[i].bot, sent[i].text)
  {
    seq(|sent|, i requires 0 <= i < |sent| => FromAgent(sent[i].bot, sent[i].text))
  }

  /** The group chat for a settled context: exceptions go to the error
      handler and skip the write; a failing write is swallowed. */
  function Converse(env: BotEnv, st: BotState, ctx: ChatContext, text: string, now: Instant)
    : (r: (seq<BotOut>, BotState))
    ensures r.1.analyzer == st.analyzer
  {
    var c := PrepareHistory(st.store, ctx, env.dump, now.isoNaive + "Z");
    var agents := Participants(env.configs, c.history, env.probe);
    match CreateGroupChat(env.configs, Some(agents), c.conversationId, env.scenario)
    case Raised(e) => ([ToUser(OnError(e))], st)
    case Ok(setup) =>
      var c1 := c.(history := c.history + [TextMessage(User, text)]);
      match Mentioned(env.configs, env.name, setup)
      case Raised(e) => ([ToUser(OnError(e))], st)
      case Ok(target) =>
        var run := env.invoke(setup, c1.history, target);
        var d := Delivered(run.responses, c1, env.sign);
        var outs := AgentMessages(d.sent);
        if !d.stopped && run.failure.Some? then (outs + [ToUser(OnError(run.failure.value))], st)
        else
          var ended := if d.stopped then d.ctx else WithDisplays(d.ctx, run.trailing);
          match Write(st.store, ended.(history := c1.history + run.appended))
          case Ok(s) => (outs, st.(store := s))
          case Raised(_) => (outs, st)
  }

  /** `on_message_activity` after the mention is removed: a clear, or the
      service's decision and then the chat. The session slot is read with no
      active patient, so the analyzer's kernel is never reset. A clear whose
      writes succeed answers "Conversation cleared!" and leaves the session
      slot and the registry empty. A turn the analyzer sends back for an id
      answers with the fixed request and writes no chat context; unlike the
      route, even an empty message reaches the service. */
  method BotTurn(env: BotEnv, st: BotState, cid: string, raw: string, now: Instant)
    returns (out: seq<BotOut>, st2: BotState)
    ensures st2.analyzer == st.analyzer
    ensures IsClearCommand(Strip(raw)) && ClearCanWrite(st.store, cid, now)
            && Read(st.store, cid, None).conversationId == cid ==>
              && out == [ToUser(ClearedReply)]
              && Read(st2.store, cid, None).history == []
              && RegistryAccessor.ReadRegistry(st2.store, cid).0 == map[]
    ensures !IsClearCommand(Strip(raw))
            && DecideAndApply(BotService, env.model, Strip(raw),
                              World(Read(st.store, cid, None), st.store, st.analyzer), now).0 == NeedsPatientId ==>
              out == [ToUser(NeedsIdReply)] && st2 == st
  {
    var text := Strip(raw);
    var ctx := Read(st.store, cid, None);
    var cleared := HandleClear(st.store, ctx, text, now);
    if cleared.None? {
      out, st2 := Proceed(env, st, ctx, text, now);
      return;
    }
    if ClearCanWrite(st.store, ctx.conversationId, now) {
      ClearLeavesNothing(st.store, ctx, text, now);
    }
    match cleared.value.1
    case Ok(s) =>
      return [ToUser(ClearedReply)], st.(store := s);
    case Raised(e) =>
      return [ToUser(OnError(e))], st.(store := ArchiveForClear(st.store, ctx.conversationId, now));
  }

  /** A turn that is not a clear: the service decides, and the chat runs
      unless the decision asks for a patient id. With no active patient the
      decision resets no kernel, and the chat does not touch the analyzer. */
  method Proceed(env: BotEnv, st: BotState, ctx: ChatContext, text: string, now: Instant)
    returns (out: seq<BotOut>, st2: BotState)
    requires !Truthy(ctx.patientId)
    ensures st2.analyzer == st.analyzer
    ensures var (decision, w) := DecideAndApply(BotService, env.model, text, World(ctx, st.store, st.analyzer), now);
            if decision == NeedsPatientId then out == [ToUser(NeedsIdReply)] && st2 == st
            else (out, st2) == Converse(env, BotState(w.store, w.analyzer), w.ctx, text, now)
  {
    var w0 := World(ctx, st.store, st.analyzer);
    var (decision, w) := DecideAndApply(BotService, env.model, text, w0, now);
    KernelResetExactly(BotService, env.model, text, w0, now);
    var st1 := BotState(w.store, w.analyzer);
    if decision == NeedsPatientId {
      return [ToUser(NeedsIdReply)], st1;
    }
    var r := Converse(env, st1, w.ctx, text, now);
    return r.0, r.1;
  }
}

=== FILE: chat_context.dfy ===
/** The in-memory chat state of one conversation: its message history, the
    active patient, the roster of known patients, and the display side
    channels the agents fill during a turn. */
module ChatContexts {
  import opened Outcomes
  import opened JsonValues

  // ---------------------------------------------------------------- messages

  /** The author roles a chat message may carry. */
  datatype Role = System | User | Assistant | Tool

  function RoleName(r: Role): string {
    match r
    case System => "system"
    case User => "user"
    case Assistant => "assistant"
    case Tool => "tool"
  }

  /** `AuthorRole(s)`: the role whose value is `s`; any other string raises. */
  function ParseRole(s: string): Option<Role> {
    if s == "system" then Some(System)
    else if s == "user" then Some(User)
    else if s == "assistant" then Some(Assistant)
    else if s == "tool" then Some(Tool)
    else None
  }

  lemma ParseRoleExact(s: string, r: Role)
    ensures ParseRole(s) == Some(r) <==> s == RoleName(r)
  {
  }

  /** A content item of a message: text, or a non-text item (a function call
      or result) of which only its `str()` rendering matters here. */
  datatype Item = TextItem(text: string) | OtherItem(rendering: string)

  datatype Message = Message(role: Role, items: seq<Item>, name: Option<string>)

  /** `getattr(m.items[0], "text", "")` guarded by `m.items`: the text of a
      leading text item, else "". */
  function LeadingText(m: Message): string {
    if |m.items| > 0 && m.items[0].TextItem? then m.items[0].text else ""
  }

  /** What the persisted record stores as a message's content: the first
      item's text, or its rendering when it has no text, or "" without items. */
  function ContentText(m: Message): string {
    if |m.items| == 0 then ""
    else match m.items[0]
      case TextItem(t) => t
      case OtherItem(s) => s
  }

  function TextMessage(role: Role, text: string): Message {
    Message(role, [TextItem(text)], None)
  }

  // ---------------------------------------------------------------- contexts

  /** The per-patient cache entry; `facts` defaults to an empty object. */
  datatype PatientContext = PatientContext(patientId: string, facts: Json)

  function NewPatientContext(pid: string): (p: PatientContext)
    ensures p.patientId == pid
    ensures p.facts == JObj(map[])
  {
    PatientContext(pid, JObj(map[]))
  }

  datatype ChatContext = ChatContext(
    conversationId: string,
    history: seq<Message>,
    patientId: Option<string>,
    patientContexts: map<string, PatientContext>,
    patientData: seq<Json>,
    displayBlobUrls: seq<string>,
    displayImageUrls: seq<string>,
    displayClinicalTrials: seq<string>,
    outputData: seq<Json>,
    healthcareAgents: map<string, Json>,
    workflowSummary: Json)

  /** `ChatContext(conversation_id)`: session scope, nothing known yet. */
  function NewChatContext(cid: string): (c: ChatContext)
    ensures c.conversationId == cid
    ensures c.history == []
    ensures c.patientId == None && c.patientContexts == map[]
    ensures c.patientData == [] && c.outputData == [] && c.healthcareAgents == map[]
    ensures c.displayBlobUrls == [] && c.displayImageUrls == [] && c.displayClinicalTrials == []
  {
    ChatContext(cid, [], None, map[], [], [], [], [], [], map[], JNull)
  }

  /** What the agents' tools append to the context's display lists while a
      group chat runs: image URLs, clinical-trial URLs and blob URLs. */
  datatype DisplayAdditions = DisplayAdditions(images: seq<string>, trials: seq<string>, blobs: seq<string>)

  const NoAdditions: DisplayAdditions := DisplayAdditions([], [], [])

  /** The context once the tools' additions are appended; nothing else
      changes. */
  function WithDisplays(c: ChatContext, a: DisplayAdditions): (r: ChatContext)
    ensures r.displayImageUrls == c.displayImageUrls + a.images
    ensures r.displayClinicalTrials == c.displayClinicalTrials + a.trials
    ensures r.displayBlobUrls == c.displayBlobUrls + a.blobs
    ensures r.conversationId == c.conversationId && r.history == c.history && r.patientId == c.patientId
            && r.patientContexts == c.patientContexts
    ensures a == NoAdditions ==> r == c
  {
    c.(displayImageUrls := c.displayImageUrls + a.images,
       displayClinicalTrials := c.displayClinicalTrials + a.trials,
       displayBlobUrls := c.displayBlobUrls + a.blobs)
  }

  /** The ids of the known patients, i.e. the keys of `patient_contexts`. */
  function KnownIds(c: ChatContext): set<string> {
    c.patientContexts.Keys
  }
}

=== FILE: chat_context_accessor.dfy ===
/** Persistence of a chat context: one blob per conversation for the session
    scope and one per patient, serialised as a context document. */
module ChatContextAccessor {
  import opened Outcomes
  import opened JsonValues
  import opened ChatContexts
  import opened BlobStore

  const CurrentSchemaVersion: int := 2

  // ---------------------------------------------------------------- paths

  /** The slot of a context: the patient file for a truthy patient id, the
      session file otherwise. */
  function BlobPath(cid: string, pid: Option<string>): string {
    if Truthy(pid) then cid + "/patient_" + pid.value + "_context.json"
    else cid + "/session_context.json"
  }

  lemma MiddleOf(a: string, m: string, b: string)
    ensures (a + m + b)[|a|..|a| + |m|] == m
  {
    assert (a + m + b)[|a|..|a| + |m|] == (a + m)[|a|..];
  }

  /** Within one conversation the session slot and every patient slot are
      pairwise distinct, and an empty patient id selects the session slot. */
  lemma BlobPathsDistinct(cid: string, p: string, q: string)
    ensures BlobPath(cid, Some("")) == BlobPath(cid, None)
    ensures p != "" ==> BlobPath(cid, Some(p)) != BlobPath(cid, None)
    ensures p != "" && q != "" && p != q ==> BlobPath(cid, Some(p)) != BlobPath(cid, Some(q))
  {
    if p != "" {
      assert BlobPath(cid, Some(p))[|cid| + 1] == 'p';
      assert BlobPath(cid, None)[|cid| + 1] == 's';
    }
    if p != "" && q != "" && BlobPath(cid, Some(p)) == BlobPath(cid, Some(q)) {
      MiddleOf(cid + "/patient_", p, "_context.json");
      MiddleOf(cid + "/patient_", q, "_context.json");
    }
  }

  /** Where `archive` stores a copy of the context. */
  function ArchivePath(c: ChatContext, ts: string): string {
    if Truthy(c.patientId) then c.conversationId + "/" + ts + "_patient_" + c.patientId.value + "_archived.json"
    else c.conversationId + "/" + ts + "_session_archived.json"
  }

  /** Where `archive_to_folder` moves a slot. */
  function FolderArchivePath(folder: string, cid: string, pid: Option<string>, ts: string): string {
    if Truthy(pid) then folder + "/" + cid + "/" + ts + "_patient_" + pid.value + "_archived.json"
    else folder + "/" + cid + "/" + ts + "_session_archived.json"
  }

  lemma ArchivePathsAreNotLive(c: ChatContext, folder: string, cid: string, pid: Option<string>, ts: string)
    ensures ArchivePath(c, ts) != BlobPath(c.conversationId, c.patientId)
    ensures FolderArchivePath(folder, cid, pid, ts) != BlobPath(cid, pid)
  {
    assert |ArchivePath(c, ts)| > |BlobPath(c.conversationId, c.patientId)|;
    assert |FolderArchivePath(folder, cid, pid, ts)| > |BlobPath(cid, pid)|;
  }

  // ---------------------------------------------------------------- serialize

  /** One history entry as written: role, first-item content, name. */
  function StoreMessage(m: Message): StoredMessage {
    StoredMessage(Some(RoleName(m.role)), Some(ContentText(m)), None, m.name)
  }

  /** `serialize`: every message is written, in order and without filtering
      (snapshot system messages included); the patient roster is not written. */
  function Serialize(c: ChatContext): (d: ContextDocument)
    ensures d.schemaVersion == Some(CurrentSchemaVersion)
    ensures d.conversationId == Some(c.conversationId) && d.patientId == c.patientId
    ensures |d.chatHistory| == |c.history|
    ensures forall i :: 0 <= i < |c.history| ==> d.chatHistory[i] == StoreMessage(c.history[i])
  {
    ContextDocument(
      Some(CurrentSchemaVersion), Some(c.conversationId), c.patientId, c.workflowSummary,
      seq(|c.history|, i requires 0 <= i < |c.history| => StoreMessage(c.history[i])),
      c.patientData, c.displayBlobUrls, c.displayImageUrls, c.displayClinicalTrials,
      c.outputData, c.healthcareAgents)
  }

  // ---------------------------------------------------------------- deserialize

  /** The content an entry yields: its `content`, else the first item's text
      (or "" when that item has none), else nothing. */
  function EntryContent(e: StoredMessage): Option<string> {
    if e.content.Some? then e.content
    else if e.items.Some? && |e.items.value| > 0 then Some(e.items.value[0].GetOr(""))
    else None
  }

  /** One entry of `chat_history`: skipped (`None`) when it has no role, no
      content, or is an empty tool message; an unknown role raises, and does
      so before the content is looked at. */
  function RestoreEntry(e: StoredMessage): (r: Result<Option<Message>>)
    ensures r.Raised? <==> e.role.Some? && ParseRole(e.role.value).None?
    ensures r.Ok? && r.value.Some? <==>
      e.role.Some? && ParseRole(e.role.value).Some? && EntryContent(e).Some?
      && !(ParseRole(e.role.value).value == Tool && EntryContent(e).value == "")
    ensures r.Ok? && r.value.Some? ==>
      && r.value.value.role == ParseRole(e.role.value).value
      && r.value.value.items == [TextItem(EntryContent(e).value)]
      && (r.value.value.name.Some? <==> Truthy(e.name))
  {
    if e.role.None? then Ok(None)
    else
      match ParseRole(e.role.value)
      case None => Raised(ValueError("unknown role"))
      case Some(role) =>
        match EntryContent(e)
        case None => Ok(None)
        case Some(text) =>
          if role == Tool && text == "" then Ok(None)
          else Ok(Some(Message(role, [TextItem(text)], if Truthy(e.name) then e.name else None)))
  }

  /** The history of a document: the restored entries, in order. */
  function RestoreHistory(entries: seq<StoredMessage>): (r: Result<seq<Message>>)
    ensures r.Ok? <==> forall i :: 0 <= i < |entries| ==> RestoreEntry(entries[i]).Ok?
    ensures r.Ok? ==> |r.value| <= |entries|
    ensures r.Ok? ==> forall m :: m in r.value ==>
      |m.items| == 1 && m.items[0].TextItem? && !(m.role == Tool && m.items[0].text == "")
    decreases |entries|
  {
    if |entries| == 0 then Ok([])
    else
      var first := RestoreEntry(entries[0]);
      var rest := RestoreHistory(entries[1..]);
      assert forall i :: 1 <= i < |entries| ==> entries[i] == entries[1..][i - 1];
      if first.Raised? then Raised(first.error)
      else if rest.Raised? then Raised(rest.error)
      else Ok((if first.value.Some? then [first.value.value] else []) + rest.value)
  }

  function Prefixed(acc: seq<Message>, r: Result<seq<Message>>): Result<seq<Message>> {
    if r.Ok? then Ok(acc + r.value) else r
  }

  /** The loop of `deserialize` over `chat_history`, stopping at the first
      entry that raises. */
  method DeserializeHistory(entries: seq<StoredMessage>) returns (r: Result<seq<Message>>)
    ensures r == RestoreHistory(entries)
  {
    var acc: seq<Message> := [];
    var i := 0;
    assert entries[0..] == entries;
    if RestoreHistory(entries).Ok? {
      assert [] + RestoreHistory(entries).value == RestoreHistory(entries).value;
    }
    while i < |entries|
      invariant 0 <= i <= |entries|
      invariant RestoreHistory(entries) == Prefixed(acc, RestoreHistory(entries[i..]))
    {
      assert entries[i..][1..] == entries[i + 1..];
      var e := RestoreEntry(entries[i]);
      if e.Raised? {
        return Raised(e.error);
      }
      var rest := RestoreHistory(entries[i + 1..]);
      assert RestoreHistory(entries[i..]) == Prefixed(if e.value.Some? then [e.value.value] else [], rest);
      if e.value.Some? {
        if rest.Ok? {
          assert (acc + [e.value.value]) + rest.value == acc + ([e.value.value] + rest.value);
        }
        acc := acc + [e.value.value];
      } else {
        if rest.Ok? {
          assert acc + ([] + rest.value) == acc + rest.value;
        }
      }
      i := i + 1;
    }
    assert entries[i..] == [];
    assert acc + [] == acc;
    return Ok(acc);
  }

  /** `deserialize`: a missing `conversation_id` or an unknown role raises;
      the roster is never read back. */
  function Deserialize(d: ContextDocument): (r: Result<ChatContext>)
    ensures r.Ok? <==> d.conversationId.Some? && RestoreHistory(d.chatHistory).Ok?
    ensures r.Ok? ==> r.value.conversationId == d.conversationId.value && r.value.patientContexts == map[]
    ensures r.Ok? ==> r.value.history == RestoreHistory(d.chatHistory).value
  {
    if d.conversationId.None? then Raised(KeyError("conversation_id"))
    else
      var history :- RestoreHistory(d.chatHistory);
      Ok(ChatContext(d.conversationId.value, history, d.patientId, map[], d.patientData,
                     d.displayBlobUrls, d.displayImageUrls, d.displayClinicalTrials, d.outputData,
                     d.healthcareAgents, d.workflowSummary))
  }

  // ---------------------------------------------------------------- round trip

  /** What a message becomes after being written and read back: empty tool
      messages vanish, content collapses to one text item, an empty name is
      dropped. */
  function Normalized(m: Message): Option<Message> {
    if m.role == Tool && ContentText(m) == "" then None
    else Some(Message(m.role, [TextItem(ContentText(m))], if Truthy(m.name) then m.name else None))
  }

  function NormalizedHistory(h: seq<Message>): seq<Message>
    decreases |h|
  {
    if |h| == 0 then []
    else (if Normalized(h[0]).Some? then [Normalized(h[0]).value] else []) + NormalizedHistory(h[1..])
  }

  lemma {:induction false} HistoryRoundTrip(h: seq<Message>)
    ensures RestoreHistory(StoreHistory(h)) == Ok(NormalizedHistory(h))
    decreases |h|
  {
    var entries := StoreHistory(h);
    if |h| > 0 {
      ParseRoleExact(RoleName(h[0].role), h[0].role);
      assert entries[1..] == StoreHistory(h[1..]);
      HistoryRoundTrip(h[1..]);
    }
  }

  function StoreHistory(h: seq<Message>): (r: seq<StoredMessage>)
    ensures |r| == |h|
    ensures forall i :: 0 <= i < |h| ==> r[i] == StoreMessage(h[i])
  {
    seq(|h|, i requires 0 <= i < |h| => StoreMessage(h[i]))
  }

  /** deserialize(serialize(c)) gives back everything except the roster, and
      the history up to `Normalized`. */
  lemma RoundTrip(c: ChatContext)
    ensures Deserialize(Serialize(c)) == Ok(c.(history := NormalizedHistory(c.history), patientContexts := map[]))
  {
    HistoryRoundTrip(c.history);
    assert Serialize(c).chatHistory == StoreHistory(c.history);
  }

  /** A history of plain text messages (no empty tool message, no empty
      name) survives the round trip unchanged; this includes the snapshot
      system message, which is therefore persisted. */
  lemma {:induction false} TextHistoryIsStable(h: seq<Message>)
    requires forall i :: 0 <= i < |h| ==> |h[i].items| == 1 && h[i].items[0].TextItem?
    requires forall i :: 0 <= i < |h| ==> !(h[i].role == Tool && h[i].items[0].text == "")
    requires forall i :: 0 <= i < |h| ==> h[i].name.None? || h[i].name.value != ""
    ensures NormalizedHistory(h) == h
    decreases |h|
  {
    if |h| > 0 {
      assert h[0].items == [TextItem(ContentText(h[0]))];
      TextHistoryIsStable(h[1..]);
      assert h == [h[0]] + h[1..];
    }
  }

  // ---------------------------------------------------------------- read / write

  /** The decoded context stored at `key`, if it is there and decodes. */
  function Loaded(st: Storage, key: string): Option<ChatContext> {
    match Download(st, key)
    case Ok(ContextBlob(d)) => if Deserialize(d).Ok? then Some(Deserialize(d).value) else None
    case _ => None
  }

  /** Aligns a loaded or fresh context with the requested patient. */
  function ForPatient(c: ChatContext, pid: Option<string>): ChatContext {
    if Truthy(pid) then
      c.(patientId := pid,
         patientContexts := if pid.value in c.patientContexts then c.patientContexts
                            else c.patientContexts[pid.value := NewPatientContext(pid.value)])
    else c.(patientId := None)
  }

  /** `read`: never raises. A missing, unreadable or undecodable slot gives a
      fresh context; the patient id of the result is the requested one (or
      none), whatever the stored document said. */
  function Read(st: Storage, cid: string, pid: Option<string>): (r: ChatContext)
    ensures Truthy(pid) ==> r.patientId == pid && r.patientContexts.Keys == {pid.value}
    ensures !Truthy(pid) ==> r.patientId == None && r.patientContexts == map[]
    ensures Loaded(st, BlobPath(cid, pid)).None? ==>
      r.conversationId == cid && r.history == [] && r.displayImageUrls == [] && r.displayBlobUrls == []
    ensures Loaded(st, BlobPath(cid, pid)).Some? ==>
      r.history == Loaded(st, BlobPath(cid, pid)).value.history
      && r.conversationId == Loaded(st, BlobPath(cid, pid)).value.conversationId
  {
    match Loaded(st, BlobPath(cid, pid))
    case Some(c) => ForPatient(c, pid)
    case None => ForPatient(NewChatContext(cid), pid)
  }

  /** `write`: the context's own patient id selects the slot. */
  function Write(st: Storage, c: ChatContext): (r: Result<Storage>)
    ensures r.Ok? <==> BlobPath(c.conversationId, c.patientId) !in st.failing
    ensures r.Ok? ==> SameOutside(st, r.value, {BlobPath(c.conversationId, c.patientId)})
    ensures r.Ok? ==> BlobPath(c.conversationId, c.patientId) in r.value.blobs
                      && r.value.blobs[BlobPath(c.conversationId, c.patientId)] == ContextBlob(Serialize(c))
  {
    Upload(st, BlobPath(c.conversationId, c.patientId), ContextBlob(Serialize(c)))
  }

  /** Reading back the slot just written gives the written context, up to
      the round trip and the roster rebuilt for the slot's patient. */
  lemma WriteThenRead(st: Storage, c: ChatContext)
    requires Write(st, c).Ok?
    ensures Read(Write(st, c).value, c.conversationId, c.patientId)
         == ForPatient(c.(history := NormalizedHistory(c.history), patientContexts := map[]), c.patientId)
  {
    RoundTrip(c);
  }

  /** A stored entry with an unknown role makes the whole slot read as fresh. */
  lemma UnknownRoleReadsFresh(st: Storage, cid: string, pid: Option<string>, i: nat)
    requires BlobPath(cid, pid) in st.blobs && BlobPath(cid, pid) !in st.failing
    requires st.blobs[BlobPath(cid, pid)].ContextBlob?
    requires i < |st.blobs[BlobPath(cid, pid)].doc.chatHistory|
    requires st.blobs[BlobPath(cid, pid)].doc.chatHistory[i].role.Some?
    requires ParseRole(st.blobs[BlobPath(cid, pid)].doc.chatHistory[i].role.value).None?
    ensures Read(st, cid, pid) == ForPatient(NewChatContext(cid), pid)
  {
  }

  // ---------------------------------------------------------------- archive

  /** `archive`: copy the context to its timestamped name, then delete the
      live slot (a missing slot is fine); any other storage failure raises. */
  function Archive(st: Storage, c: ChatContext, now: Instant): (r: Result<Storage>)
    ensures r.Ok? <==> ArchivePath(c, now.compact) !in st.failing && BlobPath(c.conversationId, c.patientId) !in st.failing
    ensures r.Ok? ==> r.value.blobs == st.blobs[ArchivePath(c, now.compact) := ContextBlob(Serialize(c))]
                                         - {BlobPath(c.conversationId, c.patientId)}
    ensures r.Ok? ==> ArchivePath(c, now.compact) in r.value.blobs && BlobPath(c.conversationId, c.patientId) !in r.value.blobs
  {
    ArchivePathsAreNotLive(c, "", "", None, now.compact);
    var st1 :- Upload(st, ArchivePath(c, now.compact), ContextBlob(Serialize(c)));
    DeleteIfPresent(st1, BlobPath(c.conversationId, c.patientId))
  }

  /** `archive_to_folder`: move the slot under the archive folder. It never
      raises; when the slot is missing or a step fails nothing moves, except
      that a failing delete leaves the copy in place. */
  function ArchiveToFolder(st: Storage, cid: string, pid: Option<string>, folder: string, ts: string): (r: Storage)
    ensures SameOutside(st, r, {BlobPath(cid, pid), FolderArchivePath(folder, cid, pid, ts)})
    ensures var live := BlobPath(cid, pid);
            var dest := FolderArchivePath(folder, cid, pid, ts);
            live in st.blobs && live !in st.failing && dest !in st.failing ==>
              dest in r.blobs && r.blobs[dest] == st.blobs[live] && live !in r.blobs
    ensures (|| BlobPath(cid, pid) !in st.blobs || BlobPath(cid, pid) in st.failing
             || FolderArchivePath(folder, cid, pid, ts) in st.failing) ==> r == st
  {
    var live := BlobPath(cid, pid);
    var dest := FolderArchivePath(folder, cid, pid, ts);
    ArchivePathsAreNotLive(NewChatContext(""), folder, cid, pid, ts);
    match Download(st, live)
    case Raised(_) => st
    case Ok(blob) =>
      match Upload(st, dest, blob)
      case Raised(_) => st
      case Ok(st1) =>
        match Delete(st1, live)
        case Ok(st2) => st2
        case Raised(_) => st1
  }
}

=== FILE: chats_route.dfy ===
/** The WebSocket chat route: one incoming message is one turn. The turn
    loads the session context, handles the clear command, lets the
    patient-context service decide, swaps in the active patient's history,
    injects the snapshot, runs the group chat and persists the result. The
    socket is the list of outgoing frames; the group-chat run is an oracle. */
module ChatsRoute {
  import opened Outcomes
  import opened JsonValues
  import opened Text
  import opened ChatContexts
  import opened BlobStore
  import opened ChatContextAccessor
  import opened Analyzer
  import opened PatientContextService
  import opened Snapshots
  import opened TurnSteps
  import opened GroupChat

  const EmptyContentError: string := "Empty message content"
  const OrchestratorName: string := "Orchestrator"
  const ClearedReply: string := "The conversation has been cleared. How can I assist you today?"
  const NeedsIdReply: string := "I need a patient ID to proceed. Provide one like 'patient_4'."

  /** A frame sent on the socket: `{"error": …}`, a bot message, or
      `{"type": "done"}`. An exception's text is kept as the exception. */
  datatype Outgoing =
    | ErrorText(text: string)
    | Failure(error: Error)
    | BotReply(sender: string, content: string)
    | Done

  /** A response yielded by the group chat. */
  datatype AgentResponse = AgentResponse(name: string, content: string)

  /** What invoking the chat does: the responses it yields, the messages it
      appends to the history, the exception it ends with, if any (raised
      after the listed responses), and what the agents' tools appended to
      the shared context's display lists, which the route never consumes and
      so writes back with the turn. */
  datatype RunOutcome = RunOutcome(responses: seq<AgentResponse>, appended: seq<Message>, failure: Option<Error>,
                                   displays: DisplayAdditions)

  /** The group chat's run, from its set-up, the history and the agent the
      turn is addressed to (`None` lets the selection strategy choose). */
  type ChatRun = (GroupChatSetup, seq<Message>, Option<string>) -> RunOutcome

  /** What the route is built with: the agent configurations, the facilitator
      chosen from them when the router is created, the analyzer's model, the
      snapshot codec and the chat run. */
  datatype RouteEnv = RouteEnv(
    chatId: string,
    configs: seq<AgentConfig>,
    facilitator: string,
    scenario: Option<string>,
    model: Model,
    dump: Dump,
    load: Load,
    run: ChatRun)

  /** Building the route: the facilitator is the first configuration flagged
      as one, else the first configuration; an empty list raises IndexError. */
  function NewRouteEnv(chatId: string, configs: seq<AgentConfig>, scenario: Option<string>, model: Model,
                       dump: Dump, load: Load, run: ChatRun): (r: Result<RouteEnv>)
    ensures r.Ok? <==> |configs| > 0
    ensures r.Raised? ==> r.error == IndexError
    ensures r.Ok? ==> r.value.chatId == chatId && r.value.configs == configs && r.value.scenario == scenario
    ensures r.Ok? && FirstFlagged(configs).None? ==> r.value.facilitator == configs[0].name
    ensures r.Ok? && FirstFlagged(configs).Some? ==> r.value.facilitator == configs[FirstFlagged(configs).value].name
  {
    var facilitator :- FacilitatorOf(configs);
    Ok(RouteEnv(chatId, configs, facilitator, scenario, model, dump, load, run))
  }

  /** When no configuration is named "magentic", the facilitator the route
      picks is the one the group chat is set up with, so a turn addressed to
      nobody in particular goes to the chat's own facilitator. */
  lemma RouteFacilitatorLeadsTheChat(chatId: string, configs: seq<AgentConfig>, scenario: Option<string>,
                                     model: Model, dump: Dump, load: Load, run: ChatRun, cid: string)
    requires forall i :: 0 <= i < |configs| ==> configs[i].name != ExcludedAgentName
    requires CreateGroupChat(configs, None, cid, scenario).Ok?
    ensures NewRouteEnv(chatId, configs, scenario, model, dump, load, run).Ok?
    ensures NewRouteEnv(chatId, configs, scenario, model, dump, load, run).value.facilitator
            == CreateGroupChat(configs, None, cid, scenario).value.facilitator
  {
    NoMagenticKeepsAll(configs);
  }

  lemma {:induction false} NoMagenticKeepsAll(cfgs: seq<AgentConfig>)
    requires forall i :: 0 <= i < |cfgs| ==> cfgs[i].name != ExcludedAgentName
    ensures WithoutMagentic(cfgs) == cfgs
  {
    if |cfgs| > 0 {
      NoMagenticKeepsAll(cfgs[1..]);
      assert [cfgs[0]] + cfgs[1..] == cfgs;
    }
  }

  /** The route builds its service with both the registry and the context
      accessor. */
  const RouteService: Service := Service(true, true)

  /** The state that outlives a turn: the blob store and the analyzer. */
  datatype RouteState = RouteState(store: Storage, analyzer: AnalyzerState)

  // ---------------------------------------------------------------- agent selection

  /** Index of the first agent whose lower-cased name is `folded`. */
  function FirstNamed(agents: seq<string>, folded: string): (r: Option<nat>)
    ensures r.Some? ==> r.value < |agents| && Lower(agents[r.value]) == folded
                        && forall j :: 0 <= j < r.value ==> Lower(agents[j]) != folded
    ensures r.None? ==> forall j :: 0 <= j < |agents| ==> Lower(agents[j]) != folded
  {
    if |agents| == 0 then None
    else if Lower(agents[0]) == folded then Some(0)
    else match FirstNamed(agents[1..], folded)
      case Some(i) => Some(i + 1)
      case None => None
  }

  /** The text before the first colon, stripped, when there is a colon. */
  function Addressee(content: string): Option<string> {
    if ':' in content then Some(Strip(BeforeFirst(content, ":"))) else None
  }

  /** Step 7: a leading `name:` addresses the agent of that name (in any
      case), otherwise the facilitator; the agent chosen is the first whose
      name matches ignoring case, the first agent by default (read eagerly,
      so an empty roster raises), and the facilitator itself is expressed as
      no explicit agent. */
  function PickTarget(content: string, agents: seq<string>, facilitator: string): (r: Result<Option<string>>)
    ensures |agents| == 0 <==> r.Raised?
    ensures r.Raised? ==> r.error == IndexError
    ensures r.Ok? && r.value.Some? ==> r.value.value in agents && r.value.value != facilitator
    ensures r == Ok(None) ==> facilitator in agents
  {
    var target := match Addressee(content)
      case Some(a) => if FirstNamed(agents, Lower(a)).Some? then a else facilitator
      case None => facilitator;
    if |agents| == 0 then Raised(IndexError)
    else
      var chosen := match FirstNamed(agents, Lower(target))
        case Some(i) => agents[i]
        case None => agents[0];
      if chosen == facilitator then Ok(None) else Ok(Some(chosen))
  }

  /** No two agents share a name up to case. */
  predicate DistinctFolded(agents: seq<string>) {
    forall i, j :: 0 <= i < j < |agents| ==> Lower(agents[i]) != Lower(agents[j])
  }

  lemma {:induction false} BeforeFirstColon(a: string, b: string)
    requires ':' !in a
    ensures SplitOn(a + ":" + b, ":")[0] == a
    decreases |a|
  {
    if |a| == 0 {
      assert (a + ":" + b)[..1] == ":";
    } else {
      var s := a + ":" + b;
      assert s[..1] != ":" by {
        assert s[0] == a[0];
      }
      assert s[1..] == a[1..] + ":" + b;
      BeforeFirstColon(a[1..], b);
      assert a == [a[0]] + a[1..];
    }
  }

  /** Addressing an agent by name, in any case, sends the turn to that agent
      (or to the selection strategy when it is the facilitator). */
  lemma AddressedAgentIsPicked(name: string, rest: string, agents: seq<string>, facilitator: string, i: int)
    requires DistinctFolded(agents) && 0 <= i < |agents|
    requires ':' !in name && Strip(name) == name && Lower(name) == Lower(agents[i])
    ensures PickTarget(name + ":" + rest, agents, facilitator)
            == Ok(if agents[i] == facilitator then None else Some(agents[i]))
  {
    AddresseeOfNamed(name, rest);
    FoldedNameIsFound(agents, i);
    assert Lower(name) == Lower(agents[i]);
    PickFound(name + ":" + rest, agents, facilitator, name, i);
  }

  lemma AddresseeOfNamed(name: string, rest: string)
    requires ':' !in name && Strip(name) == name
    ensures Addressee(name + ":" + rest) == Some(name)
  {
    var content := name + ":" + rest;
    assert content[|name|] == ':';
    BeforeFirstColon(name, rest);
  }

  /** A turn whose addressee's folded name finds agent `i` goes to that agent. */
  lemma PickFound(content: string, agents: seq<string>, facilitator: string, name: string, i: nat)
    requires Addressee(content) == Some(name) && FirstNamed(agents, Lower(name)) == Some(i)
    ensures PickTarget(content, agents, facilitator) == Ok(if agents[i] == facilitator then None else Some(agents[i]))
  {
  }

  /** With names distinct up to case, an agent's folded name finds that
      agent. */
  lemma FoldedNameIsFound(agents: seq<string>, i: int)
    requires DistinctFolded(agents) && 0 <= i < |agents|
    ensures FirstNamed(agents, Lower(agents[i])) == Some(i)
  {
    var r := FirstNamed(agents, Lower(agents[i]));
    assert r.Some? && r.value <= i;
  }

  /** A message without a colon goes to the selection strategy when the
      facilitator is one of the agents. */
  lemma UnaddressedGoesToStrategy(content: string, agents: seq<string>, facilitator: string)
    requires ':' !in content
    requires DistinctFolded(agents) && facilitator in agents
    ensures PickTarget(content, agents, facilitator) == Ok(None)
  {
    var i :| 0 <= i < |agents| && agents[i] == facilitator;
    FoldedNameIsFound(agents, i);
  }

  // ---------------------------------------------------------------- the turn

  /** Step 8: each response with content is sent with the PT_CTX block;
      the first block that raises stops the turn with that exception. */
  function Deliver(responses: seq<AgentResponse>, history: seq<Message>, load: Load)
    : (r: (seq<Outgoing>, Option<Error>))
    ensures |r.0| <= |responses|
    ensures forall i :: 0 <= i < |r.0| ==> r.0[i].BotReply?
    decreases |responses|
  {
    if |responses| == 0 then ([], None)
    else if responses[0].content == "" then Deliver(responses[1..], history, load)
    else match AppendPcCtxDisplay(responses[0].content, history, load)
      case Raised(e) => ([], Some(e))
      case Ok(text) =>
        var (rest, err) := Deliver(responses[1..], history, load);
        ([BotReply(responses[0].name, text)] + rest, err)
  }

  /** The history of the turn as the chat leaves it: the prepared history,
      the user's message, and what the chat appended. */
  function TurnHistory(c: ChatContext, content: string, appended: seq<Message>): seq<Message> {
    c.history + [TextMessage(User, content)] + appended
  }

  /** Steps 5 to 9 for a context the service has settled; the frames sent,
      without the closing `done`, and the state after the write. Any
      exception is sent as an error and skips the write. */
  function Converse(env: RouteEnv, st: RouteState, ctx: ChatContext, content: string, now: Instant)
    : (r: (seq<Outgoing>, RouteState))
    ensures r.1.analyzer == st.analyzer
    ensures NoDone(r.0)
  {
    var c := PrepareHistory(st.store, ctx, env.dump, now.isoNaive + "Z");
    match CreateGroupChat(env.configs, None, c.conversationId, env.scenario)
    case Raised(e) => ([Failure(e)], st)
    case Ok(setup) =>
      match PickTarget(content, AgentNames(setup.agents), env.facilitator)
      case Raised(e) => ([Failure(e)], st)
      case Ok(target) =>
        Conclude(st, c, content, env.run(setup, c.history + [TextMessage(User, content)], target), env.load)
  }

  /** Steps 8 and 9 once the chat has run: the replies are delivered, and
      the turn is written only when neither a reply's display nor the chat
      raised. */
  function Conclude(st: RouteState, c: ChatContext, content: string, outcome: RunOutcome, load: Load)
    : (r: (seq<Outgoing>, RouteState))
    ensures r.1.analyzer == st.analyzer
    ensures NoDone(r.0)
    ensures r.1 != st ==>
      Write(st.store, WithDisplays(c, outcome.displays).(history := TurnHistory(c, content, outcome.appended))) == Ok(r.1.store)
  {
    var history := TurnHistory(c, content, outcome.appended);
    var (sent, err) := Deliver(outcome.responses, history, load);
    if err.Some? then (sent + [Failure(err.value)], st)
    else if outcome.failure.Some? then (sent + [Failure(outcome.failure.value)], st)
    else match Write(st.store, WithDisplays(c, outcome.displays).(history := history))
      case Ok(s) => (sent, st.(store := s))
      case Raised(e) => (sent + [Failure(e)], st)
  }

  predicate NoDone(out: seq<Outgoing>) {
    forall i :: 0 <= i < |out| ==> out[i] != Done
  }

  /** A turn's frames: `done` comes last and only there. */
  predicate EndsOnce(out: seq<Outgoing>) {
    |out| > 0 && out[|out| - 1] == Done && NoDone(out[..|out| - 1])
  }

  lemma ClosedByDone(out: seq<Outgoing>)
    requires NoDone(out)
    ensures EndsOnce(out + [Done])
  {
    assert (out + [Done])[..|out|] == out;
  }

  /** One turn of the route. An empty message is refused before anything
      is read; any other turn sends what `Dispatch` makes of the session
      context read with no active patient, and closes it with a single
      `done`. The analyzer's kernel is never reset here. */
  method RouteTurn(env: RouteEnv, st: RouteState, raw: string, now: Instant) returns (out: seq<Outgoing>, st2: RouteState)
    ensures Strip(raw) == "" ==> out == [ErrorText(EmptyContentError)] && st2 == st
    ensures Strip(raw) != "" ==> EndsOnce(out)
    ensures st2.analyzer == st.analyzer
  {
    var content := Strip(raw);
    if content == "" {
      return [ErrorText(EmptyContentError)], st;
    }
    var sent;
    sent, st2 := Dispatch(env, st, Read(st.store, env.chatId, None), content, now);
    ClosedByDone(sent);
    out := sent + [Done];
  }

  /** A turn with content, up to the closing `done`: a clear, or the
      service's decision and then the chat. With no active patient the
      service never resets the analyzer's kernel. A clear is answered with
      one frame (see `AnswerClear`). A turn the analyzer sends back for an id
      writes nothing and starts no chat. */
  method Dispatch(env: RouteEnv, st: RouteState, ctx: ChatContext, content: string, now: Instant)
    returns (out: seq<Outgoing>, st2: RouteState)
    requires !Truthy(ctx.patientId)
    ensures NoDone(out)
    ensures st2.analyzer == st.analyzer
    ensures !IsClearCommand(content)
            && DecideAndApply(RouteService, env.model, content, World(ctx, st.store, st.analyzer), now).0 == NeedsPatientId ==>
              out == [BotReply(OrchestratorName, NeedsIdReply)] && st2 == st
  {
    if !IsClearCommand(content) {
      out, st2 := Proceed(env, st, ctx, content, now);
      return;
    }
    var reply;
    reply, st2 := AnswerClear(st, ctx, content, now);
    out := [reply];
  }

  /** A clear command: the fixed reply, or the error of the write. */
  method AnswerClear(st: RouteState, ctx: ChatContext, content: string, now: Instant)
    returns (reply: Outgoing, st2: RouteState)
    requires IsClearCommand(content)
    ensures reply.BotReply? || reply.Failure?
    ensures st2.analyzer == st.analyzer
    ensures ClearCanWrite(st.store, ctx.conversationId, now) ==>
              && reply == BotReply(OrchestratorName, ClearedReply)
              && Read(st2.store, ctx.conversationId, None).history == []
              && RegistryAccessor.ReadRegistry(st2.store, ctx.conversationId).0 == map[]
  {
    if ClearCanWrite(st.store, ctx.conversationId, now) {
      ClearLeavesNothing(st.store, ctx, content, now);
    }
    match HandleClear(st.store, ctx, content, now).value.1
    case Ok(s) =>
      return BotReply(OrchestratorName, ClearedReply), st.(store := s);
    case Raised(e) =>
      return Failure(e), st.(store := ArchiveForClear(st.store, ctx.conversationId, now));
  }

  /** A turn that is not a clear: the service decides, and the chat runs
      unless the decision asks for a patient id. With no active patient the
      decision resets no kernel, and the chat does not touch the analyzer. */
  method Proceed(env: RouteEnv, st: RouteState, ctx: ChatContext, content: string, now: Instant)
    returns (out: seq<Outgoing>, st2: RouteState)
    requires !Truthy(ctx.patientId)
    ensures NoDone(out)
    ensures st2.analyzer == st.analyzer
    ensures var (decision, w) := DecideAndApply(RouteService, env.model, content, World(ctx, st.store, st.analyzer), now);
            if decision == NeedsPatientId then out == [BotReply(OrchestratorName, NeedsIdReply)] && st2 == st
            else (out, st2) == Converse(env, RouteState(w.store, w.analyzer), w.ctx, content, now)
  {
    var w0 := World(ctx, st.store, st.analyzer);
    var (decision, w) := DecideAndApply(RouteService, env.model, content, w0, now);
    KernelResetExactly(RouteService, env.model, content, w0, now);
    var st1 := RouteState(w.store, w.analyzer);
    if decision == NeedsPatientId {
      return [BotReply(OrchestratorName, NeedsIdReply)], st1;
    }
    var r := Converse(env, st1, w.ctx, content, now);
    return r.0, r.1;
  }

  /** The frames a run's responses should produce when the snapshot is
      present: each response with content, followed by the display block. */
  function Replies(responses: seq<AgentResponse>, block: string): seq<Outgoing>
    decreases |responses|
  {
    if |responses| == 0 then []
    else (if responses[0].content == "" then [] else [BotReply(responses[0].name, responses[0].content + block)])
         + Replies(responses[1..], block)
  }

  /** When every reply's display appends the same block, the responses with
      content are sent in order with that block, and none raises. */
  lemma {:induction false} DeliverWithBlock(responses: seq<AgentResponse>, history: seq<Message>, load: Load,
                                            block: string)
    requires forall i :: 0 <= i < |responses| ==>
               AppendPcCtxDisplay(responses[i].content, history, load) == Ok(responses[i].content + block)
    ensures Deliver(responses, history, load) == (Replies(responses, block), None)
    decreases |responses|
  {
    if |responses| > 0 {
      var tail := responses[1..];
      forall i | 0 <= i < |tail|
        ensures AppendPcCtxDisplay(tail[i].content, history, load) == Ok(tail[i].content + block)
      {
        assert tail[i] == responses[i + 1];
      }
      DeliverWithBlock(tail, history, load, block);
      assert Replies(responses, block) ==
        (if responses[0].content == "" then [] else [BotReply(responses[0].name, responses[0].content + block)])
        + Replies(tail, block);
      if responses[0].content != "" {
        assert AppendPcCtxDisplay(responses[0].content, history, load) == Ok(responses[0].content + block);
        var rest := Deliver(tail, history, load);
        assert Deliver(responses, history, load)
            == ([BotReply(responses[0].name, responses[0].content + block)] + rest.0, rest.1);
      } else {
        assert Deliver(responses, history, load) == Deliver(tail, history, load);
        assert Replies(responses, block) == [] + Replies(tail, block);
        assert [] + Replies(tail, block) == Replies(tail, block);
      }
    }
  }

  /** With the snapshot injected at the front and a JSON codec that reads
      back what it writes, every response with content is sent with the block
      of that snapshot, and none raises. */
  lemma DeliverShowsSnapshot(responses: seq<AgentResponse>, h: seq<Message>, d: SnapshotData,
                             dump: Dump, load: Load, appended: seq<Message>)
    requires Clean(appended)
    requires StripLeft(dump(d)) == dump(d) && dump(d) != ""
    requires load(dump(d)) == Some(JObj(SnapshotJson(d)))
    ensures Deliver(responses, InjectSnapshot(h, dump(d)) + appended, load) == (Replies(responses, DisplayOf(d)), None)
  {
    var history := InjectSnapshot(h, dump(d)) + appended;
    forall i | 0 <= i < |responses|
      ensures AppendPcCtxDisplay(responses[i].content, history, load) == Ok(responses[i].content + DisplayOf(d))
    {
      DisplayOfInjectedSnapshot(responses[i].content, h, d, dump, load, appended);
    }
    DeliverWithBlock(responses, history, load, DisplayOf(d));
  }

  /** A message that survives the store round trip unchanged stays at the
      head of the history read back. */
  lemma NormalizedHead(h: seq<Message>)
    requires |h| > 0 && Normalized(h[0]) == Some(h[0])
    ensures |NormalizedHistory(h)| > 0 && NormalizedHistory(h)[0] == h[0]
  {
  }

  /** Once the chat is set up and every reply is delivered, what remains of
      a turn is the write. */
  lemma ConverseAfterDelivery(env: RouteEnv, st: RouteState, ctx: ChatContext, content: string, now: Instant,
                              setup: GroupChatSetup, target: Option<string>, sent: seq<Outgoing>)
    requires CreateGroupChat(env.configs, None, ctx.conversationId, env.scenario) == Ok(setup)
    requires PickTarget(content, AgentNames(setup.agents), env.facilitator) == Ok(target)
    requires var c := PrepareHistory(st.store, ctx, env.dump, now.isoNaive + "Z");
             var o := env.run(setup, c.history + [TextMessage(User, content)], target);
             Deliver(o.responses, TurnHistory(c, content, o.appended), env.load) == (sent, None) && o.failure.None?
    ensures var c := PrepareHistory(st.store, ctx, env.dump, now.isoNaive + "Z");
            var o := env.run(setup, c.history + [TextMessage(User, content)], target);
            var w := Write(st.store, WithDisplays(c, o.displays).(history := TurnHistory(c, content, o.appended)));
            Converse(env, st, ctx, content, now) == if w.Ok? then (sent, st.(store := w.value)) else (sent + [Failure(w.error)], st)
  {
    var c := PrepareHistory(st.store, ctx, env.dump, now.isoNaive + "Z");
    assert c.conversationId == ctx.conversationId;
  }

  predicate OpensWith(h: seq<Message>, m: Message) {
    |h| > 0 && h[0] == m
  }

  /** A written context whose history opens with a snapshot reads back with
      that snapshot still at the front. */
  lemma SnapshotReadsBack(st: Storage, written: ChatContext, payload: string)
    requires Write(st, written).Ok?
    requires OpensWith(written.history, SnapshotMessage(payload))
    ensures Read(Write(st, written).value, written.conversationId, written.patientId).history
         == NormalizedHistory(written.history)
    ensures OpensWith(NormalizedHistory(written.history), SnapshotMessage(payload))
  {
    WriteThenRead(st, written);
    NormalizedHead(written.history);
  }

  /** A written context reads back with its display lists as written. */
  lemma DisplaysReadBack(st: Storage, written: ChatContext)
    requires Write(st, written).Ok?
    ensures var back := Read(Write(st, written).value, written.conversationId, written.patientId);
            back.displayImageUrls == written.displayImageUrls
            && back.displayClinicalTrials == written.displayClinicalTrials
            && back.displayBlobUrls == written.displayBlobUrls
  {
    WriteThenRead(st, written);
  }

  /** The user's message is never a snapshot. */
  lemma UserTurnClean(content: string, appended: seq<Message>)
    requires Clean(appended)
    ensures Clean([TextMessage(User, content)] + appended)
  {
    var tail := [TextMessage(User, content)] + appended;
    assert !IsSnapshot(tail[0]);
    forall i | 1 <= i < |tail| ensures !IsSnapshot(tail[i]) {
      assert tail[i] == appended[i - 1];
    }
  }

  /** Whatever the chat appends, as long as it adds no snapshot, the replies
      of the turn carry the block of the snapshot injected before the user's
      message, and the history still opens with that snapshot. */
  lemma TurnRepliesShowSnapshot(responses: seq<AgentResponse>, h: seq<Message>, d: SnapshotData,
                                dump: Dump, load: Load, content: string, appended: seq<Message>)
    requires Clean(appended)
    requires StripLeft(dump(d)) == dump(d) && dump(d) != ""
    requires load(dump(d)) == Some(JObj(SnapshotJson(d)))
    ensures Deliver(responses, InjectSnapshot(h, dump(d)) + [TextMessage(User, content)] + appended, load)
         == (Replies(responses, DisplayOf(d)), None)
    ensures OpensWith(InjectSnapshot(h, dump(d)) + [TextMessage(User, content)] + appended, SnapshotMessage(dump(d)))
  {
    var user := [TextMessage(User, content)];
    UserTurnClean(content, appended);
    var injected := InjectSnapshot(h, dump(d));
    ConcatAssoc(injected, user, appended);
    DeliverShowsSnapshot(responses, h, d, dump, load, user + appended);
    OpensStill(injected, user + appended, SnapshotMessage(dump(d)));
  }

  lemma OpensStill(a: seq<Message>, b: seq<Message>, m: Message)
    requires OpensWith(a, m)
    ensures OpensWith(a + b, m)
  {
  }

  /** A turn whose chat runs to the end: the replies carry the PT_CTX block
      of the context as the service left it, and the write stores the whole
      turn, snapshot first, in the slot of the patient active after the
      decision. */
  lemma ConverseShowsDecidedContext(env: RouteEnv, st: RouteState, ctx: ChatContext, content: string, now: Instant,
                                    setup: GroupChatSetup, target: Option<string>)
    requires CreateGroupChat(env.configs, None, ctx.conversationId, env.scenario) == Ok(setup)
    requires PickTarget(content, AgentNames(setup.agents), env.facilitator) == Ok(target)
    requires var c := PrepareHistory(st.store, ctx, env.dump, now.isoNaive + "Z");
             var o := env.run(setup, c.history + [TextMessage(User, content)], target);
             Clean(o.appended) && o.failure.None?
    requires var d := SnapshotOf(ctx, now.isoNaive + "Z");
             StripLeft(env.dump(d)) == env.dump(d) && env.dump(d) != ""
             && env.load(env.dump(d)) == Some(JObj(SnapshotJson(d)))
    ensures var c := PrepareHistory(st.store, ctx, env.dump, now.isoNaive + "Z");
            var o := env.run(setup, c.history + [TextMessage(User, content)], target);
            var d := SnapshotOf(ctx, now.isoNaive + "Z");
            var written := WithDisplays(c, o.displays).(history := TurnHistory(c, content, o.appended));
            var r := Converse(env, st, ctx, content, now);
            && (Write(st.store, written).Raised? ==> r == (Replies(o.responses, DisplayOf(d)) + [Failure(Write(st.store, written).error)], st))
            && (Write(st.store, written).Ok? ==>
                  && r == (Replies(o.responses, DisplayOf(d)), st.(store := Write(st.store, written).value))
                  && Read(r.1.store, ctx.conversationId, ctx.patientId).history == NormalizedHistory(written.history)
                  && Read(r.1.store, ctx.conversationId, ctx.patientId).displayImageUrls == c.displayImageUrls + o.displays.images
                  && Read(r.1.store, ctx.conversationId, ctx.patientId).displayClinicalTrials == c.displayClinicalTrials + o.displays.trials
                  && Read(r.1.store, ctx.conversationId, ctx.patientId).displayBlobUrls == c.displayBlobUrls + o.displays.blobs
                  && OpensWith(NormalizedHistory(written.history), SnapshotMessage(env.dump(d))))
  {
    var ts := now.isoNaive + "Z";
    var c := PrepareHistory(st.store, ctx, env.dump, ts);
    var o := env.run(setup, c.history + [TextMessage(User, content)], target);
    var d := SnapshotOf(ctx, ts);
    TurnRepliesShowSnapshot(o.responses, IsolatedSwap(st.store, ctx).history, d, env.dump, env.load, content, o.appended);
    assert TurnHistory(c, content, o.appended)
        == InjectSnapshot(IsolatedSwap(st.store, ctx).history, env.dump(d)) + [TextMessage(User, content)] + o.appended;
    ConverseAfterDelivery(env, st, ctx, content, now, setup, target, Replies(o.responses, DisplayOf(d)));
    var written := WithDisplays(c, o.displays).(history := TurnHistory(c, content, o.appended));
    if Write(st.store, written).Ok? {
      SnapshotReadsBack(st.store, written, env.dump(d));
      DisplaysReadBack(st.store, written);
    }
  }
}

=== FILE: fhir_ingest.dfy ===
/** The FHIR sample-data ingest: resources are posted to the FHIR service in
    batch bundles, and the ids the service assigns to patients are collected
    so that document references can be re-pointed at them. The resources a
    path yields and the service's answer to a bundle are inputs. */
module FhirIngest {
  import opened Outcomes
  import opened Text

  /** The fields of a resource the ingest reads or rewrites;
      `subjectReference` is `resource["subject"]["reference"]` when present. */
  datatype Resource = Resource(resourceType: string, id: string, subjectReference: Option<string>)

  /** One entry of a batch bundle: the resource and its request line. */
  datatype Entry = Entry(resource: Resource, httpMethod: string, url: string)

  /** One recorded `[batch_request, response]` pair: the entries the record
      holds and the ids of the resources in the service's answer. */
  datatype Posting = Posting(request: seq<Entry>, responseIds: seq<string>)

  /** The FHIR service: the ids it assigns to a posted bundle, or a failure. */
  type Server = seq<Entry> -> Result<seq<string>>

  /** The loop's state: the bundle being filled, the pairs recorded so far,
      and whether the last resource seen had a mapped patient. */
  datatype Scan = Scan(pending: seq<Entry>, posted: seq<Posting>, lastFound: bool)

  const InitialScan: Scan := Scan([], [], false)

  function EntryOf(r: Resource, resourceType: string): Entry {
    Entry(r, "POST", resourceType)
  }

  function Entries(rs: seq<Resource>, resourceType: string): (es: seq<Entry>)
    ensures |es| == |rs| && forall i :: 0 <= i < |rs| ==> es[i] == EntryOf(rs[i], resourceType)
  {
    seq(|rs|, i requires 0 <= i < |rs| => EntryOf(rs[i], resourceType))
  }

  /** Every entry the recorded requests hold, in order. */
  function Sent(ps: seq<Posting>): seq<Entry> {
    if |ps| == 0 then [] else ps[0].request + Sent(ps[1..])
  }

  lemma {:induction false} SentConcat(a: seq<Posting>, b: seq<Posting>)
    ensures Sent(a + b) == Sent(a) + Sent(b)
    decreases |a|
  {
    if |a| == 0 {
      assert a + b == b;
    } else {
      assert (a + b)[1..] == a[1..] + b;
      SentConcat(a[1..], b);
    }
  }

  // ---------------------------------------------------------------- one resource

  /** `reference.split("/")[1]`: a reference without a slash raises. */
  function SubjectId(reference: string): (r: Result<string>)
    ensures r.Raised? <==> |SplitOn(reference, "/")| < 2
    ensures r.Ok? ==> r.value == SplitOn(reference, "/")[1]
  {
    var parts := SplitOn(reference, "/");
    if |parts| < 2 then Raised(IndexError) else Ok(parts[1])
  }

  /** The subject rewrite: a subject whose patient is in the map is
      re-pointed at `Patient/<new id>`, and the flag says so; anything else
      is left as it is. A subject reference is split even when the map is
      empty. */
  function Remap(r: Resource, idMap: map<string, string>): (out: Result<(Resource, bool)>)
    ensures out.Raised? <==> r.subjectReference.Some? && SubjectId(r.subjectReference.value).Raised?
    ensures out.Ok? ==> out.value.0.id == r.id && out.value.0.resourceType == r.resourceType
    ensures out.Ok? && !out.value.1 ==> out.value.0 == r
    ensures out.Ok? && out.value.1 ==>
      r.subjectReference.Some? && SubjectId(r.subjectReference.value).value in idMap
      && out.value.0.subjectReference == Some("Patient/" + idMap[SubjectId(r.subjectReference.value).value])
    ensures out.Ok? && |idMap| == 0 ==> out.value == (r, false)
  {
    match r.subjectReference
    case None => Ok((r, false))
    case Some(reference) =>
      var current :- SubjectId(reference);
      if current in idMap then Ok((r.(subjectReference := Some("Patient/" + idMap[current])), true))
      else Ok((r, false))
  }

  /** Whether a resource goes into the bundle: always with an empty map,
      otherwise only when its patient was mapped. */
  predicate Kept(idMap: map<string, string>, found: bool) {
    |idMap| == 0 || found
  }

  /** The reference definition of what should reach the service: each
      resource after its rewrite, keeping the ones whose patient was mapped
      (all of them with an empty map), in order. */
  function Included(rs: seq<Resource>, idMap: map<string, string>): (r: Result<seq<Resource>>)
    ensures r.Ok? ==> |r.value| <= |rs|
    ensures r.Ok? && |idMap| == 0 ==> r.value == rs
    ensures r.Ok? <==> forall i :: 0 <= i < |rs| ==> Remap(rs[i], idMap).Ok?
  {
    if |rs| == 0 then Ok([])
    else
      var rf :- Remap(rs[0], idMap);
      var rest :- Included(rs[1..], idMap);
      assert forall i :: 1 <= i < |rs| ==> rs[i] == rs[1..][i - 1];
      assert |idMap| == 0 ==> rs == [rs[0]] + rs[1..];
      Ok((if Kept(idMap, rf.1) then [rf.0] else []) + rest)
  }

  // ---------------------------------------------------------------- the loop

  /** One iteration: rewrite, add the entry if kept, and post the bundle
      when it reaches the batch size (the comparison is `==`, so a batch
      size below one never posts inside the loop). */
  function Step(s: Scan, r: Resource, resourceType: string, idMap: map<string, string>, batchSize: int,
                server: Server): Result<Scan>
  {
    var rf :- Remap(r, idMap);
    if Kept(idMap, rf.1) then
      var pending := s.pending + [EntryOf(rf.0, resourceType)];
      if |pending| == batchSize then
        var ids :- server(pending);
        Ok(Scan([], s.posted + [Posting(pending, ids)], rf.1))
      else Ok(Scan(pending, s.posted, rf.1))
    else Ok(s.(lastFound := rf.1))
  }

  function Run(rs: seq<Resource>, resourceType: string, idMap: map<string, string>, batchSize: int, server: Server,
               s: Scan): Result<Scan>
    decreases |rs|
  {
    if |rs| == 0 then Ok(s)
    else
      var s1 :- Step(s, rs[0], resourceType, idMap, batchSize, server);
      Run(rs[1..], resourceType, idMap, batchSize, server, s1)
  }

  /** The loop sends exactly the included resources, in order: what was
      recorded plus what is pending grows by the included entries. */
  lemma {:induction false} RunSendsIncluded(rs: seq<Resource>, resourceType: string, idMap: map<string, string>,
                                            batchSize: int, server: Server, s: Scan)
    requires Run(rs, resourceType, idMap, batchSize, server, s).Ok?
    ensures Included(rs, idMap).Ok?
    ensures var t := Run(rs, resourceType, idMap, batchSize, server, s).value;
            Sent(t.posted) + t.pending == Sent(s.posted) + s.pending + Entries(Included(rs, idMap).value, resourceType)
    decreases |rs|
  {
    if |rs| == 0 {
    } else {
      var s1 := Step(s, rs[0], resourceType, idMap, batchSize, server).value;
      StepSendsKept(s, rs[0], resourceType, idMap, batchSize, server);
      var rf := Remap(rs[0], idMap).value;
      assert Run(rs, resourceType, idMap, batchSize, server, s) == Run(rs[1..], resourceType, idMap, batchSize, server, s1);
      RunSendsIncluded(rs[1..], resourceType, idMap, batchSize, server, s1);
      var head := if Kept(idMap, rf.1) then [rf.0] else [];
      var rest := Included(rs[1..], idMap).value;
      assert Included(rs, idMap).value == head + rest;
      EntriesConcat(head, rest, resourceType);
      EntryOrder(Sent(s.posted) + s.pending, Entries(head, resourceType), Entries(rest, resourceType));
    }
  }

  /** One step adds to what was sent or is pending exactly the rewritten
      resource, when it is kept. */
  lemma StepSendsKept(s: Scan, r: Resource, resourceType: string, idMap: map<string, string>, batchSize: int,
                      server: Server)
    requires Step(s, r, resourceType, idMap, batchSize, server).Ok?
    ensures Remap(r, idMap).Ok?
    ensures var s1 := Step(s, r, resourceType, idMap, batchSize, server).value;
            var rf := Remap(r, idMap).value;
            Sent(s1.posted) + s1.pending
            == Sent(s.posted) + s.pending + Entries(if Kept(idMap, rf.1) then [rf.0] else [], resourceType)
  {
    var rf := Remap(r, idMap).value;
    if Kept(idMap, rf.1) {
      var pending := s.pending + [EntryOf(rf.0, resourceType)];
      assert Entries([rf.0], resourceType) == [EntryOf(rf.0, resourceType)];
      if |pending| == batchSize {
        SentConcat(s.posted, [Posting(pending, server(pending).value)]);
        assert Sent([Posting(pending, server(pending).value)]) == pending;
      }
    } else {
      assert Entries([], resourceType) == [];
    }
  }

  lemma EntriesConcat(a: seq<Resource>, b: seq<Resource>, resourceType: string)
    ensures Entries(a + b, resourceType) == Entries(a, resourceType) + Entries(b, resourceType)
  {
  }

  lemma EntryOrder(x: seq<Entry>, y: seq<Entry>, z: seq<Entry>)
    ensures x + y + z == x + (y + z)
  {
  }

  /** With a batch size of at least one, every bundle posted inside the loop
      is full and the pending bundle stays below the batch size. */
  lemma {:induction false} RunKeepsBatchSize(rs: seq<Resource>, resourceType: string, idMap: map<string, string>,
                                             batchSize: int, server: Server, s: Scan)
    requires batchSize >= 1 && |s.pending| < batchSize
    requires forall i :: 0 <= i < |s.posted| ==> |s.posted[i].request| == batchSize
    requires Run(rs, resourceType, idMap, batchSize, server, s).Ok?
    ensures var t := Run(rs, resourceType, idMap, batchSize, server, s).value;
            |t.pending| < batchSize && forall i :: 0 <= i < |t.posted| ==> |t.posted[i].request| == batchSize
    decreases |rs|
  {
    if |rs| > 0 {
      var s1 := Step(s, rs[0], resourceType, idMap, batchSize, server).value;
      RunKeepsBatchSize(rs[1..], resourceType, idMap, batchSize, server, s1);
    }
  }

  /** The recorded requests as the source leaves them: all the pairs hold
      the one bundle dict, whose entry list was last replaced after the final
      full batch, so every record shows the final pending entries. */
  function Aliased(ps: seq<Posting>, finalEntries: seq<Entry>): (r: seq<Posting>)
    ensures |r| == |ps|
    ensures forall i :: 0 <= i < |r| ==> r[i] == Posting(finalEntries, ps[i].responseIds)
  {
    seq(|ps|, i requires 0 <= i < |ps| => Posting(finalEntries, ps[i].responseIds))
  }

  /** `post_resources_in_batches` as written: `None` when the path does not
      exist; the last bundle is posted only when it is non-empty and the
      LAST resource's patient was mapped (or the map is empty); and every
      recorded request shows the final entry list. */
  function PostInBatchesAsWritten(pathExists: bool, rs: seq<Resource>, resourceType: string,
                                  idMap: map<string, string>, batchSize: int, server: Server)
    : (r: Result<Option<seq<Posting>>>)
    ensures !pathExists ==> r == Ok(None)
    ensures pathExists && r.Ok? ==> r.value.Some?
    ensures r.Ok? && r.value.Some? ==>
      forall i, j :: 0 <= i < |r.value.value| && 0 <= j < |r.value.value| ==>
        r.value.value[i].request == r.value.value[j].request
    ensures pathExists && r.Ok? ==> Run(rs, resourceType, idMap, batchSize, server, InitialScan).Ok?
    ensures pathExists && r.Ok? && Run(rs, resourceType, idMap, batchSize, server, InitialScan).Ok? ==>
      var s := Run(rs, resourceType, idMap, batchSize, server, InitialScan).value;
      |r.value.value| == |s.posted| + (if |s.pending| > 0 && Kept(idMap, s.lastFound) then 1 else 0)
    ensures pathExists && Run(rs, resourceType, idMap, batchSize, server, InitialScan).Ok? ==>
      var s := Run(rs, resourceType, idMap, batchSize, server, InitialScan).value;
      (r.Ok? <==> !(|s.pending| > 0 && Kept(idMap, s.lastFound)) || server(s.pending).Ok?)
  {
    if !pathExists then Ok(None)
    else
      var s :- Run(rs, resourceType, idMap, batchSize, server, InitialScan);
      if |s.pending| > 0 && Kept(idMap, s.lastFound) then
        var ids :- server(s.pending);
        Ok(Some(Aliased(s.posted + [Posting(s.pending, ids)], s.pending)))
      else Ok(Some(Aliased(s.posted, s.pending)))
  }

  /** The corrected ingest: every recorded request is the bundle that was
      posted, and a non-empty last bundle is always posted. */
  function PostInBatches(pathExists: bool, rs: seq<Resource>, resourceType: string,
                         idMap: map<string, string>, batchSize: int, server: Server)
    : (r: Result<Option<seq<Posting>>>)
    ensures !pathExists ==> r == Ok(None)
    ensures pathExists && r.Ok? ==> r.value.Some?
    ensures pathExists && r.Ok? ==> Run(rs, resourceType, idMap, batchSize, server, InitialScan).Ok?
    ensures pathExists && r.Ok? && Run(rs, resourceType, idMap, batchSize, server, InitialScan).Ok? ==>
      var s := Run(rs, resourceType, idMap, batchSize, server, InitialScan).value;
      |r.value.value| == |s.posted| + (if |s.pending| > 0 then 1 else 0)
  {
    if !pathExists then Ok(None)
    else
      var s :- Run(rs, resourceType, idMap, batchSize, server, InitialScan);
      if |s.pending| > 0 then
        var ids :- server(s.pending);
        Ok(Some(s.posted + [Posting(s.pending, ids)]))
      else Ok(Some(s.posted))
  }

  /** Corrected: each included resource is posted exactly once, in input
      order, as a POST of the given type. */
  lemma EveryIncludedResourcePosted(rs: seq<Resource>, resourceType: string, idMap: map<string, string>,
                                    batchSize: int, server: Server)
    requires PostInBatches(true, rs, resourceType, idMap, batchSize, server).Ok?
    ensures Included(rs, idMap).Ok?
    ensures Sent(PostInBatches(true, rs, resourceType, idMap, batchSize, server).value.value)
            == Entries(Included(rs, idMap).value, resourceType)
  {
    var s := Run(rs, resourceType, idMap, batchSize, server, InitialScan).value;
    RunSendsIncluded(rs, resourceType, idMap, batchSize, server, InitialScan);
    var sent := Entries(Included(rs, idMap).value, resourceType);
    assert Sent(s.posted) + s.pending == sent by {
      assert Sent(InitialScan.posted) + InitialScan.pending == [];
    }
    if |s.pending| > 0 {
      var p := Posting(s.pending, server(s.pending).value);
      assert PostInBatches(true, rs, resourceType, idMap, batchSize, server).value.value == s.posted + [p];
      SentConcat(s.posted, [p]);
      assert Sent([p]) == s.pending;
    } else {
      assert PostInBatches(true, rs, resourceType, idMap, batchSize, server).value.value == s.posted;
      assert Sent(s.posted) + s.pending == Sent(s.posted);
    }
  }

  /** Corrected: with a batch size of at least one, every bundle but the last
      is full and the last holds between one and the batch size entries. */
  lemma BundlesRespectBatchSize(rs: seq<Resource>, resourceType: string, idMap: map<string, string>,
                                batchSize: int, server: Server)
    requires batchSize >= 1
    requires PostInBatches(true, rs, resourceType, idMap, batchSize, server).Ok?
    ensures var ps := PostInBatches(true, rs, resourceType, idMap, batchSize, server).value.value;
            forall i :: 0 <= i < |ps| ==>
              1 <= |ps[i].request| <= batchSize && (i < |ps| - 1 ==> |ps[i].request| == batchSize)
  {
    RunKeepsBatchSize(rs, resourceType, idMap, batchSize, server, InitialScan);
  }

  // ---------------------------------------------------------------- the id map

  /** The ids of the resources in some entries. */
  function Ids(es: seq<Entry>): set<string> {
    set e | e in es :: e.resource.id
  }

  lemma IdsConcat(a: seq<Entry>, b: seq<Entry>)
    ensures Ids(a + b) == Ids(a) + Ids(b)
  {
    assert forall e :: e in a + b <==> e in a || e in b;
  }

  /** Every id the service gave back, across all records. */
  function ResponseIds(ps: seq<Posting>): set<string> {
    if |ps| == 0 then {} else (set x | x in ps[0].responseIds) + ResponseIds(ps[1..])
  }

  /** The inner loop of `create_patient_id_map`: request entry i maps to
      response entry i; a short response raises IndexError. */
  function AddPairs(m: map<string, string>, request: seq<Entry>, ids: seq<string>): (r: Result<map<string, string>>)
    ensures r.Ok? <==> |request| <= |ids|
    ensures r.Ok? ==> r.value.Keys == m.Keys + Ids(request)
    ensures r.Ok? ==> forall k :: k in r.value ==> r.value[k] in m.Values || r.value[k] in ids
    decreases |request|
  {
    if |request| == 0 then Ok(m)
    else if |ids| == 0 then Raised(IndexError)
    else
      var r := AddPairs(m[request[0].resource.id := ids[0]], request[1..], ids[1..]);
      assert request == [request[0]] + request[1..];
      IdsConcat([request[0]], request[1..]);
      assert forall x :: x in ids[1..] ==> x in ids;
      r
  }

  function IdMapFrom(m: map<string, string>, ps: seq<Posting>): Result<map<string, string>>
    decreases |ps|
  {
    if |ps| == 0 then Ok(m)
    else
      var m1 :- AddPairs(m, ps[0].request, ps[0].responseIds);
      IdMapFrom(m1, ps[1..])
  }

  /** `create_patient_id_map`. */
  function CreatePatientIdMap(ps: seq<Posting>): Result<map<string, string>> {
    IdMapFrom(map[], ps)
  }

  /** Whether every answer is at least as long as its request. */
  predicate AnswersInFull(ps: seq<Posting>) {
    forall k :: 0 <= k < |ps| ==> |ps[k].request| <= |ps[k].responseIds|
  }

  lemma {:induction false} IdMapFromFacts(m: map<string, string>, ps: seq<Posting>)
    ensures IdMapFrom(m, ps).Ok? <==> AnswersInFull(ps)
    ensures IdMapFrom(m, ps).Ok? ==> IdMapFrom(m, ps).value.Keys == m.Keys + Ids(Sent(ps))
    ensures IdMapFrom(m, ps).Ok? ==>
      forall k :: k in IdMapFrom(m, ps).value ==> IdMapFrom(m, ps).value[k] in m.Values + ResponseIds(ps)
    decreases |ps|
  {
    if |ps| > 0 {
      assert forall k :: 1 <= k < |ps| ==> ps[k] == ps[1..][k - 1];
      var a := AddPairs(m, ps[0].request, ps[0].responseIds);
      if a.Ok? {
        IdMapFromFacts(a.value, ps[1..]);
        IdsConcat(ps[0].request, Sent(ps[1..]));
      }
    }
  }

  /** The id map knows exactly the requested ids, and every id it gives was
      assigned by the service; it is built iff no answer is shorter than its
      request. */
  lemma IdMapCoversRequests(ps: seq<Posting>)
    ensures CreatePatientIdMap(ps).Ok? <==> AnswersInFull(ps)
    ensures CreatePatientIdMap(ps).Ok? ==>
      CreatePatientIdMap(ps).value.Keys == Ids(Sent(ps))
      && forall k :: k in CreatePatientIdMap(ps).value ==> CreatePatientIdMap(ps).value[k] in ResponseIds(ps)
  {
    IdMapFromFacts(map[], ps);
  }

  // ---------------------------------------------------------------- findings

  /** Records whose requests are all empty add nothing to the map. */
  lemma {:induction false} EmptyRequestsAddNothing(m: map<string, string>, ps: seq<Posting>)
    requires forall k :: 0 <= k < |ps| ==> ps[k].request == []
    ensures IdMapFrom(m, ps) == Ok(m)
    decreases |ps|
  {
    if |ps| > 0 {
      assert forall k :: 1 <= k < |ps| ==> ps[1..][k - 1] == ps[k];
      EmptyRequestsAddNothing(m, ps[1..]);
    }
  }

  /** As written: with one patient per bundle, every record shows the empty
      entry list left by the last reset, so two ingested patients give an
      empty id map. */
  lemma AliasingLosesPatients(a: Resource, b: Resource, server: Server)
    requires a.subjectReference.None? && b.subjectReference.None?
    requires server([EntryOf(a, "Patient")]).Ok? && server([EntryOf(b, "Patient")]).Ok?
    ensures var r := PostInBatchesAsWritten(true, [a, b], "Patient", map[], 1, server);
            r.Ok? && |r.value.value| == 2 && CreatePatientIdMap(r.value.value) == Ok(map[])
  {
    var ea := EntryOf(a, "Patient");
    var eb := EntryOf(b, "Patient");
    assert InitialScan.pending + [ea] == [ea];
    var s1 := Scan([], [Posting([ea], server([ea]).value)], false);
    assert InitialScan.posted + [Posting([ea], server([ea]).value)] == s1.posted;
    assert Remap(a, map[]) == Ok((a, false));
    assert Step(InitialScan, a, "Patient", map[], 1, server) == Ok(s1);
    assert s1.pending + [eb] == [eb];
    var s2 := Scan([], s1.posted + [Posting([eb], server([eb]).value)], false);
    assert Step(s1, b, "Patient", map[], 1, server) == Ok(s2);
    assert [a, b][1..] == [b];
    assert Run([b], "Patient", map[], 1, server, s1) == Ok(s2);
    assert Run([a, b], "Patient", map[], 1, server, InitialScan) == Ok(s2);
    EmptyRequestsAddNothing(map[], Aliased(s2.posted, []));
  }

  /** Corrected: when the service answers every bundle in full, the id map
      knows every patient that was posted. */
  lemma CorrectedIdMapKnowsEveryPatient(rs: seq<Resource>, batchSize: int, server: Server)
    requires PostInBatches(true, rs, "Patient", map[], batchSize, server).Ok?
    requires AnswersInFull(PostInBatches(true, rs, "Patient", map[], batchSize, server).value.value)
    ensures var m := CreatePatientIdMap(PostInBatches(true, rs, "Patient", map[], batchSize, server).value.value);
            m.Ok? && m.value.Keys == set r | r in rs :: r.id
  {
    var ps := PostInBatches(true, rs, "Patient", map[], batchSize, server).value.value;
    EveryIncludedResourcePosted(rs, "Patient", map[], batchSize, server);
    IdMapCoversRequests(ps);
    EntriesIds(rs, "Patient");
  }

  lemma EntriesIds(rs: seq<Resource>, resourceType: string)
    ensures Ids(Entries(rs, resourceType)) == set r | r in rs :: r.id
  {
    var es := Entries(rs, resourceType);
    forall x | x in set r | r in rs :: r.id ensures x in Ids(es) {
      var i :| 0 <= i < |rs| && rs[i].id == x;
      assert es[i] in es;
    }
  }

  /** As written: a mapped document followed by one without a subject leaves
      the mapped one in a bundle that is never posted. */
  lemma UnmappedLastDropsBatch(d1: Resource, d2: Resource, idMap: map<string, string>, server: Server)
    requires d1.subjectReference.Some? && SubjectId(d1.subjectReference.value).Ok?
    requires SubjectId(d1.subjectReference.value).value in idMap
    requires d2.subjectReference.None?
    ensures Included([d1, d2], idMap).Ok? && |Included([d1, d2], idMap).value| == 1
    ensures PostInBatchesAsWritten(true, [d1, d2], "DocumentReference", idMap, 2, server) == Ok(Some([]))
  {
    var rf := Remap(d1, idMap).value;
    var e := EntryOf(rf.0, "DocumentReference");
    assert InitialScan.pending + [e] == [e];
    var s1 := Scan([e], [], true);
    assert Step(InitialScan, d1, "DocumentReference", idMap, 2, server) == Ok(s1);
    var s2 := s1.(lastFound := false);
    assert Step(s1, d2, "DocumentReference", idMap, 2, server) == Ok(s2);
    assert [d1, d2][1..] == [d2];
    assert Run([d2], "DocumentReference", idMap, 2, server, s1) == Ok(s2);
    assert Run([d1, d2], "DocumentReference", idMap, 2, server, InitialScan) == Ok(s2);
    assert Included([d2], idMap) == Ok([]) by {
      assert [d2][1..] == [];
    }
  }

  /** Corrected: in the same situation the mapped document is posted. */
  lemma CorrectedPostsMappedDocument(d1: Resource, d2: Resource, idMap: map<string, string>, server: Server)
    requires d1.subjectReference.Some? && SubjectId(d1.subjectReference.value).Ok?
    requires SubjectId(d1.subjectReference.value).value in idMap
    requires d2.subjectReference.None?
    requires PostInBatches(true, [d1, d2], "DocumentReference", idMap, 2, server).Ok?
    ensures Sent(PostInBatches(true, [d1, d2], "DocumentReference", idMap, 2, server).value.value)
            == [EntryOf(Remap(d1, idMap).value.0, "DocumentReference")]
  {
    EveryIncludedResourcePosted([d1, d2], "DocumentReference", idMap, 2, server);
    assert [d1, d2][1..] == [d2];
    assert [d2][1..] == [];
    assert Included([d2], idMap) == Ok([]);
  }
}

=== FILE: group_chat.dfy ===
/** The group-chat set-up: which configured agents take part, who
    facilitates, how each agent is assembled from its configuration, and
    how the selection and termination verdicts the model returns are read.
    The chat loop itself and the prompts are not modelled; the verdicts are
    inputs. */
module GroupChat {
  import opened Outcomes
  import opened JsonValues
  import opened Text

  const DefaultModelTemp: real := 0.0
  const DefaultToolType: string := "function"
  const MaximumIterations: nat := 30
  const TerminationHistoryTarget: nat := 1
  const AgentSeed: int := 42
  const AgentsPlaceholder: string := "{{aiAgents}}"
  const ExcludedAgentName: string := "magentic"

  // ---------------------------------------------------------------- configuration

  /** One entry of an agent's `tools` list. */
  datatype ToolConfig = ToolConfig(
    name: Option<string>,
    toolType: Option<string>,
    openapiDocumentPath: Option<string>,
    serverUrlOverride: Option<string>)

  /** One agent configuration; `healthcareAgent` is the truthiness of the
      healthcare-agent key. */
  datatype AgentConfig = AgentConfig(
    name: string,
    description: Option<string>,
    instructions: Option<string>,
    facilitator: bool,
    temperature: Option<real>,
    tools: seq<ToolConfig>,
    healthcareAgent: bool)

  /** A plugin added to an agent's kernel: a scenario tool module, or an
      OpenAPI document whose calls carry the conversation header. */
  datatype Plugin =
    | FunctionPlugin(toolName: Option<string>, modulePath: string)
    | OpenApiPlugin(toolName: Option<string>, documentPath: Option<string>, serverUrlOverride: Option<string>,
                    authHeaders: map<string, string>)

  datatype Agent =
    | ChatAgent(name: string, instructions: Option<string>, temperature: real, seed: int, plugins: seq<Plugin>)
    | HealthcareAgentOf(name: string)

  function AgentName(a: Agent): string {
    match a
    case ChatAgent(n, _, _, _, _) => n
    case HealthcareAgentOf(n) => n
  }

  /** The names of the agents, in order. */
  function AgentNames(agents: seq<Agent>): (r: seq<string>)
    ensures |r| == |agents| && forall i :: 0 <= i < |agents| ==> r[i] == AgentName(agents[i])
  {
    seq(|agents|, i requires 0 <= i < |agents| => AgentName(agents[i]))
  }

  /** The set-up handed to the group-chat loop. */
  datatype GroupChatSetup = GroupChatSetup(
    agents: seq<Agent>,
    facilitator: string,
    terminationAgents: seq<string>,
    maximumIterations: nat,
    terminationHistoryTarget: nat)

  // ---------------------------------------------------------------- roster and facilitator

  /** `participants or all_agent_configs`: an absent or empty participant
      list means everyone. */
  function ParticipantConfigs(all: seq<AgentConfig>, participants: Option<seq<AgentConfig>>): (r: seq<AgentConfig>)
    ensures participants.Some? && |participants.value| > 0 ==> r == participants.value
    ensures participants.None? || participants.value == [] ==> r == all
  {
    if participants.Some? && |participants.value| > 0 then participants.value else all
  }

  /** The agents that join the chat: every participant but "magentic", in
      order. */
  function WithoutMagentic(cfgs: seq<AgentConfig>): (r: seq<AgentConfig>)
    ensures |r| <= |cfgs|
    ensures forall i :: 0 <= i < |r| ==> r[i].name != ExcludedAgentName && r[i] in cfgs
    ensures forall c :: c in cfgs && c.name != ExcludedAgentName ==> c in r
  {
    if |cfgs| == 0 then []
    else (if cfgs[0].name == ExcludedAgentName then [] else [cfgs[0]]) + WithoutMagentic(cfgs[1..])
  }

  /** Index of the first configuration flagged as facilitator. */
  function FirstFlagged(cfgs: seq<AgentConfig>): (r: Option<nat>)
    ensures r.Some? ==> r.value < |cfgs| && cfgs[r.value].facilitator
                        && forall j :: 0 <= j < r.value ==> !cfgs[j].facilitator
    ensures r.None? ==> forall j :: 0 <= j < |cfgs| ==> !cfgs[j].facilitator
  {
    if |cfgs| == 0 then None
    else if cfgs[0].facilitator then Some(0)
    else match FirstFlagged(cfgs[1..])
      case Some(i) => Some(i + 1)
      case None => None
  }

  /** `next((a for a in cfgs if a.get("facilitator")), cfgs[0])`: the default
      is evaluated first, so an empty list raises even before the search. */
  function FacilitatorOf(cfgs: seq<AgentConfig>): (r: Result<string>)
    ensures r.Ok? <==> |cfgs| > 0
    ensures r.Raised? ==> r.error == IndexError
    ensures r.Ok? ==> exists i :: 0 <= i < |cfgs| && cfgs[i].name == r.value
    ensures r.Ok? && FirstFlagged(cfgs).None? ==> r.value == cfgs[0].name
    ensures r.Ok? && FirstFlagged(cfgs).Some? ==> r.value == cfgs[FirstFlagged(cfgs).value].name
  {
    if |cfgs| == 0 then Raised(IndexError)
    else match FirstFlagged(cfgs)
      case Some(i) => Ok(cfgs[i].name)
      case None => Ok(cfgs[0].name)
  }

  // ---------------------------------------------------------------- agents

  /** `create_auth_callback`: the headers each OpenAPI call sends. */
  function AuthHeaders(conversationId: string): (h: map<string, string>)
    ensures h.Keys == {"conversation-id"} && h["conversation-id"] == conversationId
  {
    map["conversation-id" := conversationId]
  }

  /** Python's `str()` of an optional string in an f-string. */
  function Shown(s: Option<string>): string {
    if s.Some? then s.value else "None"
  }

  /** The plugin for one tool: the type defaults to "function"; "openapi" is
      the only other accepted type. */
  function ToolPlugin(t: ToolConfig, conversationId: string, scenario: Option<string>): (r: Result<Plugin>)
    ensures r.Raised? <==> t.toolType.Some? && t.toolType.value != "function" && t.toolType.value != "openapi"
    ensures r.Raised? ==> r.error.ValueError?
    ensures r.Ok? && r.value.OpenApiPlugin? ==> r.value.authHeaders == AuthHeaders(conversationId)
    ensures r.Ok? ==> (r.value.FunctionPlugin? <==> t.toolType.GetOr(DefaultToolType) == "function")
  {
    var toolType := t.toolType.GetOr(DefaultToolType);
    if toolType == "function" then
      Ok(FunctionPlugin(t.name, "scenarios." + Shown(scenario) + ".tools." + Shown(t.name)))
    else if toolType == "openapi" then
      Ok(OpenApiPlugin(t.name, t.openapiDocumentPath, t.serverUrlOverride, AuthHeaders(conversationId)))
    else Raised(ValueError("Unknown tool type: " + toolType))
  }

  /** All of an agent's tools in order; the first unknown type raises. */
  function ToolPlugins(tools: seq<ToolConfig>, conversationId: string, scenario: Option<string>): (r: Result<seq<Plugin>>)
    ensures r.Ok? <==> forall i :: 0 <= i < |tools| ==> ToolPlugin(tools[i], conversationId, scenario).Ok?
    ensures r.Ok? ==> |r.value| == |tools|
                      && forall i :: 0 <= i < |tools| ==> r.value[i] == ToolPlugin(tools[i], conversationId, scenario).value
  {
    if |tools| == 0 then Ok([])
    else
      var first :- ToolPlugin(tools[0], conversationId, scenario);
      var rest :- ToolPlugins(tools[1..], conversationId, scenario);
      assert forall i :: 1 <= i < |tools| ==> tools[i] == tools[1..][i - 1];
      Ok([first] + rest)
  }

  /** The `- name: description` lines of the facilitator's agent list; a
      configuration without a description raises KeyError. */
  function AgentLines(cfgs: seq<AgentConfig>): (r: Result<seq<string>>)
    ensures r.Ok? <==> forall i :: 0 <= i < |cfgs| ==> cfgs[i].description.Some?
    ensures r.Ok? ==> |r.value| == |cfgs|
                      && forall i :: 0 <= i < |cfgs| ==> r.value[i] == "- " + cfgs[i].name + ": " + cfgs[i].description.value
  {
    if |cfgs| == 0 then Ok([])
    else if cfgs[0].description.None? then Raised(KeyError("description"))
    else
      var rest :- AgentLines(cfgs[1..]);
      assert forall i :: 1 <= i < |cfgs| ==> cfgs[i] == cfgs[1..][i - 1];
      Ok(["- " + cfgs[0].name + ": " + cfgs[0].description.value] + rest)
  }

  /** A facilitator's non-empty instructions get the agent list in place of
      the placeholder, one agent per line; other instructions are kept. */
  function Instructions(cfg: AgentConfig, members: seq<AgentConfig>): (r: Result<Option<string>>)
    ensures !(cfg.facilitator && Truthy(cfg.instructions)) ==> r == Ok(cfg.instructions)
    ensures cfg.facilitator && Truthy(cfg.instructions) ==>
      (r.Ok? <==> AgentLines(members).Ok?)
      && (r.Ok? ==> r.value == Some(Replace(cfg.instructions.value, AgentsPlaceholder, Join("\n\t\t", AgentLines(members).value))))
  {
    if cfg.facilitator && Truthy(cfg.instructions) then
      var lines :- AgentLines(members);
      Ok(Some(Replace(cfg.instructions.value, AgentsPlaceholder, Join("\n\t\t", lines))))
    else Ok(cfg.instructions)
  }

  /** `_create_agent`: tools first, then temperature (default 0) and
      instructions; a healthcare agent takes none of them. */
  function CreateAgent(cfg: AgentConfig, members: seq<AgentConfig>, conversationId: string, scenario: Option<string>)
    : (r: Result<Agent>)
    ensures r.Ok? ==> AgentName(r.value) == cfg.name
    ensures r.Ok? <==> ToolPlugins(cfg.tools, conversationId, scenario).Ok? && Instructions(cfg, members).Ok?
    ensures r.Ok? && !cfg.healthcareAgent ==>
      r.value.ChatAgent? && r.value.temperature == cfg.temperature.GetOr(DefaultModelTemp) && r.value.seed == AgentSeed
    ensures r.Ok? ==> (r.value.HealthcareAgentOf? <==> cfg.healthcareAgent)
  {
    var plugins :- ToolPlugins(cfg.tools, conversationId, scenario);
    var instructions :- Instructions(cfg, members);
    if cfg.healthcareAgent then Ok(HealthcareAgentOf(cfg.name))
    else Ok(ChatAgent(cfg.name, instructions, cfg.temperature.GetOr(DefaultModelTemp), AgentSeed, plugins))
  }

  function CreateAgents(cfgs: seq<AgentConfig>, members: seq<AgentConfig>, conversationId: string, scenario: Option<string>)
    : (r: Result<seq<Agent>>)
    ensures r.Ok? <==> forall i :: 0 <= i < |cfgs| ==> CreateAgent(cfgs[i], members, conversationId, scenario).Ok?
    ensures r.Ok? ==> |r.value| == |cfgs| && forall i :: 0 <= i < |cfgs| ==> AgentName(r.value[i]) == cfgs[i].name
  {
    if |cfgs| == 0 then Ok([])
    else
      var first :- CreateAgent(cfgs[0], members, conversationId, scenario);
      var rest :- CreateAgents(cfgs[1..], members, conversationId, scenario);
      assert forall i :: 1 <= i < |cfgs| ==> cfgs[i] == cfgs[1..][i - 1];
      Ok([first] + rest)
  }

  /** The names of the agents whose name is `n`, in order. */
  function NamedAs(agents: seq<Agent>, n: string): (r: seq<string>)
    ensures forall i :: 0 <= i < |r| ==> r[i] == n
    ensures |r| > 0 <==> exists i :: 0 <= i < |agents| && AgentName(agents[i]) == n
  {
    if |agents| == 0 then []
    else
      (if AgentName(agents[0]) == n then [n] else [])
      + (assert forall i :: 1 <= i < |agents| ==> agents[i] == agents[1..][i - 1];
         NamedAs(agents[1..], n))
  }

  /** `create_group_chat`. The facilitator is chosen before any agent is
      built, so an empty roster raises IndexError first. Only agents named
      like the facilitator may end the chat. */
  function CreateGroupChat(all: seq<AgentConfig>, participants: Option<seq<AgentConfig>>, conversationId: string,
                           scenario: Option<string>): (r: Result<GroupChatSetup>)
    ensures var members := WithoutMagentic(ParticipantConfigs(all, participants));
            && (|members| == 0 ==> r == Raised(IndexError))
            && (r.Ok? ==> |r.value.agents| == |members|
                          && (forall i :: 0 <= i < |members| ==> AgentName(r.value.agents[i]) == members[i].name)
                          && r.value.facilitator == FacilitatorOf(members).value)
    ensures r.Ok? ==> r.value.maximumIterations == MaximumIterations && r.value.terminationHistoryTarget == TerminationHistoryTarget
    ensures r.Ok? ==> |r.value.terminationAgents| > 0
                      && forall i :: 0 <= i < |r.value.terminationAgents| ==> r.value.terminationAgents[i] == r.value.facilitator
  {
    var members := WithoutMagentic(ParticipantConfigs(all, participants));
    var facilitator :- FacilitatorOf(members);
    var agents :- CreateAgents(members, members, conversationId, scenario);
    assert exists i :: 0 <= i < |agents| && AgentName(agents[i]) == facilitator;
    Ok(GroupChatSetup(agents, facilitator, NamedAs(agents, facilitator), MaximumIterations, TerminationHistoryTarget))
  }

  /** The facilitator of a chat that was set up is one of its agents. */
  lemma FacilitatorIsMember(all: seq<AgentConfig>, participants: Option<seq<AgentConfig>>, cid: string,
                            scenario: Option<string>)
    requires CreateGroupChat(all, participants, cid, scenario).Ok?
    ensures var s := CreateGroupChat(all, participants, cid, scenario).value;
            exists i :: 0 <= i < |s.agents| && AgentName(s.agents[i]) == s.facilitator
  {
  }

  /** A roster that has nothing but "magentic" cannot host a chat. */
  lemma OnlyMagenticFails(cfg: AgentConfig, cid: string, scenario: Option<string>)
    requires cfg.name == ExcludedAgentName
    ensures CreateGroupChat([cfg], None, cid, scenario) == Raised(IndexError)
  {
    assert WithoutMagentic([cfg]) == [];
  }

  // ---------------------------------------------------------------- verdicts

  /** The structured verdict both strategy functions ask the model for. */
  datatype ChatRule = ChatRule(verdict: string, reasoning: string)

  function RuleJson(rule: ChatRule): Obj {
    map["verdict" := JStr(rule.verdict), "reasoning" := JStr(rule.reasoning)]
  }

  /** `ChatRule.model_validate_json`: an object with string `verdict` and
      `reasoning`; other keys are ignored. */
  function ParseChatRule(raw: Option<Json>): (r: Option<ChatRule>)
    ensures r.Some? ==> raw.Some? && raw.value.JObj? && Str(raw.value.fields, "verdict") == Some(r.value.verdict)
  {
    match raw
    case Some(JObj(o)) =>
      if Str(o, "verdict").Some? && Str(o, "reasoning").Some? then
        Some(ChatRule(Str(o, "verdict").value, Str(o, "reasoning").value))
      else None
    case _ => None
  }

  lemma RuleRoundTrip(rule: ChatRule)
    ensures ParseChatRule(Some(JObj(RuleJson(rule)))) == Some(rule)
  {
    var o := RuleJson(rule);
    assert o["verdict"] == JStr(rule.verdict);
    assert o["reasoning"] == JStr(rule.reasoning);
  }

  /** A strategy function's result: the parse of each returned value, `None`
      where it is not JSON. An empty list (or a failed call) makes reading the
      first value raise. */
  type FunctionResult = seq<Option<Json>>

  function FirstRule(result: FunctionResult): Option<ChatRule> {
    if |result| == 0 then None else ParseChatRule(result[0])
  }

  /** `evaluate_termination`: stop only on the exact verdict "yes"; any
      failure means carry on. */
  function EvaluateTermination(result: FunctionResult): (r: bool)
    ensures r ==> |result| > 0
    ensures r <==> FirstRule(result).Some? && FirstRule(result).value.verdict == "yes"
  {
    match FirstRule(result)
    case Some(rule) => rule.verdict == "yes"
    case None => false
  }

  /** `evaluate_selection`: the verdict when it names a member, otherwise
      (and on any failure) the facilitator. */
  function EvaluateSelection(result: FunctionResult, members: seq<string>, facilitator: string): (r: string)
    ensures r == facilitator || r in members
    ensures r != facilitator ==> FirstRule(result).Some? && FirstRule(result).value.verdict == r
  {
    match FirstRule(result)
    case Some(rule) => if rule.verdict in members then rule.verdict else facilitator
    case None => facilitator
  }

  /** With the facilitator in the roster, the selection always names a
      member, and names exactly the verdict when the verdict is a member. */
  lemma SelectionStaysInRoster(rule: ChatRule, rest: FunctionResult, members: seq<string>, facilitator: string)
    requires facilitator in members
    ensures var r := EvaluateSelection([Some(JObj(RuleJson(rule)))] + rest, members, facilitator);
            r in members && (r == rule.verdict <==> rule.verdict in members)
  {
    RuleRoundTrip(rule);
  }

  /** Termination on an encoded verdict is case-sensitive equality with "yes". */
  lemma TerminationOnVerdict(rule: ChatRule, rest: FunctionResult)
    ensures EvaluateTermination([Some(JObj(RuleJson(rule)))] + rest) <==> rule.verdict == "yes"
  {
    RuleRoundTrip(rule);
  }

  /** A failed or unreadable verdict neither ends the chat nor leaves the
      facilitator's hands. */
  lemma UnreadableVerdict(result: FunctionResult, members: seq<string>, facilitator: string)
    requires FirstRule(result).None?
    ensures !EvaluateTermination(result)
    ensures EvaluateSelection(result, members, facilitator) == facilitator
  {
  }
}

=== FILE: json_values.dfy ===
/** JSON documents as Python's `json` module produces them, and the per-field
    readers that pydantic applies when it validates a model from a decoded
    object (missing key, explicit null, wrong type, default value). */
module JsonValues {
  import opened Outcomes

  /** A decoded JSON value. Numbers are exact reals; the int/float split of
      Python's decoder is read back by `IntOr`. */
  datatype Json =
    | JNull
    | JBool(b: bool)
    | JNum(n: real)
    | JStr(s: string)
    | JArr(items: seq<Json>)
    | JObj(fields: map<string, Json>)

  type Obj = map<string, Json>

  /** A required `str` field: present and a string. */
  function Str(o: Obj, k: string): (r: Option<string>)
    ensures r.Some? <==> k in o && o[k].JStr?
    ensures r.Some? ==> r.value == o[k].s
  {
    if k in o && o[k].JStr? then Some(o[k].s) else None
  }

  /** An `Optional[str] = None` field: a missing key or an explicit null reads
      as `None`, a string as itself; any other value fails validation. */
  function OptStr(o: Obj, k: string): (r: Option<Option<string>>)
    ensures r.Some? <==> k !in o || o[k].JNull? || o[k].JStr?
    ensures r.Some? && r.value.Some? <==> k in o && o[k].JStr?
    ensures r == Some(None) <==> k !in o || o[k].JNull?
  {
    if k !in o || o[k].JNull? then Some(None)
    else if o[k].JStr? then Some(Some(o[k].s))
    else None
  }

  /** A `str` field with a default: the default when the key is missing. */
  function StrOr(o: Obj, k: string, default: string): (r: Option<string>)
    ensures k !in o ==> r == Some(default)
    ensures k in o ==> r == Str(o, k)
  {
    if k !in o then Some(default) else Str(o, k)
  }

  /** The number a lax numeric field reads from a JSON value that is not a
      string: a number as itself, a boolean as 1 or 0. */
  function LaxNumber(v: Json): Option<real> {
    match v
    case JNum(n) => Some(n)
    case JBool(b) => Some(if b then 1.0 else 0.0)
    case _ => None
  }

  /** An `int` field with a default: a number without fractional part, or
      a boolean. */
  function IntOr(o: Obj, k: string, default: int): (r: Option<int>)
    ensures k !in o ==> r == Some(default)
    ensures k in o ==> (r.Some? <==> LaxNumber(o[k]).Some? && LaxNumber(o[k]).value == LaxNumber(o[k]).value.Floor as real)
    ensures k in o && r.Some? ==> r.value as real == LaxNumber(o[k]).value
    ensures k in o && o[k].JBool? ==> r == Some(if o[k].b then 1 else 0)
  {
    if k !in o then Some(default)
    else match LaxNumber(o[k])
      case Some(n) => if n == n.Floor as real then Some(n.Floor) else None
      case None => None
  }

  /** A `float` field with a default: a number, or a boolean. */
  function RealOr(o: Obj, k: string, default: real): (r: Option<real>)
    ensures k !in o ==> r == Some(default)
    ensures k in o ==> (r.Some? <==> o[k].JNum? || o[k].JBool?)
    ensures k in o && o[k].JNum? ==> r == Some(o[k].n)
    ensures k in o && o[k].JBool? ==> r == Some(if o[k].b then 1.0 else 0.0)
  {
    if k !in o then Some(default) else LaxNumber(o[k])
  }

  /** The strings of a JSON array whose items are all strings. */
  function Strings(items: seq<Json>): (r: Option<seq<string>>)
    ensures r.Some? <==> forall i :: 0 <= i < |items| ==> items[i].JStr?
    ensures r.Some? ==> |r.value| == |items| && forall i :: 0 <= i < |items| ==> r.value[i] == items[i].s
    decreases |items|
  {
    if |items| == 0 then Some([])
    else if !items[0].JStr? then None
    else
      var rest := Strings(items[1..]);
      if rest.None? then
        assert exists i :: 1 <= i < |items| && !items[i].JStr? by {
          var j :| 0 <= j < |items[1..]| && !items[1..][j].JStr?;
          assert items[j + 1] == items[1..][j];
        }
        None
      else
        Some([items[0].s] + rest.value)
  }

  /** A required `List[str]` field. */
  function StrList(o: Obj, k: string): (r: Option<seq<string>>)
    ensures r.Some? ==> k in o && o[k].JArr? && |r.value| == |o[k].items|
  {
    if k in o && o[k].JArr? then Strings(o[k].items) else None
  }

  function StrArray(xs: seq<string>): (r: seq<Json>)
    ensures |r| == |xs|
    ensures forall i :: 0 <= i < |xs| ==> r[i] == JStr(xs[i])
  {
    seq(|xs|, i requires 0 <= i < |xs| => JStr(xs[i]))
  }

  lemma StringsOfStrArray(xs: seq<string>)
    ensures Strings(StrArray(xs)) == Some(xs)
  {
    var r := Strings(StrArray(xs));
    assert r.Some?;
    assert r.value == xs;
  }

  function OptStrJson(s: Option<string>): Json {
    if s.Some? then JStr(s.value) else JNull
  }

  lemma OptStrOfJson(o: Obj, k: string, s: Option<string>)
    requires k in o && o[k] == OptStrJson(s)
    ensures OptStr(o, k) == Some(s)
  {
  }

  lemma IntOrOfNum(o: Obj, k: string, d: int, n: int)
    requires k in o && o[k] == JNum(n as real)
    ensures IntOr(o, k, d) == Some(n)
  {
  }
}

=== FILE: model_support.dfy ===
/** Whether the configured deployment accepts a temperature setting: the
    reasoning-model families do not. The deployment name comes from the
    environment, which is a parameter here. */
module ModelSupport {
  import opened Text

  const DeploymentVariable: string := "AZURE_OPENAI_DEPLOYMENT_NAME"

  /** The model families that reject a temperature, as listed in the source. */
  const NonTemperatureModels: seq<string> :=
    ["o1", "o1-mini", "o3", "o3-mini", "o3-pro", "o4-mini", "gpt-5", "gpt-5-mini", "gpt-5-nano", "DeepSeek-R1"]

  /** The variable's value, or "" when it is unset. */
  function DeploymentName(env: map<string, string>): (r: string)
    ensures DeploymentVariable !in env ==> r == ""
  {
    if DeploymentVariable in env then env[DeploymentVariable] else ""
  }

  /** The check as the source writes it: an entry counts when it occurs in the
      lower-cased name, the entry itself being compared as written. */
  predicate ExcludedAsWritten(name: string) {
    exists i | 0 <= i < |NonTemperatureModels| :: Contains(Lower(name), NonTemperatureModels[i])
  }

  /** The evidently intended check: an entry counts when it occurs in the
      name regardless of case. */
  predicate Excluded(name: string) {
    exists i | 0 <= i < |NonTemperatureModels| :: Contains(Lower(name), Lower(NonTemperatureModels[i]))
  }

  /** `model_supports_temperature` as written: the scan stops at the first
      entry found in the lower-cased deployment name. */
  method ModelSupportsTemperatureAsWritten(env: map<string, string>) returns (supported: bool)
    ensures supported <==> !ExcludedAsWritten(DeploymentName(env))
  {
    var model := Lower(DeploymentName(env));
    var i := 0;
    while i < |NonTemperatureModels|
      invariant 0 <= i <= |NonTemperatureModels|
      invariant forall j | 0 <= j < i :: !Contains(model, NonTemperatureModels[j])
    {
      if Contains(model, NonTemperatureModels[i]) {
        return false;
      }
      i := i + 1;
    }
    return true;
  }

  /** The corrected check, which lower-cases each entry as well. */
  method ModelSupportsTemperature(env: map<string, string>) returns (supported: bool)
    ensures supported <==> !Excluded(DeploymentName(env))
  {
    var model := Lower(DeploymentName(env));
    var i := 0;
    while i < |NonTemperatureModels|
      invariant 0 <= i <= |NonTemperatureModels|
      invariant forall j | 0 <= j < i :: !Contains(model, Lower(NonTemperatureModels[j]))
    {
      if Contains(model, Lower(NonTemperatureModels[i])) {
        return false;
      }
      i := i + 1;
    }
    return true;
  }

  lemma NothingInEmpty(sub: string)
    requires |sub| > 0
    ensures !Contains("", sub)
  {
  }

  /** With no deployment configured, or an empty one, temperature is taken
      to be supported. */
  lemma UnsetDeploymentSupports(env: map<string, string>)
    requires DeploymentName(env) == ""
    ensures !Excluded(DeploymentName(env)) && !ExcludedAsWritten(DeploymentName(env))
  {
    forall i | 0 <= i < |NonTemperatureModels|
      ensures !Contains(Lower(""), Lower(NonTemperatureModels[i])) && !Contains(Lower(""), NonTemperatureModels[i])
    {
      assert |NonTemperatureModels[i]| > 0;
      NothingInEmpty(NonTemperatureModels[i]);
      NothingInEmpty(Lower(NonTemperatureModels[i]));
    }
  }

  /** The entry with capitals never matches anything the source compares it
      with. */
  lemma CapitalisedEntryNeverMatches(name: string)
    ensures !Contains(Lower(name), NonTemperatureModels[9])
  {
    assert NonTemperatureModels[9][0] == 'D';
    LowerHasNoUpper(name);
    NoUpperExcludes(Lower(name), NonTemperatureModels[9]);
  }

  lemma NoLeadingChar(s: string, sub: string)
    requires |sub| > 0
    requires forall k | 0 <= k < |s| :: s[k] != sub[0]
    ensures !Contains(s, sub)
  {
    if Contains(s, sub) {
      var i := ContainsWitness(s, sub);
    }
  }

  /** The finding: the name of the listed reasoning model "DeepSeek-R1" is
      reported as accepting a temperature, because no entry occurs in
      "deepseek-r1" once the capitalised entry cannot match. */
  lemma DeepSeekSlipsThrough(name: string)
    requires name == NonTemperatureModels[9]
    ensures !ExcludedAsWritten(name)
    ensures Excluded(name)
  {
    var model := Lower(name);
    assert forall k | 0 <= k < |model| :: model[k] != 'o' && model[k] != 'g';
    forall i | 0 <= i < |NonTemperatureModels| ensures !Contains(model, NonTemperatureModels[i]) {
      if i == 9 {
        CapitalisedEntryNeverMatches(name);
      } else {
        assert NonTemperatureModels[i][0] == 'o' || NonTemperatureModels[i][0] == 'g';
        NoLeadingChar(model, NonTemperatureModels[i]);
      }
    }
    ListedNameExcluded(9);
  }

  /** Corrected: every listed model, spelt as listed, is excluded. */
  lemma ListedNameExcluded(i: int)
    requires 0 <= i < |NonTemperatureModels|
    ensures Excluded(NonTemperatureModels[i])
  {
    var e := Lower(NonTemperatureModels[i]);
    assert StartsWith(e[0..], e);
    ContainsAt(e, e, 0);
  }

  /** Corrected: a name containing an excluded name, in any case, is
      excluded too (a dated or suffixed deployment of a reasoning model). */
  lemma ExclusionExtends(name: string, longer: string)
    requires Excluded(name)
    requires Contains(Lower(longer), Lower(name))
    ensures Excluded(longer)
  {
    var i :| 0 <= i < |NonTemperatureModels| && Contains(Lower(name), Lower(NonTemperatureModels[i]));
    ContainsTransitive(Lower(longer), Lower(name), Lower(NonTemperatureModels[i]));
  }

  /** The correction only ever adds exclusions: whatever the source excludes
      stays excluded. */
  lemma CorrectionOnlyAdds(name: string)
    requires ExcludedAsWritten(name)
    ensures Excluded(name)
  {
    var i :| 0 <= i < |NonTemperatureModels| && Contains(Lower(name), NonTemperatureModels[i]);
    if i == 9 {
      CapitalisedEntryNeverMatches(name);
    } else {
      assert Lower(NonTemperatureModels[i]) == NonTemperatureModels[i];
    }
  }
}

=== FILE: outcomes.dfy ===
/** Failure-compatible wrappers used by every module: `Option` for Python's
    `None`-or-value, `Result` for a call that either returns or raises. */
module Outcomes {

  datatype Option<+T> = None | Some(value: T) {

    predicate IsFailure() {
      None?
    }

    function PropagateFailure<U>(): Option<U>
      requires None?
    {
      None
    }

    function Extract(): T
      requires Some?
    {
      value
    }

    function GetOr(default: T): T {
      match this
      case Some(v) => v
      case None => default
    }
  }

  /** What a Python call does: returns a value or raises an exception of a
      named kind. */
  datatype Result<+T> = Ok(value: T) | Raised(error: Error) {

    predicate IsFailure() {
      Raised?
    }

    function PropagateFailure<U>(): Result<U>
      requires Raised?
    {
      Raised(error)
    }

    function Extract(): T
      requires Ok?
    {
      value
    }
  }

  /** The exception classes the modelled code raises or catches. */
  datatype Error =
    | ValueError(message: string)
    | IndexError
    | KeyError(key: string)
    | NotAuthorizedError(message: string)
    | ResourceNotFound(key: string)
    | StorageError(key: string)
    | RequestError
    | OtherError(message: string)

  /** Python truthiness of an optional string: neither `None` nor `""`. */
  predicate Truthy(s: Option<string>) {
    s.Some? && s.value != ""
  }
}

=== FILE: patient_context_models.dfy ===
/** The structured-output and registry models of the patient-context feature,
    with the validation pydantic performs on a decoded JSON object and the
    dump that produces one. The source file defines every class twice with
    identical bodies; the second (effective) definitions are the ones modelled. */
module PatientContextModels {
  import opened Outcomes
  import opened JsonValues

  // ---------------------------------------------------------------- AnalyzerAction

  /** The closed set of analyzer actions. */
  datatype AnalyzerAction = NoAction | Clear | ActivateNew | SwitchExisting | Unchanged

  /** The literal each action is written as. */
  function ActionName(a: AnalyzerAction): string {
    match a
    case NoAction => "NONE"
    case Clear => "CLEAR"
    case ActivateNew => "ACTIVATE_NEW"
    case SwitchExisting => "SWITCH_EXISTING"
    case Unchanged => "UNCHANGED"
  }

  /** Validation of the `Literal[...]` field: exactly the five literals. */
  function ParseAction(s: string): Option<AnalyzerAction> {
    if s == "NONE" then Some(NoAction)
    else if s == "CLEAR" then Some(Clear)
    else if s == "ACTIVATE_NEW" then Some(ActivateNew)
    else if s == "SWITCH_EXISTING" then Some(SwitchExisting)
    else if s == "UNCHANGED" then Some(Unchanged)
    else None
  }

  /** A string is accepted as an action iff it is that action's literal, so the
      five actions are all there is. */
  lemma ParseActionExact(s: string, a: AnalyzerAction)
    ensures ParseAction(s) == Some(a) <==> s == ActionName(a)
  {
  }

  // ---------------------------------------------------------------- PatientContextDecision

  datatype PatientContextDecision = PatientContextDecision(
    action: AnalyzerAction,
    patientId: Option<string>,
    reasoning: string)

  /** `PatientContextDecision.model_validate(o)`: `action` and `reasoning`
      are required, `patient_id` is optional with default `None`. */
  function ValidateDecision(o: Obj): (r: Option<PatientContextDecision>)
    ensures r.Some? <==>
      && "action" in o && o["action"].JStr? && ParseAction(o["action"].s).Some?
      && "reasoning" in o && o["reasoning"].JStr?
      && ("patient_id" !in o || o["patient_id"].JNull? || o["patient_id"].JStr?)
    ensures r.Some? ==> ActionName(r.value.action) == o["action"].s
    ensures r.Some? && "patient_id" !in o ==> r.value.patientId == None
  {
    var name :- Str(o, "action");
    var action :- ParseAction(name);
    var pid :- OptStr(o, "patient_id");
    var reasoning :- Str(o, "reasoning");
    Some(PatientContextDecision(action, pid, reasoning))
  }

  function DumpDecision(d: PatientContextDecision): Obj {
    map["action" := JStr(ActionName(d.action)),
        "patient_id" := OptStrJson(d.patientId),
        "reasoning" := JStr(d.reasoning)]
  }

  lemma DecisionRoundTrip(d: PatientContextDecision)
    ensures ValidateDecision(DumpDecision(d)) == Some(d)
  {
    var o := DumpDecision(d);
    ParseActionExact(ActionName(d.action), d.action);
    OptStrOfJson(o, "patient_id", d.patientId);
  }

  /** The type does not tie `patient_id` to the action: every action validates
      with or without an id (for instance CLEAR together with an id). */
  lemma DecisionAnyActionAnyId(a: AnalyzerAction, pid: Option<string>, why: string)
    ensures ValidateDecision(map["action" := JStr(ActionName(a)), "patient_id" := OptStrJson(pid),
                                 "reasoning" := JStr(why)])
         == Some(PatientContextDecision(a, pid, why))
  {
    DecisionRoundTrip(PatientContextDecision(a, pid, why));
  }

  // ---------------------------------------------------------------- TimingInfo

  datatype TimingInfo = TimingInfo(analyzer: real, storageFallback: real, service: real)

  /** Every field defaults to 0.0 on its own, and each field that is present
      must be a number or a boolean (read as 1.0 or 0.0). */
  function ValidateTiming(o: Obj): (r: Option<TimingInfo>)
    ensures o == map[] ==> r == Some(TimingInfo(0.0, 0.0, 0.0))
    ensures r.Some? <==> ("analyzer" in o ==> LaxNumber(o["analyzer"]).Some?)
                         && ("storage_fallback" in o ==> LaxNumber(o["storage_fallback"]).Some?)
                         && ("service" in o ==> LaxNumber(o["service"]).Some?)
    ensures r.Some? ==> ("analyzer" !in o ==> r.value.analyzer == 0.0)
                        && ("storage_fallback" !in o ==> r.value.storageFallback == 0.0)
                        && ("service" !in o ==> r.value.service == 0.0)
    ensures r.Some? ==> ("analyzer" in o ==> r.value.analyzer == LaxNumber(o["analyzer"]).value)
                        && ("storage_fallback" in o ==> r.value.storageFallback == LaxNumber(o["storage_fallback"]).value)
                        && ("service" in o ==> r.value.service == LaxNumber(o["service"]).value)
  {
    var a :- RealOr(o, "analyzer", 0.0);
    var f :- RealOr(o, "storage_fallback", 0.0);
    var s :- RealOr(o, "service", 0.0);
    Some(TimingInfo(a, f, s))
  }

  function DumpTiming(t: TimingInfo): Obj {
    map["analyzer" := JNum(t.analyzer), "storage_fallback" := JNum(t.storageFallback),
        "service" := JNum(t.service)]
  }

  lemma TimingRoundTrip(t: TimingInfo)
    ensures ValidateTiming(DumpTiming(t)) == Some(t)
  {
  }

  // ---------------------------------------------------------------- WorkflowStep / WorkflowSummary

  datatype WorkflowStep = WorkflowStep(agent: string, task: string, status: string)

  /** `agent` and `task` are required; `status` defaults to "pending". */
  function ValidateStep(o: Obj): (r: Option<WorkflowStep>)
    ensures r.Some? <==> Str(o, "agent").Some? && Str(o, "task").Some? && StrOr(o, "status", "pending").Some?
    ensures r.Some? && "status" !in o ==> r.value.status == "pending"
  {
    var agent :- Str(o, "agent");
    var task :- Str(o, "task");
    var status :- StrOr(o, "status", "pending");
    Some(WorkflowStep(agent, task, status))
  }

  function DumpStep(s: WorkflowStep): Obj {
    map["agent" := JStr(s.agent), "task" := JStr(s.task), "status" := JStr(s.status)]
  }

  lemma StepRoundTrip(s: WorkflowStep)
    ensures ValidateStep(DumpStep(s)) == Some(s)
  {
  }

  /** A list of step objects, each validated in order. */
  function ValidateSteps(items: seq<Json>): (r: Option<seq<WorkflowStep>>)
    ensures r.Some? ==> |r.value| == |items|
    ensures r.Some? ==> forall i :: 0 <= i < |items| ==>
      items[i].JObj? && ValidateStep(items[i].fields) == Some(r.value[i])
    decreases |items|
  {
    if |items| == 0 then Some([])
    else if !items[0].JObj? then None
    else
      var first :- ValidateStep(items[0].fields);
      var rest :- ValidateSteps(items[1..]);
      Some([first] + rest)
  }

  function DumpSteps(steps: seq<WorkflowStep>): (r: seq<Json>)
    ensures |r| == |steps|
    ensures forall i :: 0 <= i < |steps| ==> r[i] == JObj(DumpStep(steps[i]))
  {
    seq(|steps|, i requires 0 <= i < |steps| => JObj(DumpStep(steps[i])))
  }

  lemma {:induction false} StepsRoundTrip(steps: seq<WorkflowStep>)
    ensures ValidateSteps(DumpSteps(steps)) == Some(steps)
    decreases |steps|
  {
    if |steps| > 0 {
      StepRoundTrip(steps[0]);
      assert DumpSteps(steps)[1..] == DumpSteps(steps[1..]);
      StepsRoundTrip(steps[1..]);
      assert steps == [steps[0]] + steps[1..];
    }
  }

  datatype WorkflowSummary = WorkflowSummary(
    patientId: Option<string>,
    objective: string,
    steps: seq<WorkflowStep>,
    currentStep: int,
    reasoning: string)

  /** `objective`, `steps` and `reasoning` are required; `patient_id`
      defaults to `None` and `current_step` to 0. */
  function ValidateSummary(o: Obj): (r: Option<WorkflowSummary>)
    ensures r.Some? <==> OptStr(o, "patient_id").Some? && Str(o, "objective").Some?
                         && "steps" in o && o["steps"].JArr? && ValidateSteps(o["steps"].items).Some?
                         && IntOr(o, "current_step", 0).Some? && Str(o, "reasoning").Some?
    ensures r.Some? ==> r.value.patientId == OptStr(o, "patient_id").value && r.value.objective == o["objective"].s
                        && r.value.steps == ValidateSteps(o["steps"].items).value
                        && r.value.reasoning == o["reasoning"].s
    ensures r.Some? && "current_step" !in o ==> r.value.currentStep == 0
    ensures r.Some? && "patient_id" !in o ==> r.value.patientId == None
  {
    var pid :- OptStr(o, "patient_id");
    var objective :- Str(o, "objective");
    var items :- if "steps" in o && o["steps"].JArr? then Some(o["steps"].items) else None;
    var steps :- ValidateSteps(items);
    var current :- IntOr(o, "current_step", 0);
    var reasoning :- Str(o, "reasoning");
    Some(WorkflowSummary(pid, objective, steps, current, reasoning))
  }

  function DumpSummary(w: WorkflowSummary): Obj {
    map["patient_id" := OptStrJson(w.patientId), "objective" := JStr(w.objective),
        "steps" := JArr(DumpSteps(w.steps)), "current_step" := JNum(w.currentStep as real),
        "reasoning" := JStr(w.reasoning)]
  }

  lemma SummaryRoundTrip(w: WorkflowSummary)
    ensures ValidateSummary(DumpSummary(w)) == Some(w)
  {
    var o := DumpSummary(w);
    OptStrOfJson(o, "patient_id", w.patientId);
    StepsRoundTrip(w.steps);
    IntOrOfNum(o, "current_step", 0, w.currentStep);
  }

  // ---------------------------------------------------------------- PatientContextSystemMessage

  /** The snapshot payload type; unlike the decision, its patient id is
      mandatory. */
  datatype SystemMessagePayload = SystemMessagePayload(
    conversationId: string,
    patientId: string,
    allPatientIds: seq<string>,
    timing: TimingInfo)

  function ValidateSystemMessage(o: Obj): (r: Option<SystemMessagePayload>)
    ensures r.Some? ==> "patient_id" in o && o["patient_id"].JStr?
    ensures r.Some? ==> "conversation_id" in o && "all_patient_ids" in o && "timing_sec" in o
  {
    var cid :- Str(o, "conversation_id");
    var pid :- Str(o, "patient_id");
    var ids :- StrList(o, "all_patient_ids");
    var t :- if "timing_sec" in o && o["timing_sec"].JObj? then Some(o["timing_sec"].fields) else None;
    var timing :- ValidateTiming(t);
    Some(SystemMessagePayload(cid, pid, ids, timing))
  }

  function DumpSystemMessage(m: SystemMessagePayload): Obj {
    map["conversation_id" := JStr(m.conversationId), "patient_id" := JStr(m.patientId),
        "all_patient_ids" := JArr(StrArray(m.allPatientIds)), "timing_sec" := JObj(DumpTiming(m.timing))]
  }

  lemma SystemMessageRoundTrip(m: SystemMessagePayload)
    ensures ValidateSystemMessage(DumpSystemMessage(m)) == Some(m)
  {
    StringsOfStrArray(m.allPatientIds);
    TimingRoundTrip(m.timing);
  }

  /** A null patient id is rejected. */
  lemma SystemMessageNeedsPatientId(o: Obj)
    requires "patient_id" in o && o["patient_id"] == JNull
    ensures ValidateSystemMessage(o).None?
  {
  }

  // ---------------------------------------------------------------- PatientRegistryEntry

  datatype PatientRegistryEntry = PatientRegistryEntry(
    patientId: string,
    createdAt: string,
    lastAccessed: string,
    messageCount: int)

  /** `message_count` defaults to 0; the other three fields are required. */
  function ValidateRegistryEntry(o: Obj): (r: Option<PatientRegistryEntry>)
    ensures r.Some? <==> Str(o, "patient_id").Some? && Str(o, "created_at").Some?
                         && Str(o, "last_accessed").Some? && IntOr(o, "message_count", 0).Some?
    ensures r.Some? && "message_count" !in o ==> r.value.messageCount == 0
  {
    var pid :- Str(o, "patient_id");
    var created :- Str(o, "created_at");
    var accessed :- Str(o, "last_accessed");
    var count :- IntOr(o, "message_count", 0);
    Some(PatientRegistryEntry(pid, created, accessed, count))
  }

  function DumpRegistryEntry(e: PatientRegistryEntry): Obj {
    map["patient_id" := JStr(e.patientId), "created_at" := JStr(e.createdAt),
        "last_accessed" := JStr(e.lastAccessed), "message_count" := JNum(e.messageCount as real)]
  }

  lemma RegistryEntryRoundTrip(e: PatientRegistryEntry)
    ensures ValidateRegistryEntry(DumpRegistryEntry(e)) == Some(e)
  {
    IntOrOfNum(DumpRegistryEntry(e), "message_count", 0, e.messageCount);
  }
}

=== FILE: patient_context_service.dfy ===
/** The patient-context service: the per-turn state machine that decides
    whether a message concerns no patient, the active one, a new or known
    patient, or a full clear, and applies that decision to the in-memory
    context, the registry and the context store. The registry is the
    authority for the roster. */
module PatientContextService {
  import opened Outcomes
  import opened JsonValues
  import opened Text
  import opened ChatContexts
  import opened BlobStore
  import opened ChatContextAccessor
  import opened RegistryAccessor
  import opened PatientContextModels
  import opened Analyzer

  const PatientContextPrefix: string := "PATIENT_CONTEXT_JSON"

  /** The seven outcomes of a turn. */
  datatype Decision =
    | NoneDecision | UnchangedDecision | NewBlank | SwitchToExisting | Cleared | RestoredFromStorage | NeedsPatientId

  function DecisionName(d: Decision): string {
    match d
    case NoneDecision => "NONE"
    case UnchangedDecision => "UNCHANGED"
    case NewBlank => "NEW_BLANK"
    case SwitchToExisting => "SWITCH_EXISTING"
    case Cleared => "CLEAR"
    case RestoredFromStorage => "RESTORED_FROM_STORAGE"
    case NeedsPatientId => "NEEDS_PATIENT_ID"
  }

  // ---------------------------------------------------------------- patient ids

  predicate IsDigit(c: char) {
    '0' <= c <= '9'
  }

  predicate AllDigits(s: string) {
    forall i :: 0 <= i < |s| ==> IsDigit(s[i])
  }

  /** `re.match(r"^patient_[0-9]+$", s)`: the stem, one or more ASCII digits,
      and the end of the string, where `$` also matches just before one
      final newline. */
  predicate MatchesPatientId(s: string) {
    && |s| > 8 && s[..8] == "patient_"
    && (|| AllDigits(s[8..])
        || (|s| > 9 && s[|s| - 1] == '\n' && AllDigits(s[8..|s| - 1])))
  }

  /** A left-to-right scan as the regex engine performs it. */
  method MatchPatientId(s: string) returns (b: bool)
    ensures b == MatchesPatientId(s)
  {
    if |s| <= 8 || s[..8] != "patient_" {
      return false;
    }
    var i := 8;
    while i < |s| && IsDigit(s[i])
      invariant 8 <= i <= |s|
      invariant AllDigits(s[8..i])
    {
      assert s[8..i + 1] == s[8..i] + [s[i]];
      i := i + 1;
    }
    if i == |s| {
      assert s[8..i] == s[8..];
      return true;
    }
    assert !IsDigit(s[8..][i - 8]);
    if i == 8 {
      assert !AllDigits(s[8..]);
      if |s| > 9 {
        assert s[8..|s| - 1][0] == s[8];
      }
      return false;
    }
    if i == |s| - 1 && s[i] == '\n' {
      assert s[8..|s| - 1] == s[8..i];
      return true;
    }
    if |s| > 9 && s[|s| - 1] == '\n' {
      assert i < |s| - 1;
      assert s[8..|s| - 1][i - 8] == s[i];
    }
    return false;
  }

  /** Every stem-plus-digits string is an id, with or without one trailing
      newline, and nothing else. */
  lemma PatientIdShape(digits: string)
    requires |digits| > 0 && AllDigits(digits)
    ensures MatchesPatientId("patient_" + digits)
    ensures MatchesPatientId("patient_" + digits + "\n")
    ensures !MatchesPatientId("patient_" + digits + "\n\n")
  {
    assert ("patient_" + digits)[8..] == digits;
    assert ("patient_" + digits + "\n")[8..|"patient_" + digits + "\n"| - 1] == digits;
    var s := "patient_" + digits + "\n\n";
    assert s[|s| - 2] == '\n';
    assert !IsDigit(s[8..][|s| - 10]);
    assert !IsDigit(s[8..|s| - 1][|s| - 10]);
  }

  lemma PatientIdExamples()
    ensures MatchesPatientId("patient_4")
    ensures !MatchesPatientId("abc")
    ensures !MatchesPatientId("patient_")
    ensures !MatchesPatientId("Patient_4")
    ensures !MatchesPatientId("patient_4a")
  {
    PatientIdShape("4");
    assert "Patient_4"[..8][0] == 'P';
    assert !IsDigit("patient_4a"[8..][1]);
    assert !IsDigit("patient_4a"[8..9][0]) || "patient_4a"[9] != '\n';
  }

  // ---------------------------------------------------------------- the world a turn acts on

  /** Which collaborators the service was given. */
  datatype Service = Service(hasRegistry: bool, hasContextAccessor: bool)

  /** The state a turn reads and changes: the in-memory context, the blob
      store, and the analyzer (whose kernel generation counts resets). */
  datatype World = World(ctx: ChatContext, store: Storage, analyzer: AnalyzerState)

  /** `entry.get("facts", {})` */
  function FactsOf(entry: Obj): Json {
    if "facts" in entry then entry["facts"] else JObj(map[])
  }

  function RosterOf(reg: Registry): map<string, PatientContext> {
    map p | p in reg :: PatientContext(p, FactsOf(reg[p]))
  }

  /** `_ensure_patient_contexts_from_registry`: the roster becomes exactly
      the registry's patients with their facts; without a registry nothing
      changes. */
  function Hydrate(svc: Service, w: World): (r: World)
    ensures r.store == w.store && r.analyzer == w.analyzer
    ensures r.ctx == w.ctx.(patientContexts := r.ctx.patientContexts)
    ensures !svc.hasRegistry ==> r == w
    ensures svc.hasRegistry ==> r.ctx.patientContexts.Keys == ReadRegistry(w.store, w.ctx.conversationId).0.Keys
    ensures svc.hasRegistry ==> forall p :: p in r.ctx.patientContexts ==>
      r.ctx.patientContexts[p] == PatientContext(p, FactsOf(ReadRegistry(w.store, w.ctx.conversationId).0[p]))
  {
    if !svc.hasRegistry then w
    else
      var reg := ReadRegistry(w.store, w.ctx.conversationId).0;
      w.(ctx := w.ctx.(patientContexts := RosterOf(reg)))
  }

  lemma HydrateIdempotent(svc: Service, w: World)
    ensures Hydrate(svc, Hydrate(svc, w)) == Hydrate(svc, w)
  {
  }

  /** `_try_restore_from_storage`: succeeds iff there is a registry whose
      active id names one of its patients; the roster is then hydrated
      and that patient made active. */
  function TryRestore(svc: Service, w: World): (r: (bool, World))
    ensures var (reg, active) := ReadRegistry(w.store, w.ctx.conversationId);
            r.0 <==> svc.hasRegistry && reg != map[] && Truthy(active) && active.value in reg
    ensures r.0 ==> r.1 == Hydrate(svc, w).(ctx := Hydrate(svc, w).ctx.(patientId := ReadRegistry(w.store, w.ctx.conversationId).1))
    ensures !r.0 ==> r.1 == w
  {
    if !svc.hasRegistry then (false, w)
    else
      var (reg, active) := ReadRegistry(w.store, w.ctx.conversationId);
      if reg != map[] && Truthy(active) && active.value in reg then
        var w1 := Hydrate(svc, w);
        (true, w1.(ctx := w1.ctx.(patientId := active)))
      else (false, w)
  }

  /** The registry entry written for the active patient. */
  function EntryFor(c: ChatContext, pid: string): Obj
    requires pid in c.patientContexts
  {
    map["patient_id" := JStr(pid), "facts" := c.patientContexts[pid].facts, "conversation_id" := JStr(c.conversationId)]
  }

  /** `_update_registry_storage`: upsert the active patient, if it is in the
      roster, with itself as the active id; a failure is swallowed. */
  function UpdateRegistryStorage(svc: Service, w: World, now: Instant): (r: World)
    ensures r.ctx == w.ctx && r.analyzer == w.analyzer
    ensures SameOutside(w.store, r.store, {RegistryPath(w.ctx.conversationId)})
    ensures var cid := w.ctx.conversationId;
            svc.hasRegistry && Truthy(w.ctx.patientId) && w.ctx.patientId.value in w.ctx.patientContexts
            && RegistryPath(cid) !in w.store.failing ==>
              var (reg, active) := ReadRegistry(r.store, cid);
              && active == w.ctx.patientId
              && reg == ReadRegistry(w.store, cid).0[w.ctx.patientId.value := Stamped(EntryFor(w.ctx, w.ctx.patientId.value), now)]
    ensures !(svc.hasRegistry && Truthy(w.ctx.patientId) && w.ctx.patientId.value in w.ctx.patientContexts) ==> r == w
  {
    if !(svc.hasRegistry && Truthy(w.ctx.patientId)) then w
    else
      var pid := w.ctx.patientId.value;
      if pid !in w.ctx.patientContexts then w
      else
        match UpdatePatientRegistry(w.store, w.ctx.conversationId, pid, EntryFor(w.ctx, pid), Some(pid), now)
        case Ok(st) => w.(store := st)
        case Raised(_) => w
  }

  // ---------------------------------------------------------------- storage layout

  lemma SuffixIndex(a: string, b: string, k: int)
    requires 0 <= k < |b|
    ensures (a + b)[|a| + k] == b[k]
  {
  }

  /** The character 13 places from the end tells the three kinds of blob
      name apart: 'r' for the registry, '_' for a context slot, 'a' for a
      folder archive. */
  lemma RegistryMark(cid: string)
    ensures |RegistryPath(cid)| >= 13 && RegistryPath(cid)[|RegistryPath(cid)| - 13] == 'r'
  {
    SuffixIndex(cid, "/patient_context_registry.json", 17);
  }

  lemma SlotMark(cid: string, pid: Option<string>)
    ensures |BlobPath(cid, pid)| >= 13 && BlobPath(cid, pid)[|BlobPath(cid, pid)| - 13] == '_'
  {
    if Truthy(pid) {
      SuffixIndex(cid + "/patient_" + pid.value, "_context.json", 0);
    } else {
      SuffixIndex(cid, "/session_context.json", 8);
    }
  }

  lemma FolderMark(folder: string, cid: string, pid: Option<string>, ts: string)
    ensures var d := FolderArchivePath(folder, cid, pid, ts);
            |d| >= 13 && d[|d| - 13] == 'a'
  {
    if Truthy(pid) {
      SuffixIndex(folder + "/" + cid + "/" + ts + "_patient_" + pid.value, "_archived.json", 1);
    } else {
      SuffixIndex(folder + "/" + cid + "/" + ts, "_session_archived.json", 9);
    }
  }

  /** The registry blob is never a context slot nor a folder archive, of any
      conversation. */
  lemma RegistryIsNoContextKey(cid: string, cid2: string, pid: Option<string>, folder: string, ts: string)
    ensures RegistryPath(cid) != BlobPath(cid2, pid)
    ensures RegistryPath(cid) != FolderArchivePath(folder, cid2, pid, ts)
  {
    RegistryMark(cid);
    SlotMark(cid2, pid);
    FolderMark(folder, cid2, pid, ts);
  }

  /** The slots `archive_to_folder` may touch for the given patients. */
  function PatientSlots(cid: string, pids: seq<string>, folder: string, ts: string): set<string> {
    (set p | p in pids :: BlobPath(cid, Some(p))) + (set p | p in pids :: FolderArchivePath(folder, cid, Some(p), ts))
  }

  /** `b` holds at `k` what `a` holds there, or neither holds anything. */
  predicate SameAt(a: Storage, b: Storage, k: string) {
    (k in a.blobs <==> k in b.blobs) && (k in a.blobs ==> b.blobs[k] == a.blobs[k])
  }

  /** The slot of `pid` has moved from `st` to its folder archive in `r`,
      whenever `st` held it and neither path fails. */
  predicate Moved(st: Storage, r: Storage, cid: string, pid: Option<string>, folder: string, ts: string) {
    var live := BlobPath(cid, pid);
    var dest := FolderArchivePath(folder, cid, pid, ts);
    live in st.blobs && live !in st.failing && dest !in st.failing ==>
      dest in r.blobs && r.blobs[dest] == st.blobs[live] && live !in r.blobs
  }

  /** No slot is a folder archive, and different ids (the empty one naming
      the session) never share a slot or a folder archive. */
  lemma SlotsApart(cid: string, folder: string, ts: string, p: string, q: string)
    ensures BlobPath(cid, Some(p)) != FolderArchivePath(folder, cid, Some(q), ts)
    ensures p != q ==> BlobPath(cid, Some(p)) != BlobPath(cid, Some(q))
    ensures p != q ==> FolderArchivePath(folder, cid, Some(p), ts) != FolderArchivePath(folder, cid, Some(q), ts)
  {
    SlotMark(cid, Some(p));
    FolderMark(folder, cid, Some(q), ts);
    BlobPathsDistinct(cid, p, q);
    BlobPathsDistinct(cid, q, p);
    var pre := folder + "/" + cid + "/" + ts;
    if p != "" {
      SuffixIndex(pre, "_patient_" + p + "_archived.json", 1);
      assert FolderArchivePath(folder, cid, Some(p), ts) == pre + ("_patient_" + p + "_archived.json");
    }
    if q != "" {
      SuffixIndex(pre, "_patient_" + q + "_archived.json", 1);
      assert FolderArchivePath(folder, cid, Some(q), ts) == pre + ("_patient_" + q + "_archived.json");
    }
    SuffixIndex(pre, "_session_archived.json", 1);
    if p != "" && q != "" && p != q && FolderArchivePath(folder, cid, Some(p), ts) == FolderArchivePath(folder, cid, Some(q), ts) {
      MiddleOf(pre + "_patient_", p, "_archived.json");
      MiddleOf(pre + "_patient_", q, "_archived.json");
    }
  }

  /** Archive each patient's slot in turn; each attempt stands alone. Every
      listed slot that can move ends in its folder archive, and an archive
      whose slot is already empty is never overwritten. */
  function ArchivePatients(st: Storage, cid: string, pids: seq<string>, folder: string, ts: string): (r: Storage)
    ensures SameOutside(st, r, PatientSlots(cid, pids, folder, ts))
    ensures forall p :: p in pids ==> Moved(st, r, cid, Some(p), folder, ts)
    ensures forall p :: BlobPath(cid, Some(p)) !in st.blobs ==>
      BlobPath(cid, Some(p)) !in r.blobs && SameAt(st, r, FolderArchivePath(folder, cid, Some(p), ts))
    decreases |pids|
  {
    if |pids| == 0 then st
    else
      var st1 := ArchiveToFolder(st, cid, Some(pids[0]), folder, ts);
      var r := ArchivePatients(st1, cid, pids[1..], folder, ts);
      ArchiveFrameStep(st, st1, r, cid, pids, folder, ts);
      ArchiveStep(st, st1, r, cid, pids, folder, ts);
      r
  }

  /** The frame of `ArchivePatients`: the first archival and the rest each
      stay within the listed slots and archives. */
  lemma ArchiveFrameStep(st: Storage, st1: Storage, r: Storage, cid: string, pids: seq<string>, folder: string, ts: string)
    requires |pids| > 0 && st1 == ArchiveToFolder(st, cid, Some(pids[0]), folder, ts)
    requires SameOutside(st1, r, PatientSlots(cid, pids[1..], folder, ts))
    ensures SameOutside(st, r, PatientSlots(cid, pids, folder, ts))
  {
    assert PatientSlots(cid, pids[1..], folder, ts) <= PatientSlots(cid, pids, folder, ts);
    SameOutsideTrans(st, st1, r, {BlobPath(cid, Some(pids[0])), FolderArchivePath(folder, cid, Some(pids[0]), ts)},
                     PatientSlots(cid, pids[1..], folder, ts));
  }

  /** The first archival of `ArchivePatients` composed with the rest. */
  lemma ArchiveStep(st: Storage, st1: Storage, r: Storage, cid: string, pids: seq<string>, folder: string, ts: string)
    requires |pids| > 0 && st1 == ArchiveToFolder(st, cid, Some(pids[0]), folder, ts)
    requires r.failing == st1.failing
    requires forall p :: p in pids[1..] ==> Moved(st1, r, cid, Some(p), folder, ts)
    requires forall p :: BlobPath(cid, Some(p)) !in st1.blobs ==>
      BlobPath(cid, Some(p)) !in r.blobs && SameAt(st1, r, FolderArchivePath(folder, cid, Some(p), ts))
    ensures forall p :: p in pids ==> Moved(st, r, cid, Some(p), folder, ts)
    ensures forall p :: BlobPath(cid, Some(p)) !in st.blobs ==>
      BlobPath(cid, Some(p)) !in r.blobs && SameAt(st, r, FolderArchivePath(folder, cid, Some(p), ts))
  {
    var p0 := pids[0];
    forall p | BlobPath(cid, Some(p)) !in st.blobs
      ensures BlobPath(cid, Some(p)) !in r.blobs && SameAt(st, r, FolderArchivePath(folder, cid, Some(p), ts))
    {
      if p != p0 {
        SlotsApart(cid, folder, ts, p, p0);
        SlotsApart(cid, folder, ts, p0, p);
      }
    }
    forall p | p in pids
      ensures Moved(st, r, cid, Some(p), folder, ts)
    {
      if p != p0 {
        assert p in pids[1..];
        SlotsApart(cid, folder, ts, p, p0);
        SlotsApart(cid, folder, ts, p0, p);
      }
    }
  }

  lemma RegistryOutsidePatientSlots(cid: string, pids: seq<string>, folder: string, ts: string)
    ensures RegistryPath(cid) !in PatientSlots(cid, pids, folder, ts)
  {
    forall p | p in pids
      ensures RegistryPath(cid) != BlobPath(cid, Some(p))
      ensures RegistryPath(cid) != FolderArchivePath(folder, cid, Some(p), ts)
    {
      RegistryIsNoContextKey(cid, cid, Some(p), folder, ts);
    }
  }

  // ---------------------------------------------------------------- clear

  /** The context-slot half of a clear: the session slot, then each listed
      patient's slot, each moved to its folder archive when it can be. The
      registry blob is not touched. */
  function ArchiveContexts(st: Storage, cid: string, ids: seq<string>, folder: string, ts: string): (r: Storage)
    ensures r.failing == st.failing
    ensures ReadRegistry(r, cid) == ReadRegistry(st, cid)
    ensures RegistryArchivePath(cid, ts) in r.failing <==> RegistryArchivePath(cid, ts) in st.failing
    ensures Moved(st, r, cid, None, folder, ts)
    ensures forall p :: p in ids ==> Moved(st, r, cid, Some(p), folder, ts)
  {
    var st1 := ArchiveToFolder(st, cid, None, folder, ts);
    var r := ArchivePatients(st1, cid, ids, folder, ts);
    RegistryIsNoContextKey(cid, cid, None, folder, ts);
    RegistryOutsidePatientSlots(cid, ids, folder, ts);
    assert RegistryPath(cid) in r.blobs <==> RegistryPath(cid) in st.blobs;
    SessionThenPatients(st, st1, r, cid, ids, folder, ts);
    r
  }

  /** The session archival followed by the patients' keeps every move. */
  lemma SessionThenPatients(st: Storage, st1: Storage, r: Storage, cid: string, ids: seq<string>, folder: string, ts: string)
    requires st1 == ArchiveToFolder(st, cid, None, folder, ts)
    requires r == ArchivePatients(st1, cid, ids, folder, ts)
    ensures Moved(st, r, cid, None, folder, ts)
    ensures forall p :: p in ids ==> Moved(st, r, cid, Some(p), folder, ts)
  {
    assert BlobPath(cid, Some("")) == BlobPath(cid, None);
    assert FolderArchivePath(folder, cid, Some(""), ts) == FolderArchivePath(folder, cid, None, ts);
    forall p | p in ids
      ensures Moved(st, r, cid, Some(p), folder, ts)
    {
      if p != "" {
        SlotsApart(cid, folder, ts, p, "");
        SlotsApart(cid, folder, ts, "", p);
      }
    }
  }

  /** The registry's archive is never a context slot: the character 13
      places from the end is 'a' there and '_' in a slot. */
  lemma RegistryArchiveIsNoSlot(cid: string, pid: Option<string>, ts: string)
    ensures RegistryArchivePath(cid, ts) != BlobPath(cid, pid)
  {
    var x := RegistryArchivePath(cid, ts);
    SlotMark(cid, pid);
    SuffixIndex(cid + "/" + ts, "_patient_context_registry_archived.json", 26);
    assert |x| >= 13 && x[|x| - 13] == 'a';
  }

  /** Nor is it the session's folder archive: the character 15 places from
      the end is 'y' there and 'n' in the session's archive. */
  lemma RegistryArchiveIsNoSessionArchive(cid: string, folder: string, ts: string)
    ensures RegistryArchivePath(cid, ts) != FolderArchivePath(folder, cid, None, ts)
  {
    var x := RegistryArchivePath(cid, ts);
    var y := FolderArchivePath(folder, cid, None, ts);
    SuffixIndex(cid + "/" + ts, "_patient_context_registry_archived.json", 24);
    SuffixIndex(folder + "/" + cid + "/" + ts, "_session_archived.json", 7);
    assert x[|x| - 15] == 'y';
    assert y[|y| - 15] == 'n';
  }

  /** `_archive_all_and_recreate`: reset the kernel if a patient was active;
      archive the session slot and every registry patient's slot to
      `archive/<timestamp>`, then the registry, each attempt swallowing its
      failure; finally forget the active patient, the roster and the history. */
  function ArchiveAllAndRecreate(svc: Service, w: World, now: Instant): (r: World)
    ensures r.ctx == w.ctx.(patientId := None, patientContexts := map[], history := [])
    ensures r.analyzer.deployment == w.analyzer.deployment && r.analyzer.apiVersion == w.analyzer.apiVersion
    ensures r.analyzer.kernelGeneration == w.analyzer.kernelGeneration + (if Truthy(w.ctx.patientId) then 1 else 0)
    ensures r.store.failing == w.store.failing
    ensures !svc.hasRegistry && !svc.hasContextAccessor ==> r.store == w.store
    ensures svc.hasRegistry && RegistryPath(w.ctx.conversationId) !in w.store.failing
            && RegistryArchivePath(w.ctx.conversationId, now.compact) !in w.store.failing ==>
              ReadRegistry(r.store, w.ctx.conversationId).0 == map[]
  {
    var a := if Truthy(w.ctx.patientId) then ResetKernel(w.analyzer) else w.analyzer;
    World(w.ctx.(patientId := None, patientContexts := map[], history := []), ClearStore(svc, w.store, w.ctx.conversationId, now), a)
  }

  /** The storage half of a clear: the context slots, then the registry. */
  function ClearStore(svc: Service, st: Storage, cid: string, now: Instant): (r: Storage)
    ensures r.failing == st.failing
    ensures !svc.hasRegistry && !svc.hasContextAccessor ==> r == st
    ensures svc.hasRegistry && RegistryPath(cid) !in st.failing && RegistryArchivePath(cid, now.compact) !in st.failing ==>
              ReadRegistry(r, cid).0 == map[]
    ensures svc.hasContextAccessor ==> Moved(st, r, cid, None, "archive/" + now.folder, now.compact)
    ensures svc.hasContextAccessor && svc.hasRegistry ==>
      forall p :: p in ReadRegistry(st, cid).0
                  && FolderArchivePath("archive/" + now.folder, cid, Some(p), now.compact) != RegistryArchivePath(cid, now.compact)
                  ==> Moved(st, r, cid, Some(p), "archive/" + now.folder, now.compact)
  {
    var ids := if svc.hasRegistry then SortedIds(ReadRegistry(st, cid).0.Keys) else [];
    var st1 := if svc.hasContextAccessor then ArchiveContexts(st, cid, ids, "archive/" + now.folder, now.compact)
               else st;
    var r := if svc.hasRegistry then
      match ArchiveRegistry(st1, cid, now)
      case Ok(s) => s
      case Raised(_) => st1
    else st1;
    assert SameOutside(st1, r, {RegistryPath(cid), RegistryArchivePath(cid, now.compact)});
    if svc.hasContextAccessor then
      RegistryKeepsMoves(st, st1, r, cid, ids, "archive/" + now.folder, now.compact);
      r
    else r
  }

  /** Archiving the registry after the context slots undoes no move, except
      one whose folder archive has the registry archive's name. */
  lemma RegistryKeepsMoves(st: Storage, st1: Storage, r: Storage, cid: string, ids: seq<string>, folder: string, ts: string)
    requires SameOutside(st1, r, {RegistryPath(cid), RegistryArchivePath(cid, ts)})
    requires st1.failing == st.failing
    requires Moved(st, st1, cid, None, folder, ts)
    requires forall p :: p in ids ==> Moved(st, st1, cid, Some(p), folder, ts)
    ensures Moved(st, r, cid, None, folder, ts)
    ensures forall p :: p in ids && FolderArchivePath(folder, cid, Some(p), ts) != RegistryArchivePath(cid, ts) ==>
      Moved(st, r, cid, Some(p), folder, ts)
  {
    RegistryIsNoContextKey(cid, cid, None, folder, ts);
    RegistryArchiveIsNoSlot(cid, None, ts);
    RegistryArchiveIsNoSessionArchive(cid, folder, ts);
    forall p | p in ids && FolderArchivePath(folder, cid, Some(p), ts) != RegistryArchivePath(cid, ts)
      ensures Moved(st, r, cid, Some(p), folder, ts)
    {
      RegistryIsNoContextKey(cid, cid, Some(p), folder, ts);
      RegistryArchiveIsNoSlot(cid, Some(p), ts);
    }
  }

  // ---------------------------------------------------------------- activation

  /** `_activate_patient_with_registry`: the active id again is UNCHANGED with
      no effect; otherwise the kernel is reset if another patient was active,
      the roster is hydrated, the id becomes active (joining the roster if
      new) and is upserted into the registry. */
  function Activate(svc: Service, w: World, pid: string, now: Instant): (r: (Decision, World))
    ensures w.ctx.patientId == Some(pid) ==> r == (UnchangedDecision, w)
    ensures w.ctx.patientId != Some(pid) ==>
      var h := Hydrate(svc, w);
      && r.1.ctx.patientId == Some(pid)
      && pid in r.1.ctx.patientContexts
      && r.1.ctx.patientContexts.Keys == h.ctx.patientContexts.Keys + {pid}
      && r.1.ctx.history == w.ctx.history
      && (r.0 == SwitchToExisting <==> pid in h.ctx.patientContexts)
      && (r.0 == NewBlank <==> pid !in h.ctx.patientContexts)
      && r.1.analyzer.kernelGeneration == w.analyzer.kernelGeneration + (if Truthy(w.ctx.patientId) then 1 else 0)
      && SameOutside(w.store, r.1.store, {RegistryPath(w.ctx.conversationId)})
      && (svc.hasRegistry && pid != "" && RegistryPath(w.ctx.conversationId) !in w.store.failing ==>
            && ReadRegistry(r.1.store, w.ctx.conversationId).1 == Some(pid)
            && pid in ReadRegistry(r.1.store, w.ctx.conversationId).0)
  {
    if w.ctx.patientId == Some(pid) then (UnchangedDecision, w)
    else
      var a := if Truthy(w.ctx.patientId) && pid != w.ctx.patientId.value then ResetKernel(w.analyzer) else w.analyzer;
      var h := Hydrate(svc, w.(analyzer := a));
      assert h.ctx.conversationId == w.ctx.conversationId && h.store == w.store;
      assert h.ctx.patientContexts == Hydrate(svc, w).ctx.patientContexts;
      var roster := if pid in h.ctx.patientContexts then h.ctx.patientContexts
                    else h.ctx.patientContexts[pid := NewPatientContext(pid)];
      var w2 := h.(ctx := h.ctx.(patientId := Some(pid), patientContexts := roster));
      var r := UpdateRegistryStorage(svc, w2, now);
      (if pid in h.ctx.patientContexts then SwitchToExisting else NewBlank, r)
  }

  // ---------------------------------------------------------------- the turn

  /** The keywords whose presence sends even a short message to the analyzer. */
  predicate MentionsKeyword(text: string) {
    Contains(Lower(text), "patient") || Contains(Lower(text), "clear") || Contains(Lower(text), "switch")
  }

  /** A non-empty message of at most 15 characters after stripping that
      mentions none of the keywords bypasses the analyzer. */
  predicate IsShortChatter(text: string) {
    text != "" && |Strip(text)| <= 15 && !MentionsKeyword(text)
  }

  /** The no-patient outcome: restore from the registry when no patient is
      active, otherwise keep the active one. */
  function NoPatientOutcome(svc: Service, w: World): (r: (Decision, World))
    ensures r.0 in {RestoredFromStorage, NoneDecision, UnchangedDecision}
    ensures r.1.analyzer == w.analyzer
    ensures Truthy(w.ctx.patientId) ==> r == (UnchangedDecision, w)
  {
    if !Truthy(w.ctx.patientId) then
      var (ok, w1) := TryRestore(svc, w);
      (if ok then RestoredFromStorage else NoneDecision, w1)
    else (UnchangedDecision, w)
  }

  /** `decide_and_apply`: hydrate, then either the short-message shortcut or
      the analyzer's action applied. */
  function DecideAndApply(svc: Service, model: Model, text: string, w: World, now: Instant): (r: (Decision, World))
    ensures r.1.ctx.conversationId == w.ctx.conversationId
    ensures r.0 == Cleared ==>
      r.1.ctx.patientId == None && r.1.ctx.patientContexts == map[] && r.1.ctx.history == []
    ensures r.0 != Cleared ==> r.1.ctx.history == w.ctx.history
    ensures r.0 == NeedsPatientId ==> r.1 == Hydrate(svc, w)
    ensures r.0 in {NewBlank, SwitchToExisting, RestoredFromStorage} ==>
      Truthy(r.1.ctx.patientId) && r.1.ctx.patientId.value in r.1.ctx.patientContexts
  {
    var h := Hydrate(svc, w);
    if IsShortChatter(text) then NoPatientOutcome(svc, h)
    else ApplyDecision(svc, h, AnalyzeDecision(model, text, h.ctx.patientId, Some(KnownIds(h.ctx))), now)
  }

  /** The analyzer's action applied to the hydrated world. */
  function ApplyDecision(svc: Service, h: World, d: PatientContextDecision, now: Instant): (r: (Decision, World))
    ensures r.1.ctx.conversationId == h.ctx.conversationId
    ensures r.0 == Cleared ==>
      r.1.ctx.patientId == None && r.1.ctx.patientContexts == map[] && r.1.ctx.history == []
    ensures r.0 != Cleared ==> r.1.ctx.history == h.ctx.history
    ensures r.0 == NeedsPatientId ==> r.1 == h
    ensures r.0 in {NewBlank, SwitchToExisting, RestoredFromStorage} ==>
      Truthy(r.1.ctx.patientId) && r.1.ctx.patientId.value in r.1.ctx.patientContexts
    ensures d.action in {ActivateNew, SwitchExisting} ==> r == ApplyActivation(svc, h, d.patientId, now)
  {
    match d.action
    case Clear => (Cleared, ArchiveAllAndRecreate(svc, h, now))
    case ActivateNew => ApplyActivation(svc, h, d.patientId, now)
    case SwitchExisting => ApplyActivation(svc, h, d.patientId, now)
    case NoAction => NoPatientOutcome(svc, h)
    case Unchanged => (UnchangedDecision, h)
  }

  /** An activating action: its id must be present and well formed. */
  function ApplyActivation(svc: Service, h: World, pid: Option<string>, now: Instant): (r: (Decision, World))
    ensures !Truthy(pid) || !MatchesPatientId(pid.value) ==> r == (NeedsPatientId, h)
    ensures Truthy(pid) && MatchesPatientId(pid.value) ==> r == Activate(svc, h, pid.value, now)
  {
    if !Truthy(pid) || !MatchesPatientId(pid.value) then (NeedsPatientId, h)
    else Activate(svc, h, pid.value, now)
  }

  /** `set_explicit_patient_context`: an invalid id is refused with no
      effect; otherwise the id becomes active, joins the roster and is
      upserted, resetting the kernel if another patient was active. */
  function SetExplicit(svc: Service, w: World, pid: string, now: Instant): (r: (bool, World))
    ensures !r.0 <==> !MatchesPatientId(pid)
    ensures !r.0 ==> r.1 == w
    ensures r.0 ==>
      && r.1.ctx.patientId == Some(pid)
      && pid in r.1.ctx.patientContexts
      && r.1.ctx.patientContexts.Keys == Hydrate(svc, w).ctx.patientContexts.Keys + {pid}
      && r.1.analyzer.kernelGeneration
         == w.analyzer.kernelGeneration + (if Truthy(w.ctx.patientId) && w.ctx.patientId.value != pid then 1 else 0)
      && r.1.ctx.history == w.ctx.history
      && SameOutside(w.store, r.1.store, {RegistryPath(w.ctx.conversationId)})
      && (svc.hasRegistry && RegistryPath(w.ctx.conversationId) !in w.store.failing ==>
            && ReadRegistry(r.1.store, w.ctx.conversationId).1 == Some(pid)
            && pid in ReadRegistry(r.1.store, w.ctx.conversationId).0)
  {
    if pid == "" || !MatchesPatientId(pid) then (false, w)
    else
      var a := if Truthy(w.ctx.patientId) && pid != w.ctx.patientId.value then ResetKernel(w.analyzer) else w.analyzer;
      var h := Hydrate(svc, w.(analyzer := a));
      var roster := if pid in h.ctx.patientContexts then h.ctx.patientContexts
                    else h.ctx.patientContexts[pid := NewPatientContext(pid)];
      var w2 := h.(ctx := h.ctx.(patientContexts := roster, patientId := Some(pid)));
      (true, if svc.hasRegistry then UpdateRegistryStorage(svc, w2, now) else w2)
  }

  /** An explicit choice of a patient who is not already active has exactly
      the effect of the analyzer activating that patient; the two differ only
      in what they answer. */
  lemma SetExplicitIsActivation(svc: Service, w: World, pid: string, now: Instant)
    requires MatchesPatientId(pid) && w.ctx.patientId != Some(pid)
    ensures SetExplicit(svc, w, pid, now) == (true, Activate(svc, w, pid, now).1)
    ensures ApplyActivation(svc, w, Some(pid), now).1 == SetExplicit(svc, w, pid, now).1
  {
  }

  // ---------------------------------------------------------------- properties of a turn

  /** A short message without keywords never reaches the analyzer: any two
      models give the same outcome, which is a restore or NONE when no
      patient is active and UNCHANGED otherwise. */
  lemma ShortChatterSkipsAnalyzer(svc: Service, m1: Model, m2: Model, text: string, w: World, now: Instant)
    requires IsShortChatter(text)
    ensures DecideAndApply(svc, m1, text, w, now) == DecideAndApply(svc, m2, text, w, now)
    ensures var r := DecideAndApply(svc, m1, text, w, now);
            (!Truthy(w.ctx.patientId) ==> r.0 in {RestoredFromStorage, NoneDecision})
            && (Truthy(w.ctx.patientId) ==> r == (UnchangedDecision, Hydrate(svc, w)))
  {
  }

  /** An activating action whose id is missing or not of the form
      `patient_<digits>` changes nothing but the hydrated roster: the active
      patient, the stores and the kernel stay as they were. */
  lemma MalformedIdNeedsPatientId(svc: Service, model: Model, text: string, w: World, now: Instant)
    requires !IsShortChatter(text)
    requires var h := Hydrate(svc, w);
             var d := AnalyzeDecision(model, text, h.ctx.patientId, Some(KnownIds(h.ctx)));
             d.action in {ActivateNew, SwitchExisting} && (!Truthy(d.patientId) || !MatchesPatientId(d.patientId.value))
    ensures var r := DecideAndApply(svc, model, text, w, now);
            && r == (NeedsPatientId, Hydrate(svc, w))
            && r.1.ctx.patientId == w.ctx.patientId && r.1.store == w.store && r.1.analyzer == w.analyzer
  {
  }

  /** Which of the two activating actions the analyzer chose makes no
      difference: the outcome depends only on the id and the roster. */
  lemma ActivationKindIrrelevant(svc: Service, m1: Model, m2: Model, text: string, w: World, now: Instant)
    requires !IsShortChatter(text)
    requires var h := Hydrate(svc, w);
             var d1 := AnalyzeDecision(m1, text, h.ctx.patientId, Some(KnownIds(h.ctx)));
             var d2 := AnalyzeDecision(m2, text, h.ctx.patientId, Some(KnownIds(h.ctx)));
             d1.action == ActivateNew && d2.action == SwitchExisting && d1.patientId == d2.patientId
    ensures DecideAndApply(svc, m1, text, w, now) == DecideAndApply(svc, m2, text, w, now)
  {
  }

  /** The kernel generation after an activating action. */
  lemma ActivationKernel(svc: Service, h: World, pid: Option<string>, now: Instant)
    ensures var r := ApplyActivation(svc, h, pid, now);
            && r.1.analyzer.kernelGeneration
               == h.analyzer.kernelGeneration + (if Truthy(h.ctx.patientId) && r.0 in {NewBlank, SwitchToExisting} then 1 else 0)
            && r.1.analyzer.deployment == h.analyzer.deployment && r.1.analyzer.apiVersion == h.analyzer.apiVersion
  {
    if Truthy(pid) && MatchesPatientId(pid.value) && h.ctx.patientId != pid {
      var a := if Truthy(h.ctx.patientId) && pid.value != h.ctx.patientId.value then ResetKernel(h.analyzer) else h.analyzer;
      var h2 := Hydrate(svc, h.(analyzer := a));
      assert h2.analyzer == a;
    }
  }

  /** The kernel generation after the analyzer's action is applied. */
  lemma DecisionKernel(svc: Service, h: World, d: PatientContextDecision, now: Instant)
    ensures var r := ApplyDecision(svc, h, d, now);
            && r.1.analyzer.kernelGeneration
               == h.analyzer.kernelGeneration
                  + (if Truthy(h.ctx.patientId) && r.0 in {Cleared, NewBlank, SwitchToExisting} then 1 else 0)
            && r.1.analyzer.deployment == h.analyzer.deployment && r.1.analyzer.apiVersion == h.analyzer.apiVersion
  {
    match d.action
    case Clear =>
    case ActivateNew => ActivationKernel(svc, h, d.patientId, now);
    case SwitchExisting => ActivationKernel(svc, h, d.patientId, now);
    case NoAction =>
    case Unchanged =>
  }

  /** The kernel is reset exactly once when a patient was active and the
      turn clears or activates a patient, and never otherwise. */
  lemma KernelResetExactly(svc: Service, model: Model, text: string, w: World, now: Instant)
    ensures var r := DecideAndApply(svc, model, text, w, now);
            r.1.analyzer.kernelGeneration
            == w.analyzer.kernelGeneration
               + (if Truthy(w.ctx.patientId) && r.0 in {Cleared, NewBlank, SwitchToExisting} then 1 else 0)
    ensures var r := DecideAndApply(svc, model, text, w, now);
            r.1.analyzer.deployment == w.analyzer.deployment && r.1.analyzer.apiVersion == w.analyzer.apiVersion
  {
    var h := Hydrate(svc, w);
    if IsShortChatter(text) {
      assert DecideAndApply(svc, model, text, w, now) == NoPatientOutcome(svc, h);
    } else {
      var d := AnalyzeDecision(model, text, h.ctx.patientId, Some(KnownIds(h.ctx)));
      assert DecideAndApply(svc, model, text, w, now) == ApplyDecision(svc, h, d, now);
      DecisionKernel(svc, h, d, now);
    }
  }

  /** NONE with no active patient restores exactly when the registry is
      non-empty and its active id names one of its patients, and the
      restored patient is that one. */
  lemma NoneRestoresIff(svc: Service, model: Model, text: string, w: World, now: Instant)
    requires !Truthy(w.ctx.patientId) && !IsShortChatter(text)
    requires var h := Hydrate(svc, w);
             AnalyzeDecision(model, text, h.ctx.patientId, Some(KnownIds(h.ctx))).action == NoAction
    ensures var r := DecideAndApply(svc, model, text, w, now);
            var (reg, active) := ReadRegistry(w.store, w.ctx.conversationId);
            && (r.0 == RestoredFromStorage <==> svc.hasRegistry && reg != map[] && Truthy(active) && active.value in reg)
            && (r.0 == RestoredFromStorage ==> r.1.ctx.patientId == active && r.1.store == w.store)
            && (r.0 != RestoredFromStorage ==> r == (NoneDecision, Hydrate(svc, w)))
  {
  }

  /** Activating an id that is already active is UNCHANGED and touches
      nothing. */
  lemma SameIdIsUnchanged(svc: Service, w: World, pid: string, now: Instant)
    requires w.ctx.patientId == Some(pid)
    ensures Activate(svc, w, pid, now) == (UnchangedDecision, w)
  {
  }

  /** The bare id mentions a keyword, so it always goes to the analyzer. */
  lemma BareIdMentionsKeyword()
    ensures MentionsKeyword("patient_4") && !IsShortChatter("patient_4") && !AllSpace("patient_4")
  {
    var low := Lower("patient_4");
    assert low[..7] == "patient";
    assert StartsWith(low, "patient");
    assert !IsSpace("patient_4"[0]);
  }

  /** A fresh conversation with no registry yet, whose model answers
      ACTIVATE_NEW with a well-formed id: the patient is created blank, made
      active, and becomes the registry's active id, with no kernel
      reset. (`patient_4` is such an id, see `PatientIdExamples`, and is not
      short chatter, see `BareIdMentionsKeyword`.) */
  lemma FirstPatientScenario(cid: string, st: Storage, a: AnalyzerState, model: Model, text: string, pid: string,
                             now: Instant)
    requires RegistryPath(cid) !in st.failing && RegistryPath(cid) !in st.blobs
    requires !IsShortChatter(text) && !AllSpace(text) && MatchesPatientId(pid)
    requires model(Prompt(text, None, {}))
             == FirstResult(DictContent(DumpDecision(PatientContextDecision(ActivateNew, Some(pid), "new"))))
    ensures var r := DecideAndApply(Service(true, true), model, text, World(NewChatContext(cid), st, a), now);
            && r.0 == NewBlank
            && r.1.ctx.patientId == Some(pid)
            && r.1.ctx.patientContexts.Keys == {pid}
            && r.1.analyzer.kernelGeneration == a.kernelGeneration
            && ReadRegistry(r.1.store, cid).1 == Some(pid)
  {
    var svc := Service(true, true);
    var w := World(NewChatContext(cid), st, a);
    var h := Hydrate(svc, w);
    FirstDecision(svc, model, text, w, h, pid, now);
    FirstActivation(svc, h, pid, now);
  }

  /** The first step of `FirstPatientScenario`: the model's answer reaches
      activation unchanged. */
  lemma FirstDecision(svc: Service, model: Model, text: string, w: World, h: World, pid: string, now: Instant)
    requires svc == Service(true, true) && w.ctx == NewChatContext(w.ctx.conversationId)
    requires RegistryPath(w.ctx.conversationId) !in w.store.blobs
    requires h == Hydrate(svc, w)
    requires !IsShortChatter(text) && !AllSpace(text) && MatchesPatientId(pid)
    requires model(Prompt(text, None, {}))
             == FirstResult(DictContent(DumpDecision(PatientContextDecision(ActivateNew, Some(pid), "new"))))
    ensures DecideAndApply(svc, model, text, w, now) == Activate(svc, h, pid, now)
    ensures h.ctx.patientId == None && h.ctx.patientContexts == map[]
    ensures h.ctx.conversationId == w.ctx.conversationId && h.store == w.store && h.analyzer == w.analyzer
  {
    var d := PatientContextDecision(ActivateNew, Some(pid), "new");
    NoRegistryNoRoster(svc, w, h);
    assert KnownIds(h.ctx) == {};
    ModelDecisionPassesThrough(model, text, None, {}, d);
    AnalyzedActivation(svc, model, text, w, h, d, now);
  }

  lemma NoRegistryNoRoster(svc: Service, w: World, h: World)
    requires h == Hydrate(svc, w) && w.ctx.patientContexts == map[]
    requires RegistryPath(w.ctx.conversationId) !in w.store.blobs
    ensures h.ctx.patientContexts == map[] && h.ctx == w.ctx
  {
    assert ReadRegistry(w.store, w.ctx.conversationId).0 == map[];
  }

  /** A message the analyzer answers with an activating action leads to that
      activation. */
  lemma AnalyzedActivation(svc: Service, model: Model, text: string, w: World, h: World,
                           d: PatientContextDecision, now: Instant)
    requires h == Hydrate(svc, w) && !IsShortChatter(text)
    requires d.action in {ActivateNew, SwitchExisting}
    requires AnalyzeDecision(model, text, h.ctx.patientId, Some(KnownIds(h.ctx))) == d
    ensures DecideAndApply(svc, model, text, w, now) == ApplyActivation(svc, h, d.patientId, now)
  {
  }

  /** The second step of `FirstPatientScenario`: activating a first patient
      in a world with no roster creates it blank. */
  lemma FirstActivation(svc: Service, h: World, pid: string, now: Instant)
    requires svc == Service(true, true) && pid != ""
    requires h.ctx.patientId == None && h.ctx.patientContexts == map[]
    requires RegistryPath(h.ctx.conversationId) !in h.store.failing && RegistryPath(h.ctx.conversationId) !in h.store.blobs
    ensures var r := Activate(svc, h, pid, now);
            && r.0 == NewBlank
            && r.1.ctx.patientId == Some(pid)
            && r.1.ctx.patientContexts.Keys == {pid}
            && r.1.analyzer.kernelGeneration == h.analyzer.kernelGeneration
            && ReadRegistry(r.1.store, h.ctx.conversationId).1 == Some(pid)
  {
    assert ReadRegistry(h.store, h.ctx.conversationId).0 == map[];
    assert Hydrate(svc, h).ctx.patientContexts.Keys == {};
  }
}

=== FILE: registry_accessor.dfy ===
/** The per-conversation patient registry: which patients the conversation
    has met, their facts, and the active patient id, stored in one blob. */
module RegistryAccessor {
  import opened Outcomes
  import opened JsonValues
  import opened BlobStore

  /** The roster as stored: one entry object per patient id. */
  type Registry = map<string, Obj>

  function RegistryPath(cid: string): string {
    cid + "/patient_context_registry.json"
  }

  function RegistryArchivePath(cid: string, ts: string): string {
    cid + "/" + ts + "_patient_context_registry_archived.json"
  }

  lemma RegistryArchivePathIsNotLive(cid: string, ts: string)
    ensures RegistryArchivePath(cid, ts) != RegistryPath(cid)
  {
    assert |RegistryArchivePath(cid, ts)| > |RegistryPath(cid)|;
  }

  /** `read_registry`: never raises; a missing, unreadable or foreign blob
      reads as `({}, None)`. */
  function ReadRegistry(st: Storage, cid: string): (r: (Registry, Option<string>))
    ensures Download(st, RegistryPath(cid)).Raised? ==> r == (map[], None)
    ensures Download(st, RegistryPath(cid)) == Ok(Undecodable) ==> r == (map[], None)
    ensures Download(st, RegistryPath(cid)).Ok? && Download(st, RegistryPath(cid)).value.RegistryBlob? ==>
      r == (st.blobs[RegistryPath(cid)].registry.patientRegistry, st.blobs[RegistryPath(cid)].registry.activePatientId)
  {
    match Download(st, RegistryPath(cid))
    case Ok(RegistryBlob(d)) => (d.patientRegistry, d.activePatientId)
    case Ok(RegistryArchiveBlob(d)) => (d.patientRegistry, d.activePatientId)
    case _ => (map[], None)
  }

  /** `write_registry`: a storage failure propagates. */
  function WriteRegistry(st: Storage, cid: string, reg: Registry, active: Option<string>, now: Instant): (r: Result<Storage>)
    ensures r.Ok? <==> RegistryPath(cid) !in st.failing
    ensures r.Ok? ==> SameOutside(st, r.value, {RegistryPath(cid)})
    ensures r.Ok? ==> ReadRegistry(r.value, cid) == (reg, active)
  {
    Upload(st, RegistryPath(cid), RegistryBlob(RegistryDocument(cid, active, reg, now.isoNaive)))
  }

  /** The stored form of an entry: the given fields plus `last_updated`. */
  function Stamped(entry: Obj, now: Instant): Obj {
    entry["last_updated" := JStr(now.iso)]
  }

  /** `update_patient_registry`: read, replace the one entry, write back. */
  function UpdatePatientRegistry(st: Storage, cid: string, pid: string, entry: Obj, active: Option<string>,
                                 now: Instant): (r: Result<Storage>)
    ensures r.Ok? <==> RegistryPath(cid) !in st.failing
    ensures r.Ok? ==> SameOutside(st, r.value, {RegistryPath(cid)})
    ensures r.Ok? ==> ReadRegistry(r.value, cid).0 == ReadRegistry(st, cid).0[pid := Stamped(entry, now)]
    ensures r.Ok? ==> ReadRegistry(r.value, cid).1 == (if active.Some? then active else ReadRegistry(st, cid).1)
  {
    var (current, currentActive) := ReadRegistry(st, cid);
    var finalActive := if active.Some? then active else currentActive;
    WriteRegistry(st, cid, current[pid := Stamped(entry, now)], finalActive, now)
  }

  /** Only the entry of `pid` changes. */
  lemma UpdateKeepsOtherEntries(st: Storage, cid: string, pid: string, entry: Obj, active: Option<string>,
                                now: Instant, other: string)
    requires UpdatePatientRegistry(st, cid, pid, entry, active, now).Ok?
    requires other != pid
    ensures var after := ReadRegistry(UpdatePatientRegistry(st, cid, pid, entry, active, now).value, cid).0;
            (other in after <==> other in ReadRegistry(st, cid).0)
            && (other in after ==> after[other] == ReadRegistry(st, cid).0[other])
  {
  }

  /** Two updates for different patients leave both present, with the
      active id at the last supplied id. */
  lemma TwoUpdates(st: Storage, cid: string, p: string, q: string, ep: Obj, eq: Obj, now: Instant)
    requires p != q
    requires RegistryPath(cid) !in st.failing
    ensures var s1 := UpdatePatientRegistry(st, cid, p, ep, Some(p), now);
            s1.Ok? && UpdatePatientRegistry(s1.value, cid, q, eq, Some(q), now).Ok?
            && var (reg, active) := ReadRegistry(UpdatePatientRegistry(s1.value, cid, q, eq, Some(q), now).value, cid);
               p in reg && q in reg && reg[p] == Stamped(ep, now) && reg[q] == Stamped(eq, now) && active == Some(q)
  {
  }

  /** A corrupt registry reads as empty, so the next update replaces it with
      a one-entry registry: the earlier roster is lost. */
  lemma CorruptRegistryIsOverwritten(st: Storage, cid: string, pid: string, entry: Obj, now: Instant)
    requires RegistryPath(cid) in st.blobs && st.blobs[RegistryPath(cid)] == Undecodable
    requires RegistryPath(cid) !in st.failing
    ensures UpdatePatientRegistry(st, cid, pid, entry, Some(pid), now).Ok?
    ensures ReadRegistry(UpdatePatientRegistry(st, cid, pid, entry, Some(pid), now).value, cid)
         == (map[pid := Stamped(entry, now)], Some(pid))
  {
  }

  /** `archive_registry`: nothing to do for an empty or missing registry;
      otherwise snapshot it under a timestamped name and delete the live
      blob (a missing one is fine). Storage failures propagate. */
  function ArchiveRegistry(st: Storage, cid: string, now: Instant): (r: Result<Storage>)
    ensures ReadRegistry(st, cid).0 == map[] ==> r == Ok(st)
    ensures ReadRegistry(st, cid).0 != map[] ==>
      (r.Ok? <==> RegistryArchivePath(cid, now.compact) !in st.failing && RegistryPath(cid) !in st.failing)
    ensures ReadRegistry(st, cid).0 != map[] && r.Ok? ==>
      && SameOutside(st, r.value, {RegistryPath(cid), RegistryArchivePath(cid, now.compact)})
      && ReadRegistry(r.value, cid) == (map[], None)
      && RegistryArchivePath(cid, now.compact) in r.value.blobs
      && r.value.blobs[RegistryArchivePath(cid, now.compact)].RegistryArchiveBlob?
      && r.value.blobs[RegistryArchivePath(cid, now.compact)].archived.patientRegistry == ReadRegistry(st, cid).0
      && r.value.blobs[RegistryArchivePath(cid, now.compact)].archived.activePatientId == ReadRegistry(st, cid).1
  {
    var (current, active) := ReadRegistry(st, cid);
    if current == map[] then Ok(st)
    else
      RegistryArchivePathIsNotLive(cid, now.compact);
      var archive := RegistryArchiveBlob(RegistryDocument(cid, active, current, now.iso));
      var st1 :- Upload(st, RegistryArchivePath(cid, now.compact), archive);
      DeleteIfPresent(st1, RegistryPath(cid))
  }
}

=== FILE: snapshot.dfy ===
/** The ephemeral patient-context snapshot both front ends put in front of
    the history each turn: a system message `PATIENT_CONTEXT_JSON: <json>`
    rebuilt from the in-memory state. Old snapshots are stripped before the
    fresh one goes in at index 0. The JSON encoding itself is an oracle
    (`Dump`); only its decoded shape matters here. */
module Snapshots {
  import opened Outcomes
  import opened JsonValues
  import opened Text
  import opened ChatContexts
  import opened ChatContextAccessor
  import opened PatientContextService

  // ---------------------------------------------------------------- the snapshot message

  /** A system message whose leading text starts with the prefix. A message
      without items, or whose first item has no text, is not one. */
  predicate IsSnapshot(m: Message) {
    m.role == System && StartsWith(LeadingText(m), PatientContextPrefix)
  }

  predicate Clean(h: seq<Message>) {
    forall i :: 0 <= i < |h| ==> !IsSnapshot(h[i])
  }

  /** What the snapshot records about the context. */
  datatype SnapshotData = SnapshotData(
    conversationId: string,
    patientId: Option<string>,
    allPatientIds: seq<string>,
    generatedAt: string)

  /** The snapshot of a context; the roster ids are sorted. */
  function SnapshotOf(c: ChatContext, generatedAt: string): (d: SnapshotData)
    ensures d.conversationId == c.conversationId && d.patientId == c.patientId
    ensures Sorted(d.allPatientIds)
    ensures forall p :: p in d.allPatientIds <==> p in c.patientContexts
  {
    SnapshotData(c.conversationId, c.patientId, SortedIds(c.patientContexts.Keys), generatedAt)
  }

  /** The JSON object the snapshot encodes. */
  function SnapshotJson(d: SnapshotData): Obj {
    map["conversation_id" := JStr(d.conversationId),
        "patient_id" := OptStrJson(d.patientId),
        "all_patient_ids" := JArr(StrArray(d.allPatientIds)),
        "generated_at" := JStr(d.generatedAt)]
  }

  /** The compact JSON text of a snapshot. */
  type Dump = SnapshotData -> string

  /** The text parser; `None` when the text is not JSON. */
  type Load = string -> Option<Json>

  function SnapshotLine(payload: string): (line: string)
    ensures StartsWith(line, PatientContextPrefix)
  {
    PatientContextPrefix + ": " + payload
  }

  function SnapshotMessage(payload: string): (m: Message)
    ensures IsSnapshot(m)
  {
    TextMessage(System, SnapshotLine(payload))
  }

  // ---------------------------------------------------------------- strip and inject

  /** Remove every snapshot, keeping the other messages in order. */
  function StripSnapshots(h: seq<Message>): (r: seq<Message>)
    ensures |r| <= |h|
    ensures Clean(r)
  {
    if |h| == 0 then []
    else Kept(h[0]) + StripSnapshots(h[1..])
  }

  /** What stripping keeps of one message. */
  function Kept(m: Message): (r: seq<Message>)
    ensures Clean(r) && (r == [] || r == [m])
  {
    if IsSnapshot(m) then [] else [m]
  }

  /** Stripping distributes over concatenation, which with the next two
      lemmas fixes it completely: it keeps each non-snapshot and drops each
      snapshot, in order. */
  lemma {:induction false} StripConcat(a: seq<Message>, b: seq<Message>)
    ensures StripSnapshots(a + b) == StripSnapshots(a) + StripSnapshots(b)
  {
    if |a| == 0 {
      assert a + b == b;
    } else {
      var x, t := a[0], a[1..];
      assert a == [x] + t && a + b == [x] + (t + b);
      StripConcat(t, b);
      StripCons(x, t);
      StripCons(x, t + b);
      ConcatAssoc(Kept(x), StripSnapshots(t), StripSnapshots(b));
    }
  }

  lemma ConcatAssoc(k: seq<Message>, p: seq<Message>, q: seq<Message>)
    ensures k + (p + q) == (k + p) + q
  {
  }

  lemma StripCons(m: Message, rest: seq<Message>)
    ensures StripSnapshots([m] + rest) == Kept(m) + StripSnapshots(rest)
  {
    assert ([m] + rest)[0] == m && ([m] + rest)[1..] == rest;
  }

  /** Stripping keeps exactly the messages that are not snapshots. */
  lemma {:induction false} StripKeepsOthers(h: seq<Message>, m: Message)
    ensures m in StripSnapshots(h) <==> m in h && !IsSnapshot(m)
  {
    if |h| > 0 {
      StripKeepsOthers(h[1..], m);
      assert h == [h[0]] + h[1..];
      assert m in h <==> m == h[0] || m in h[1..];
    }
  }

  lemma StripOne(m: Message)
    ensures StripSnapshots([m]) == if IsSnapshot(m) then [] else [m]
  {
    assert [m][1..] == [];
  }

  lemma {:induction false} StripClean(h: seq<Message>)
    requires Clean(h)
    ensures StripSnapshots(h) == h
  {
    if |h| > 0 {
      StripClean(h[1..]);
      assert [h[0]] + h[1..] == h;
    }
  }

  /** The injection step: strip, then put the fresh snapshot at index 0. */
  function InjectSnapshot(h: seq<Message>, payload: string): (r: seq<Message>)
    ensures |r| > 0 && r[0] == SnapshotMessage(payload)
    ensures r[1..] == StripSnapshots(h)
    ensures forall i :: 0 <= i < |r| ==> (IsSnapshot(r[i]) <==> i == 0)
  {
    [SnapshotMessage(payload)] + StripSnapshots(h)
  }

  /** Injecting again replaces the earlier snapshot: the history never holds
      more than one, and the older one leaves no trace. */
  lemma InjectTwice(h: seq<Message>, p1: string, p2: string)
    ensures InjectSnapshot(InjectSnapshot(h, p1), p2) == InjectSnapshot(h, p2)
  {
    var s := StripSnapshots(h);
    var m1 := SnapshotMessage(p1);
    StripConcat([m1], s);
    StripOne(m1);
    StripClean(s);
    assert InjectSnapshot(h, p1) == [m1] + s;
    assert StripSnapshots([m1] + s) == s;
  }

  /** The snapshot is written with the rest of the history: serialization
      does not filter it, so the stored record starts with it. */
  lemma SnapshotIsPersisted(c: ChatContext, payload: string)
    requires |c.history| > 0 && c.history[0] == SnapshotMessage(payload)
    ensures |Serialize(c).chatHistory| > 0
    ensures Serialize(c).chatHistory[0].role == Some("system")
    ensures Serialize(c).chatHistory[0].content == Some(SnapshotLine(payload))
  {
  }

  // ---------------------------------------------------------------- reading the payload back

  /** The JSON text of a snapshot line: after the prefix, leading whitespace,
      then one optional colon and the whitespace after it, are dropped. */
  function PayloadOf(text: string): string
    requires StartsWith(text, PatientContextPrefix)
  {
    var rest := StripLeft(text[|PatientContextPrefix|..]);
    if |rest| > 0 && rest[0] == ':' then StripLeft(rest[1..]) else rest
  }

  lemma StripLeftKeeps(s: string)
    requires |s| > 0 && !IsSpace(s[0])
    ensures StripLeft(s) == s
  {
  }

  lemma StripLeftDrops(c: char, s: string)
    requires IsSpace(c)
    ensures StripLeft([c] + s) == StripLeft(s)
  {
    assert ([c] + s)[1..] == s;
  }

  lemma PayloadOfLine(payload: string)
    ensures PayloadOf(SnapshotLine(payload)) == StripLeft(payload)
  {
    var line := SnapshotLine(payload);
    var after := [':'] + ([' '] + payload);
    assert line == PatientContextPrefix + after;
    assert line[|PatientContextPrefix|..] == after;
    StripLeftKeeps(after);
    assert after[1..] == [' '] + payload;
    StripLeftDrops(' ', payload);
  }

  /** `_get_system_patient_context_json`: scanning from the newest message,
      the payload of the first snapshot met, or none when it is empty or
      there is no snapshot. */
  function SystemPatientContextJson(h: seq<Message>): (r: Option<string>)
    ensures Clean(h) ==> r == None
    ensures r.Some? ==> r.value != ""
  {
    if |h| == 0 then None
    else
      var m := h[|h| - 1];
      if IsSnapshot(m) then
        var p := PayloadOf(LeadingText(m));
        if p == "" then None else Some(p)
      else
        if Clean(h) then
          CleanPrefix(h, |h| - 1);
          SystemPatientContextJson(h[..|h| - 1])
        else SystemPatientContextJson(h[..|h| - 1])
  }

  lemma CleanPrefix(h: seq<Message>, k: int)
    requires Clean(h) && 0 <= k <= |h|
    ensures Clean(h[..k])
  {
    var t := h[..k];
    forall i | 0 <= i < |t| ensures !IsSnapshot(t[i]) {
      assert t[i] == h[i];
    }
  }

  lemma ScanStep(h: seq<Message>)
    requires |h| > 0 && !IsSnapshot(h[|h| - 1])
    ensures SystemPatientContextJson(h) == SystemPatientContextJson(h[..|h| - 1])
  {
  }

  /** Messages after the last snapshot do not change what the scan finds. */
  lemma {:induction false} ScanSkipsClean(a: seq<Message>, b: seq<Message>)
    requires Clean(b)
    ensures SystemPatientContextJson(a + b) == SystemPatientContextJson(a)
    decreases |b|
  {
    if |b| > 0 {
      var ab := a + b;
      var b' := b[..|b| - 1];
      assert ab[|ab| - 1] == b[|b| - 1];
      ScanStep(ab);
      assert ab[..|ab| - 1] == a + b';
      CleanPrefix(b, |b| - 1);
      ScanSkipsClean(a, b');
    } else {
      assert a + b == a;
    }
  }

  /** After injection, and whatever non-snapshot messages the turn appends,
      the scan finds exactly the fresh payload (less leading whitespace). */
  lemma PayloadAfterInject(h: seq<Message>, payload: string, appended: seq<Message>)
    requires Clean(appended)
    ensures SystemPatientContextJson(InjectSnapshot(h, payload) + appended)
         == if StripLeft(payload) == "" then None else Some(StripLeft(payload))
  {
    var inj := InjectSnapshot(h, payload);
    assert inj + appended == [SnapshotMessage(payload)] + (StripSnapshots(h) + appended);
    assert Clean(StripSnapshots(h) + appended) by {
      var t := StripSnapshots(h) + appended;
      forall i | 0 <= i < |t| ensures !IsSnapshot(t[i]) {
        if i < |StripSnapshots(h)| {
          assert t[i] == StripSnapshots(h)[i];
        } else {
          assert t[i] == appended[i - |StripSnapshots(h)|];
        }
      }
    }
    ScanSkipsClean([SnapshotMessage(payload)], StripSnapshots(h) + appended);
    PayloadOfLine(payload);
    var one := [SnapshotMessage(payload)];
    assert one[..|one| - 1] == [];
    assert LeadingText(SnapshotMessage(payload)) == SnapshotLine(payload);
  }

  // ---------------------------------------------------------------- the PT_CTX display

  /** `obj.get("all_patient_ids") or []`, sorted; only a list of strings is
      rendered. */
  function DisplayIds(o: Obj): seq<string> {
    if "all_patient_ids" in o && o["all_patient_ids"].JArr? && Strings(o["all_patient_ids"].items).Some?
    then SortStrings(Strings(o["all_patient_ids"].items).value)
    else []
  }

  /** One roster entry: the id in backticks, marked when it is the active one. */
  function RosterEntry(p: string, active: Option<string>): string {
    "`" + p + "`" + (if active == Some(p) then " (active)" else "")
  }

  function RosterEntries(ids: seq<string>, active: Option<string>): (r: seq<string>)
    ensures |r| == |ids|
    ensures forall i :: 0 <= i < |ids| ==> r[i] == RosterEntry(ids[i], active)
  {
    seq(|ids|, i requires 0 <= i < |ids| => RosterEntry(ids[i], active))
  }

  /** The block appended to a reply for display, from the active id, the
      (sorted) roster and the conversation id. */
  function PtCtxLines(pid: Option<string>, ids: seq<string>, cid: Option<string>): string {
    "\n\n---" + "\n*PT_CTX:*"
    + (if Truthy(pid) then "\n- **Patient ID:** `" + pid.value + "`" else "\n- *No active patient.*")
    + (if |ids| > 0 then "\n- **Session Patients:** " + Join(", ", RosterEntries(ids, pid)) else "")
    + (if Truthy(cid) then "\n- **Conversation ID:** `" + cid.value + "`" else "")
  }

  function DisplayBlock(o: Obj): string {
    PtCtxLines(Str(o, "patient_id"), DisplayIds(o), Str(o, "conversation_id"))
  }

  /** `_append_pc_ctx_display`: the reply, followed by the PT_CTX block when
      the latest snapshot decodes to an object. A payload that decodes to
      something other than an object makes the lookup raise. */
  function AppendPcCtxDisplay(base: string, h: seq<Message>, load: Load): (r: Result<string>)
    ensures r.Ok? ==> StartsWith(r.value, base)
    ensures SystemPatientContextJson(h).None? ==> r == Ok(base)
    ensures SystemPatientContextJson(h).Some? && load(SystemPatientContextJson(h).value).None? ==> r == Ok(base)
    ensures r.Raised? <==> SystemPatientContextJson(h).Some? && load(SystemPatientContextJson(h).value).Some?
                           && !load(SystemPatientContextJson(h).value).value.JObj?
  {
    match SystemPatientContextJson(h)
    case None => Ok(base)
    case Some(payload) =>
      match load(payload)
      case None => Ok(base)
      case Some(JObj(o)) => Ok(base + DisplayBlock(o))
      case Some(_) => Raised(OtherError("object has no attribute 'get'"))
  }

  /** The block shown for a freshly injected snapshot, as the snapshot's own
      fields determine it. */
  function DisplayOf(d: SnapshotData): string {
    PtCtxLines(d.patientId, SortStrings(d.allPatientIds), Some(d.conversationId))
  }

  lemma DisplayBlockOfSnapshot(d: SnapshotData)
    ensures DisplayBlock(SnapshotJson(d)) == DisplayOf(d)
  {
    var o := SnapshotJson(d);
    assert o["patient_id"] == OptStrJson(d.patientId);
    assert Str(o, "patient_id") == d.patientId;
    assert o["conversation_id"] == JStr(d.conversationId);
    assert Str(o, "conversation_id") == Some(d.conversationId);
    assert o["all_patient_ids"] == JArr(StrArray(d.allPatientIds));
    StringsOfStrArray(d.allPatientIds);
    assert DisplayIds(o) == SortStrings(d.allPatientIds);
  }

  /** With a JSON codec that reads back what it writes, the display of a
      turn's reply is the reply followed by the block for the injected
      snapshot, whatever the turn appended after it. */
  lemma DisplayOfInjectedSnapshot(base: string, h: seq<Message>, d: SnapshotData, dump: Dump, load: Load,
                                  appended: seq<Message>)
    requires Clean(appended)
    requires StripLeft(dump(d)) == dump(d) && dump(d) != ""
    requires load(dump(d)) == Some(JObj(SnapshotJson(d)))
    ensures AppendPcCtxDisplay(base, InjectSnapshot(h, dump(d)) + appended, load) == Ok(base + DisplayOf(d))
  {
    var hist := InjectSnapshot(h, dump(d)) + appended;
    PayloadAfterInject(h, dump(d), appended);
    DisplayOfPayload(base, hist, load, dump(d), SnapshotJson(d));
    DisplayBlockOfSnapshot(d);
  }

  lemma DisplayOfPayload(base: string, h: seq<Message>, load: Load, payload: string, o: Obj)
    requires SystemPatientContextJson(h) == Some(payload) && load(payload) == Some(JObj(o))
    ensures AppendPcCtxDisplay(base, h, load) == Ok(base + DisplayBlock(o))
  {
  }
}

=== FILE: storage.dfy ===
/** The blob container both accessors run over, as a map from blob path to
    stored document, together with the set of paths whose I/O fails with an
    error other than "not found" (the failure oracle). Documents are kept at
    the level of the JSON schema their writers produce. */
module BlobStore {
  import opened Outcomes
  import opened JsonValues

  // ---------------------------------------------------------------- documents

  /** A chat-history entry of a context document. Each key may be missing;
      `items` holds the `text` of each item object, `None` where it has none. */
  datatype StoredMessage = StoredMessage(
    role: Option<string>,
    content: Option<string>,
    items: Option<seq<Option<string>>>,
    name: Option<string>)

  /** A context document. The list and map fields read as empty when their
      key is missing, which is how `data.get(key, [])` treats them. */
  datatype ContextDocument = ContextDocument(
    schemaVersion: Option<int>,
    conversationId: Option<string>,
    patientId: Option<string>,
    workflowSummary: Json,
    chatHistory: seq<StoredMessage>,
    patientData: seq<Json>,
    displayBlobUrls: seq<string>,
    displayImageUrls: seq<string>,
    displayClinicalTrials: seq<string>,
    outputData: seq<Json>,
    healthcareAgents: map<string, Json>)

  /** A registry document: the conversation, the active patient id, one
      entry object per patient, and when it was written. */
  datatype RegistryDocument = RegistryDocument(
    conversationId: string,
    activePatientId: Option<string>,
    patientRegistry: map<string, Obj>,
    stamp: string)

  datatype Blob =
    | ContextBlob(doc: ContextDocument)
    | RegistryBlob(registry: RegistryDocument)
    | RegistryArchiveBlob(archived: RegistryDocument)
    | Undecodable

  // ---------------------------------------------------------------- the store

  datatype Storage = Storage(blobs: map<string, Blob>, failing: set<string>)

  /** The clock reading of one operation, in the renderings the code uses:
      `%Y%m%dT%H%M%S`, `%Y-%m-%dT%H-%M-%S-%f`, and the timezone-aware and
      naive ISO forms. */
  datatype Instant = Instant(compact: string, folder: string, iso: string, isoNaive: string)

  function Download(st: Storage, key: string): (r: Result<Blob>)
    ensures r.Ok? <==> key !in st.failing && key in st.blobs
    ensures r.Ok? ==> r.value == st.blobs[key]
    ensures r == Raised(ResourceNotFound(key)) <==> key !in st.failing && key !in st.blobs
  {
    if key in st.failing then Raised(StorageError(key))
    else if key !in st.blobs then Raised(ResourceNotFound(key))
    else Ok(st.blobs[key])
  }

  /** `upload_blob(..., overwrite=True)`. */
  function Upload(st: Storage, key: string, b: Blob): (r: Result<Storage>)
    ensures r.Ok? <==> key !in st.failing
    ensures r.Ok? ==> r.value == st.(blobs := st.blobs[key := b])
    ensures r.Raised? ==> r.error == StorageError(key)
  {
    if key in st.failing then Raised(StorageError(key))
    else Ok(st.(blobs := st.blobs[key := b]))
  }

  function Delete(st: Storage, key: string): (r: Result<Storage>)
    ensures r.Ok? <==> key !in st.failing && key in st.blobs
    ensures r.Ok? ==> r.value == st.(blobs := st.blobs - {key})
    ensures r == Raised(ResourceNotFound(key)) <==> key !in st.failing && key !in st.blobs
  {
    if key in st.failing then Raised(StorageError(key))
    else if key !in st.blobs then Raised(ResourceNotFound(key))
    else Ok(st.(blobs := st.blobs - {key}))
  }

  /** A delete whose "not found" outcome is ignored, as both accessors do. */
  function DeleteIfPresent(st: Storage, key: string): (r: Result<Storage>)
    ensures r.Ok? <==> key !in st.failing
    ensures r.Ok? ==> r.value == st.(blobs := st.blobs - {key})
  {
    match Delete(st, key)
    case Ok(s) => Ok(s)
    case Raised(e) => if e.ResourceNotFound? then Ok(st) else Raised(e)
  }

  /** Every path outside `keys` holds what it held before. */
  predicate SameOutside(a: Storage, b: Storage, keys: set<string>) {
    && a.failing == b.failing
    && (forall k :: k in a.blobs && k !in keys ==> k in b.blobs && a.blobs[k] == b.blobs[k])
    && (forall k :: k in b.blobs && k !in keys ==> k in a.blobs)
  }

  lemma SameOutsideTrans(a: Storage, b: Storage, c: Storage, ka: set<string>, kb: set<string>)
    requires SameOutside(a, b, ka) && SameOutside(b, c, kb)
    ensures SameOutside(a, c, ka + kb)
  {
  }
}

=== FILE: text.dfy ===
/** Python string operations the orchestrator relies on, stated over `string`
    (a sequence of Unicode scalar values): `str.strip`, `str.lower` (ASCII part),
    the `in` substring test, `startswith`, `split`/`join`/`replace`, and the
    code-point ordering used by `sorted`. */
module Text {

  // ---------------------------------------------------------------- whitespace

  /** The characters for which Python's `str.isspace()` holds; `str.strip()`
      with no argument removes exactly these. */
  predicate IsSpace(c: char) {
    var n := c as int;
    || (0x09 <= n <= 0x0D) || (0x1C <= n <= 0x20) || n == 0x85 || n == 0xA0
    || n == 0x1680 || (0x2000 <= n <= 0x200A) || n == 0x2028 || n == 0x2029
    || n == 0x202F || n == 0x205F || n == 0x3000
  }

  predicate AllSpace(s: string) {
    forall i :: 0 <= i < |s| ==> IsSpace(s[i])
  }

  /** `s.lstrip()` */
  function StripLeft(s: string): (r: string)
    ensures |r| <= |s| && r == s[|s| - |r|..]
    ensures AllSpace(s[..|s| - |r|])
    ensures |r| > 0 ==> !IsSpace(r[0])
    decreases |s|
  {
    if |s| > 0 && IsSpace(s[0]) then
      var r := StripLeft(s[1..]);
      assert s[1..][..|s[1..]| - |r|] == s[1..|s| - |r|];
      r
    else s
  }

  /** `s.rstrip()` */
  function StripRight(s: string): (r: string)
    ensures |r| <= |s| && r == s[..|r|]
    ensures AllSpace(s[|r|..])
    ensures |r| > 0 ==> !IsSpace(r[|r| - 1])
    decreases |s|
  {
    if |s| > 0 && IsSpace(s[|s| - 1]) then
      var r := StripRight(s[..|s| - 1]);
      assert s[..|s| - 1][|r|..] == s[|r|..|s| - 1];
      r
    else s
  }

  /** `s.strip()`: the result is empty exactly when `s` is whitespace only,
      and otherwise starts and ends with a non-space character. */
  function Strip(s: string): (r: string)
    ensures |r| <= |s|
    ensures |r| == 0 <==> AllSpace(s)
    ensures |r| > 0 ==> !IsSpace(r[0]) && !IsSpace(r[|r| - 1])
  {
    var l := StripLeft(s);
    var r := StripRight(l);
    StripFacts(s, l, r);
    r
  }

  lemma StripFacts(s: string, l: string, r: string)
    requires l == StripLeft(s) && r == StripRight(l)
    ensures |r| == 0 <==> AllSpace(s)
    ensures |r| > 0 ==> !IsSpace(r[0])
  {
    var k := |s| - |l|;
    if |r| == 0 {
      assert l[|r|..] == l;
      assert s[..k] == s;
    } else {
      assert r[0] == l[0] == s[k];
    }
  }

  // ---------------------------------------------------------------- case

  function LowerChar(c: char): char {
    if 'A' <= c <= 'Z' then (c as int + 32) as char else c
  }

  /** `s.lower()` restricted to ASCII letters: other characters are kept. */
  function Lower(s: string): (r: string)
    ensures |r| == |s|
    ensures forall i :: 0 <= i < |s| ==> r[i] == LowerChar(s[i])
  {
    seq(|s|, i requires 0 <= i < |s| => LowerChar(s[i]))
  }

  predicate HasUpper(s: string) {
    exists i :: 0 <= i < |s| && 'A' <= s[i] <= 'Z'
  }

  lemma LowerHasNoUpper(s: string)
    ensures !HasUpper(Lower(s))
  {
  }

  lemma LowerOfSlice(s: string, i: int, j: int)
    requires 0 <= i <= j <= |s|
    ensures Lower(s[i..j]) == Lower(s)[i..j]
  {
  }

  lemma LowerOfConcat(a: string, b: string)
    ensures Lower(a + b) == Lower(a) + Lower(b)
  {
  }

  // ---------------------------------------------------------------- prefix and substring

  /** `s.startswith(p)` */
  predicate StartsWith(s: string, p: string) {
    |p| <= |s| && s[..|p|] == p
  }

  /** Python's `sub in s`, as a left-to-right scan. */
  predicate Contains(s: string, sub: string)
    decreases |s|
  {
    StartsWith(s, sub) || (|s| > 0 && Contains(s[1..], sub))
  }

  /** The scan agrees with the positional definition of a substring. */
  lemma {:induction false} ContainsIff(s: string, sub: string)
    ensures Contains(s, sub) <==> exists i :: 0 <= i <= |s| && StartsWith(s[i..], sub)
    decreases |s|
  {
    if Contains(s, sub) {
      if StartsWith(s, sub) {
        assert s[0..] == s;
      } else {
        ContainsIff(s[1..], sub);
        var i :| 0 <= i <= |s[1..]| && StartsWith(s[1..][i..], sub);
        assert s[1..][i..] == s[i + 1..];
      }
    }
    if exists i :: 0 <= i <= |s| && StartsWith(s[i..], sub) {
      var i :| 0 <= i <= |s| && StartsWith(s[i..], sub);
      if i == 0 {
        assert s[0..] == s;
      } else {
        assert s[1..][i - 1..] == s[i..];
        ContainsIff(s[1..], sub);
      }
    }
  }

  lemma ContainsAt(s: string, sub: string, i: int)
    requires 0 <= i <= |s| && StartsWith(s[i..], sub)
    ensures Contains(s, sub)
  {
    ContainsIff(s, sub);
  }

  lemma ContainsWitness(s: string, sub: string) returns (i: int)
    requires Contains(s, sub)
    ensures 0 <= i <= |s| - |sub| && s[i..i + |sub|] == sub
  {
    ContainsIff(s, sub);
    i :| 0 <= i <= |s| && StartsWith(s[i..], sub);
    assert s[i..][..|sub|] == s[i..i + |sub|];
  }

  /** A substring of a substring is a substring. */
  lemma ContainsTransitive(a: string, b: string, c: string)
    requires Contains(a, b) && Contains(b, c)
    ensures Contains(a, c)
  {
    var i := ContainsWitness(a, b);
    var j := ContainsWitness(b, c);
    forall t | 0 <= t < |c| ensures a[i + j..][..|c|][t] == c[t] {
      assert c[t] == b[j + t] == a[i + j + t];
    }
    assert a[i + j..][..|c|] == c;
    ContainsAt(a, c, i + j);
  }

  lemma ContainsConcatRight(a: string, b: string, sub: string)
    requires Contains(b, sub)
    ensures Contains(a + b, sub)
  {
    var j := ContainsWitness(b, sub);
    assert (a + b)[|a| + j..][..|sub|] == b[j..j + |sub|];
    ContainsAt(a + b, sub, |a| + j);
  }

  lemma ContainsConcatLeft(a: string, b: string, sub: string)
    requires Contains(a, sub)
    ensures Contains(a + b, sub)
  {
    var j := ContainsWitness(a, sub);
    assert (a + b)[j..][..|sub|] == a[j..j + |sub|];
    ContainsAt(a + b, sub, j);
  }

  /** Lower-casing preserves the substring relation. */
  lemma ContainsLower(t: string, s: string)
    requires Contains(t, s)
    ensures Contains(Lower(t), Lower(s))
  {
    var i := ContainsWitness(t, s);
    LowerOfSlice(t, i, i + |s|);
    assert Lower(t)[i..][..|s|] == Lower(t)[i..i + |s|];
    ContainsAt(Lower(t), Lower(s), i);
  }

  /** A string with an upper-case letter cannot
      occur inside a string without upper-case letters. */
  lemma NoUpperExcludes(t: string, s: string)
    requires HasUpper(s) && !HasUpper(t)
    ensures !Contains(t, s)
  {
    if Contains(t, s) {
      var i := ContainsWitness(t, s);
    }
  }

  // ---------------------------------------------------------------- split, join, replace

  /** `s.split(sep)` for a non-empty separator. */
  function SplitOn(s: string, sep: string): (parts: seq<string>)
    requires |sep| > 0
    ensures |parts| > 0
    decreases |s|
  {
    if |s| < |sep| then [s]
    else if s[..|sep|] == sep then [""] + SplitOn(s[|sep|..], sep)
    else
      var rest := SplitOn(s[1..], sep);
      [[s[0]] + rest[0]] + rest[1..]
  }

  /** `sep.join(parts)` */
  function Join(sep: string, parts: seq<string>): string
    decreases |parts|
  {
    if |parts| == 0 then ""
    else if |parts| == 1 then parts[0]
    else parts[0] + sep + Join(sep, parts[1..])
  }

  /** `s.replace(pat, repl)` for a non-empty `pat`: occurrences are replaced
      left to right without overlap. */
  function Replace(s: string, pat: string, repl: string): string
    requires |pat| > 0
    decreases |s|
  {
    if |s| < |pat| then s
    else if s[..|pat|] == pat then repl + Replace(s[|pat|..], pat, repl)
    else [s[0]] + Replace(s[1..], pat, repl)
  }

  lemma JoinConsFirst(sep: string, c: char, parts: seq<string>)
    requires |parts| > 0
    ensures Join(sep, [[c] + parts[0]] + parts[1..]) == [c] + Join(sep, parts)
  {
    var ps := [[c] + parts[0]] + parts[1..];
    if |parts| == 1 {
    } else {
      assert ps[1..] == parts[1..];
    }
  }

  lemma JoinEmptyFirst(sep: string, parts: seq<string>)
    requires |parts| > 0
    ensures Join(sep, [""] + parts) == sep + Join(sep, parts)
  {
    assert ([""] + parts)[1..] == parts;
  }

  /** `s.replace(pat, repl) == repl.join(s.split(pat))`. */
  lemma {:induction false} ReplaceIsJoinOfSplit(s: string, pat: string, repl: string)
    requires |pat| > 0
    ensures Replace(s, pat, repl) == Join(repl, SplitOn(s, pat))
    decreases |s|
  {
    if |s| < |pat| {
    } else if s[..|pat|] == pat {
      ReplaceIsJoinOfSplit(s[|pat|..], pat, repl);
      JoinEmptyFirst(repl, SplitOn(s[|pat|..], pat));
    } else {
      ReplaceIsJoinOfSplit(s[1..], pat, repl);
      JoinConsFirst(repl, s[0], SplitOn(s[1..], pat));
    }
  }

  /** Splitting on a separator and joining with it again gives back the string. */
  lemma {:induction false} JoinSplitRoundTrip(s: string, sep: string)
    requires |sep| > 0
    ensures Join(sep, SplitOn(s, sep)) == s
    decreases |s|
  {
    if |s| < |sep| {
    } else if s[..|sep|] == sep {
      JoinSplitRoundTrip(s[|sep|..], sep);
      JoinEmptyFirst(sep, SplitOn(s[|sep|..], sep));
      assert s == s[..|sep|] + s[|sep|..];
    } else {
      JoinSplitRoundTrip(s[1..], sep);
      JoinConsFirst(sep, s[0], SplitOn(s[1..], sep));
      assert s == [s[0]] + s[1..];
    }
  }

  /** A string without any occurrence of `pat` is left as is by replace. */
  lemma {:induction false} ReplaceAbsent(s: string, pat: string, repl: string)
    requires |pat| > 0 && !Contains(s, pat)
    ensures Replace(s, pat, repl) == s
    decreases |s|
  {
    if |s| < |pat| {
    } else {
      assert !StartsWith(s, pat);
      ReplaceAbsent(s[1..], pat, repl);
    }
  }

  /** `s.split(sep, 1)[0]`: the text before the first separator (all of `s`
      when there is none). */
  function BeforeFirst(s: string, sep: string): (r: string)
    requires |sep| > 0
    ensures StartsWith(s, r)
  {
    var p := SplitOn(s, sep);
    SplitFirstIsPrefix(s, sep);
    p[0]
  }

  lemma {:induction false} SplitFirstIsPrefix(s: string, sep: string)
    requires |sep| > 0
    ensures StartsWith(s, SplitOn(s, sep)[0])
    decreases |s|
  {
    if |s| < |sep| {
    } else if s[..|sep|] == sep {
    } else {
      SplitFirstIsPrefix(s[1..], sep);
    }
  }

  /** `s.split("/")[-1]` */
  function LastSegment(s: string): string {
    var p := SplitOn(s, "/");
    p[|p| - 1]
  }

  // ---------------------------------------------------------------- ordering

  /** Python's `a <= b` on strings: lexicographic by code point. */
  predicate LexLe(a: string, b: string)
    decreases |a|
  {
    |a| == 0 || (|b| > 0 && (a[0] < b[0] || (a[0] == b[0] && LexLe(a[1..], b[1..]))))
  }

  lemma {:induction false} LexLeReflexive(a: string)
    ensures LexLe(a, a)
    decreases |a|
  {
    if |a| > 0 {
      LexLeReflexive(a[1..]);
    }
  }

  lemma {:induction false} LexLeTotal(a: string, b: string)
    ensures LexLe(a, b) || LexLe(b, a)
    decreases |a|
  {
    if |a| > 0 && |b| > 0 && a[0] == b[0] {
      LexLeTotal(a[1..], b[1..]);
    }
  }

  lemma {:induction false} LexLeAntisymmetric(a: string, b: string)
    requires LexLe(a, b) && LexLe(b, a)
    ensures a == b
    decreases |a|
  {
    if |a| > 0 && |b| > 0 {
      LexLeAntisymmetric(a[1..], b[1..]);
      assert a == [a[0]] + a[1..];
      assert b == [b[0]] + b[1..];
    }
  }

  lemma {:induction false} LexLeTransitive(a: string, b: string, c: string)
    requires LexLe(a, b) && LexLe(b, c)
    ensures LexLe(a, c)
    decreases |a|
  {
    if |a| > 0 && |b| > 0 && |c| > 0 && a[0] == b[0] && b[0] == c[0] {
      LexLeTransitive(a[1..], b[1..], c[1..]);
    }
  }

  predicate Sorted(s: seq<string>) {
    forall i, j :: 0 <= i < j < |s| ==> LexLe(s[i], s[j])
  }

  function Insert(x: string, s: seq<string>): (r: seq<string>)
    requires Sorted(s)
    ensures Sorted(r)
    ensures multiset(r) == multiset(s) + multiset{x}
    decreases |s|
  {
    if |s| == 0 then [x]
    else if LexLe(x, s[0]) then
      assert forall j :: 0 < j < |s| ==> LexLe(x, s[j]) by {
        forall j | 0 < j < |s| ensures LexLe(x, s[j]) {
          LexLeTransitive(x, s[0], s[j]);
        }
      }
      [x] + s
    else
      var t := Insert(x, s[1..]);
      LexLeTotal(x, s[0]);
      assert forall y :: y in t ==> LexLe(s[0], y) by {
        forall y | y in t ensures LexLe(s[0], y) {
          assert y in multiset(t);
          assert y == x || y in multiset(s[1..]);
          if y != x {
            var j :| 0 <= j < |s[1..]| && s[1..][j] == y;
            assert s[j + 1] == y;
          }
        }
      }
      assert s == [s[0]] + s[1..];
      [s[0]] + t
  }

  /** `sorted(xs)` for a list of strings. */
  function SortStrings(xs: seq<string>): (r: seq<string>)
    ensures Sorted(r)
    ensures multiset(r) == multiset(xs)
    decreases |xs|
  {
    if |xs| == 0 then []
    else
      assert xs == [xs[0]] + xs[1..];
      Insert(xs[0], SortStrings(xs[1..]))
  }

  predicate IsLeast(m: string, ids: set<string>) {
    m in ids && forall y :: y in ids ==> LexLe(m, y)
  }

  lemma {:induction false} LeastExists(ids: set<string>)
    requires ids != {}
    ensures exists m :: IsLeast(m, ids)
    decreases |ids|
  {
    var x :| x in ids;
    var rest := ids - {x};
    if rest == {} {
      LexLeReflexive(x);
      assert ids == {x};
      assert IsLeast(x, ids);
    } else {
      LeastExists(rest);
      var m :| IsLeast(m, rest);
      LexLeTotal(x, m);
      if LexLe(m, x) {
        assert IsLeast(m, ids);
      } else {
        LexLeReflexive(x);
        assert LexLe(x, m);
        forall y | y in ids ensures LexLe(x, y) {
          if y != x {
            assert y in rest;
            assert LexLe(m, y);
            LexLeTransitive(x, m, y);
          }
        }
        assert IsLeast(x, ids);
      }
    }
  }

  lemma LeastUnique(ids: set<string>)
    ensures forall a, b :: IsLeast(a, ids) && IsLeast(b, ids) ==> a == b
  {
    forall a, b | IsLeast(a, ids) && IsLeast(b, ids) ensures a == b {
      LexLeAntisymmetric(a, b);
    }
  }

  lemma SortedCons(m: string, rest: seq<string>)
    requires Sorted(rest)
    requires forall i :: 0 <= i < |rest| ==> LexLe(m, rest[i])
    ensures Sorted([m] + rest)
  {
    var r := [m] + rest;
    forall i, j | 0 <= i < j < |r| ensures LexLe(r[i], r[j]) {
      if i > 0 {
        assert r[i] == rest[i - 1] && r[j] == rest[j - 1];
      } else {
        assert r[j] == rest[j - 1];
      }
    }
  }

  /** `sorted(d.keys())`: the keys in ascending code-point order, each once. */
  function SortedIds(ids: set<string>): (r: seq<string>)
    ensures Sorted(r)
    ensures |r| == |ids|
    ensures forall x :: x in r <==> x in ids
    decreases |ids|
  {
    if ids == {} then []
    else
      LeastExists(ids);
      LeastUnique(ids);
      var m :| IsLeast(m, ids);
      var rest := SortedIds(ids - {m});
      assert forall i :: 0 <= i < |rest| ==> LexLe(m, rest[i]) by {
        forall i | 0 <= i < |rest| ensures LexLe(m, rest[i]) {
          assert rest[i] in rest;
        }
      }
      SortedCons(m, rest);
      [m] + rest
  }
}

=== FILE: turn_steps.dfy ===
/** The per-turn steps the WebSocket route and the Teams bot share: the clear
    command, the wholesale swap to the active patient's stored history, and
    the snapshot injection that follows it. */
module TurnSteps {
  import opened Outcomes
  import opened Text
  import opened ChatContexts
  import opened BlobStore
  import opened ChatContextAccessor
  import opened RegistryAccessor
  import opened PatientContextService
  import opened Snapshots

  // ---------------------------------------------------------------- clear

  const ClearPhrases: seq<string> := ["clear", "clear patient", "clear context", "clear patient context"]

  /** The lower-cased, stripped text is one of the four phrases. */
  predicate IsClearCommand(content: string) {
    Strip(Lower(content)) in ClearPhrases
  }

  lemma LowerIdempotent(s: string)
    ensures Lower(Lower(s)) == Lower(s)
  {
  }

  /** Case does not matter to the clear command. */
  lemma ClearCommandIgnoresCase(content: string)
    ensures IsClearCommand(Lower(content)) <==> IsClearCommand(content)
  {
    LowerIdempotent(content);
  }

  /** The context left after a clear: no active patient, no roster, no
      history; the conversation and the display fields are kept. */
  function ClearedContext(c: ChatContext): (r: ChatContext)
    ensures r.patientId == None && r.patientContexts == map[] && r.history == []
    ensures r.conversationId == c.conversationId
  {
    c.(patientId := None, patientContexts := map[], history := [])
  }

  /** The archival part of a clear, under `archive/<timestamp>`: the session
      slot, then the slot of each patient the registry lists (read after the
      session move), then the registry itself. A registry failure is
      swallowed; the slot moves never raise. */
  function ArchiveForClear(st: Storage, cid: string, now: Instant): (r: Storage)
    ensures r.failing == st.failing
    ensures RegistryPath(cid) !in st.failing && RegistryArchivePath(cid, now.compact) !in st.failing ==>
      ReadRegistry(r, cid).0 == map[]
  {
    var folder := "archive/" + now.folder;
    var ids := SortedIds(ReadRegistry(ArchiveToFolder(st, cid, None, folder, now.compact), cid).0.Keys);
    var st1 := ArchiveContexts(st, cid, ids, folder, now.compact);
    assert ReadRegistry(ArchiveToFolder(st, cid, None, folder, now.compact), cid) == ReadRegistry(st, cid) by {
      RegistryIsNoContextKey(cid, cid, None, folder, now.compact);
    }
    match ArchiveRegistry(st1, cid, now)
    case Ok(s) => s
    case Raised(_) => st1
  }

  /** `_handle_clear_command` (both front ends): `None` when the text is not
      a clear command. Otherwise the cleared context and the outcome of
      writing it, which targets the session slot since the cleared context
      has no patient; the reset happens whatever the archival did. */
  function HandleClear(st: Storage, c: ChatContext, content: string, now: Instant)
    : (r: Option<(ChatContext, Result<Storage>)>)
    ensures r.None? <==> !IsClearCommand(content)
    ensures r.Some? ==> r.value.0 == ClearedContext(c)
    ensures r.Some? ==> (r.value.1.Ok? <==> BlobPath(c.conversationId, None) !in st.failing)
  {
    if !IsClearCommand(content) then None
    else
      var cleared := ClearedContext(c);
      Some((cleared, Write(ArchiveForClear(st, c.conversationId, now), cleared)))
  }

  /** The stores a clear writes to accept the writes: the session slot, the
      registry and the registry's archive slot. */
  predicate ClearCanWrite(st: Storage, cid: string, now: Instant) {
    && BlobPath(cid, None) !in st.failing
    && RegistryPath(cid) !in st.failing
    && RegistryArchivePath(cid, now.compact) !in st.failing
  }

  /** After a clear whose writes all succeed, the session slot reads back
      empty and the registry reads back empty. */
  lemma ClearLeavesNothing(st: Storage, c: ChatContext, content: string, now: Instant)
    requires IsClearCommand(content)
    requires BlobPath(c.conversationId, None) !in st.failing
    requires RegistryPath(c.conversationId) !in st.failing
    requires RegistryArchivePath(c.conversationId, now.compact) !in st.failing
    ensures var r := HandleClear(st, c, content, now).value.1;
            && r.Ok?
            && Read(r.value, c.conversationId, None).history == []
            && Read(r.value, c.conversationId, None).patientId == None
            && ReadRegistry(r.value, c.conversationId).0 == map[]
  {
    var cid := c.conversationId;
    var st1 := ArchiveForClear(st, cid, now);
    var cleared := ClearedContext(c);
    WriteThenRead(st1, cleared);
    RegistryIsNoContextKey(cid, cid, None, "", "");
    assert Write(st1, cleared).Ok?;
    assert ReadRegistry(Write(st1, cleared).value, cid) == ReadRegistry(st1, cid);
  }

  // ---------------------------------------------------------------- history for the turn

  /** Step 5: with an active patient, that patient's stored history replaces
      the in-memory one wholesale, but only when it is non-empty. */
  function IsolatedSwap(st: Storage, c: ChatContext): (r: ChatContext)
    ensures r == c.(history := r.history)
    ensures !Truthy(c.patientId) ==> r == c
    ensures Truthy(c.patientId) ==>
      var stored := Read(st, c.conversationId, c.patientId).history;
      r.history == if stored == [] then c.history else stored
  {
    if Truthy(c.patientId) then
      var isolated := Read(st, c.conversationId, c.patientId);
      if |isolated.history| > 0 then c.(history := isolated.history) else c
    else c
  }

  /** Steps 5 and 5.5: swap, then strip old snapshots and put a fresh one,
      describing the context as it now is, at index 0. */
  function PrepareHistory(st: Storage, c: ChatContext, dump: Dump, generatedAt: string): (r: ChatContext)
    ensures r == c.(history := r.history)
    ensures r.history == InjectSnapshot(IsolatedSwap(st, c).history, dump(SnapshotOf(c, generatedAt)))
  {
    var swapped := IsolatedSwap(st, c);
    swapped.(history := InjectSnapshot(swapped.history, dump(SnapshotOf(swapped, generatedAt))))
  }

  /** A patient whose slot is empty keeps the session history: nothing is
      lost when a patient is first activated. */
  lemma EmptySlotKeepsSession(st: Storage, c: ChatContext)
    requires Truthy(c.patientId)
    requires Loaded(st, BlobPath(c.conversationId, c.patientId)).None?
    ensures IsolatedSwap(st, c) == c
  {
  }
}
